=== FILE: README.md ===
# Realtime WHO Health Dashboard — a Dafny model

This project models the logic core of the Realtime WHO Health Dashboard, a
Next.js application with two halves:

- **The health half.** A server route polls an indicator source every five
  seconds. It compares each reading with the last value remembered for its
  `country-indicator` key. It stores changed readings and streams them to
  browsers as server-sent events. The home page keeps the newest 50 updates
  and reconnects after errors. The dashboard components turn the stored
  indicator rows into charts, rankings and a coloured world map.
- **The inventory half.** Medicines are created with defaults. Low stock
  triggers a reorder request, and completing a reorder request restocks the
  medicine. Expiry is classified in days. The inventory components chart low
  stock, label stock status and compute summary statistics.

Every source file of the core has its own Dafny module:

| module | source |
|---|---|
| `WhoStream` (stream.dfy) | app/api/who/stream/route.ts |
| `WhoApi` (who_api.dfy) | lib/who-api.ts |
| `InventoryStore` (inventory_store.dfy) | the inventory records and store shared by the next three |
| `InventoryUtils` (inventory_utils.dfy) | lib/inventory-utils.ts |
| `ReorderRoute` (reorder_route.dfy) | app/api/reorder/route.ts |
| `MedicinesRoute` (medicines_route.dfy) | app/api/medicines/route.ts |
| `StockChart`, `StockTable`, `Dashboard` | components/StockChart.tsx, StockTable.tsx, Dashboard.tsx |
| `HealthRows` (health_rows.dfy) | the indicator rows and the group-sum, distinct-country, latest-row and first-match idioms that the health components share |
| `CountryComparison`, `HealthChart`, `HealthTrendChart`, `HealthBarChart`, `CategoryDistribution`, `WorldMap`, `HealthDashboard` | the components of the same names |
| `LiveFeed` (live_feed.dfy) | app/page.tsx |
| `Common`, `Sorting` | JavaScript built-ins: `||` defaults, `slice`, `substring`, `trim`, `toLowerCase`, `includes`, `parseInt`, and the stable `Array.prototype.sort` |

The model takes the source's own form:

- **Stream loop.** The change-detection loop is the class
  `WhoStream.StreamPoller`. It holds the `previousValues` map, an abstract
  store and the sequence of emitted events. Its methods are proved equal to
  the specification functions `Step`, `Steps` and `Cycle`, and the lemmas
  state the stream's promises about those functions.
- **Route handlers.** These are methods that change the `InventoryStore.Store`
  object. Each is proved equal to a pure function on the tables, and the
  lemmas are proved about that function.
- **Stateful components.** Components that keep state are classes:
  `StockTableView`, `DashboardView`, `HealthDashboardView` and
  `LiveFeed.Feed`.
- **Pure components.** Components that only compute are functions over
  sequences of rows.
- **Upstream adapter.** `fetchWHOIndicators` is a group of methods:
  `ForEach`, `TransformItems`, `TransformEndpoints`, `GroupByKey` and
  `FetchIndicators`. Each is proved equal to a function. One `transformed`
  sequence is shared by all endpoints. An item whose name cannot be trimmed
  (a null item, or a non-string name) makes the `forEach` throw; the catch
  keeps what was pushed and goes on to the next endpoint.

Modelling conventions:

- **Numbers** are mathematical integers. `Math.floor(v / k)` for a positive
  `k` is Dafny's `/`.
- **Dates** are millisecond timestamps.
- **Inputs.** Random draws, the clock, upstream responses and store failures
  are parameters.
- **Missing values.** A missing or NaN value is `None` in a row. Most
  components read it through `value || 0`, as 0. HealthChart divides the
  value with no default (components/HealthChart.tsx:42), so its point holds
  NaN, which the model keeps as `None`.
- **JavaScript `Map` and object keys.** These keep first-insertion order. The
  model holds them as sequences, where a new key is appended and an existing
  key is overwritten in place.

In three places the code does less than the application's domain suggests,
and the model follows the code:

- An update through one medicine's route checks for a reorder when the new
  stock is at or below the minimum
  (app/api/medicines/[medicineId]/route.ts:106-109). Creating a medicine
  makes no such check (app/api/medicines/route.ts:33-71), so a medicine
  created with a low initial stock gets no reorder request
  (`MedicinesRoute.PostMedicineNoReorder`).
- The reorder handler sets whatever status string it is sent, with no check
  of the previous status, and restocks on every "completed"
  (app/api/reorder/route.ts:39-58). Completing a request twice therefore
  restocks twice (`ReorderRoute.DoubleCompletion`).
- A reading belongs to a (country, indicator) pair, but grouping and change
  detection key on the string `country + "-" + indicator`
  (lib/who-api.ts:131, app/api/who/stream/route.ts:37; `WhoApi.Key`).
  Under that key, distinct pairs can collide (`WhoApi.KeysMayCollide`).

## Model

| member | source | states |
|---|---|---|
| WhoApi.MatchTarget | lib/who-api.ts:96-100 | the match is the first target whose lower-cased form contains, or is contained in, the lower-cased cleaned name; nothing is matched exactly when no target matches |
| WhoApi.CleanName | lib/who-api.ts:93-94 | the name is the trimmed `SpatialDim` when that is a non-empty string, otherwise the trimmed `COUNTRY` when that is, otherwise "Unknown"; it has no surrounding white space |
| WhoApi.TransformItemReading | lib/who-api.ts:92-113 | an item throws exactly when it is unreadable; otherwise it yields a reading iff its value is positive and, under a country filter, its cleaned name matches the filter; the reading keeps the item's value, is never an alert, and takes the filter's spelling, or without a filter the first matching roster spelling, else the cleaned name |
| WhoApi.RunThrows | lib/who-api.ts:92-115 | a `forEach` pass throws exactly when some item's body throws |
| WhoApi.RunSticks | lib/who-api.ts:92-115 | after a throw the pass pushes nothing more |
| WhoApi.RunPushed | lib/who-api.ts:92-115 | every pushed reading is the reading of some item's body |
| WhoApi.TransformAllThrows | lib/who-api.ts:92-115 | the pass over an endpoint's items throws exactly when one of them is unreadable |
| WhoApi.TransformAllReadings | lib/who-api.ts:92-115 | every transformed reading is positive and not an alert, and under a filter it names the filtered country |
| WhoApi.EndpointsExtends | lib/who-api.ts:86-124 | the endpoint loop only appends to the shared `transformed` list |
| WhoApi.EndpointsReadings | lib/who-api.ts:86-124 | starting from well-formed readings, the loop adds only well-formed ones |
| WhoApi.TransformedReadings | lib/who-api.ts:86-124 | every reading the endpoint loop leaves is positive, not an alert, and under a filter names the filtered country, thrown passes included |
| WhoApi.PartialThenNext | lib/who-api.ts:86-123 | an endpoint that throws part-way keeps its partial readings, and the next completed endpoint's readings follow them |
| WhoApi.NoThrow | lib/who-api.ts:92-94 | an endpoint whose first 100 items are all readable never throws |
| WhoApi.EndpointsHead | lib/who-api.ts:86-124 | when no pass throws, the loop stops at the first endpoint if it pushes anything and otherwise continues as if it were absent |
| WhoApi.FirstYield | lib/who-api.ts:86-124 | the first endpoint that pushes anything is an endpoint index, or the count when none does |
| WhoApi.FirstYieldIsFirst | lib/who-api.ts:86-124 | that endpoint pushes something and every endpoint before it pushes nothing |
| WhoApi.FirstYieldResult | lib/who-api.ts:86-124 | for any pass that never throws, the loop's result is the readings of the first endpoint that pushes any, or nothing when none does |
| WhoApi.TransformedFirst | lib/who-api.ts:86-124 | when no item throws, the loop keeps the readings of the first endpoint that yields any, all earlier endpoints yielded none, and the result is empty only when every endpoint yields nothing |
| WhoApi.ForEach | lib/who-api.ts:92-115 | the loop appends to the shared list exactly the readings the body pushes, in item order, and stops at the first item that throws, reporting the throw |
| WhoApi.TransformItems | lib/who-api.ts:92-115 | the `forEach` over one endpoint's items appends the pass's readings to the shared list and reports whether it threw |
| WhoApi.TransformEndpoints | lib/who-api.ts:86-124 | the endpoint loop with its catch and `break` leaves the shared list as the endpoint loop function says, each endpoint cut to its first 100 items |
| WhoApi.PlaceNew | lib/who-api.ts:131-134 | a reading with an unseen key is appended after all stored readings |
| WhoApi.PlaceExisting | lib/who-api.ts:131-134 | a reading whose key is stored replaces the stored one in its position only when its date is strictly later, otherwise nothing changes |
| WhoApi.Place | lib/who-api.ts:131-134 | a grouping step adds at most one reading |
| WhoApi.GroupLatestNonEmpty | lib/who-api.ts:127-135 | grouping a non-empty list yields a non-empty list no longer than it |
| WhoApi.GroupLatestStep | lib/who-api.ts:130-134 | one grouping step in index form: append for a new key, a strictly-later replacement in place for a stored key |
| WhoApi.GroupLatestDistinct | lib/who-api.ts:129-135 | after grouping, each `country-indicator` key appears at most once |
| WhoApi.GroupLatestCovers | lib/who-api.ts:129-135 | every key of the input is the key of some grouped reading |
| WhoApi.GroupLatestSubset | lib/who-api.ts:129-135 | grouping keeps only readings of the input |
| WhoApi.GroupLatestIsLatest | lib/who-api.ts:132 | each kept reading has the latest date among the input readings of its key |
| WhoApi.GroupLatestFirstSeen | lib/who-api.ts:132-133 | among the readings of its key that carry the latest date, the kept one is the first seen (ties keep the first) |
| WhoApi.GroupByKey | lib/who-api.ts:129-137 | the grouping loop over a `Map`, read back in insertion order, computes the latest-per-key grouping |
| WhoApi.KeysMayCollide | lib/who-api.ts:131 | two readings of different (country, indicator) pairs can share a `country-indicator` key |
| WhoApi.FilterCountry | lib/who-api.ts:137-139 | under a filter exactly the readings of that country remain, all from the input; without a filter nothing is removed |
| WhoApi.FilterCountryAppend | lib/who-api.ts:137-139 | filtering a concatenation filters each part, so the filter keeps the input order |
| WhoApi.FilterCountryKeeps | lib/who-api.ts:137-139 | the filter removes nothing from a list that already passes it |
| WhoApi.FetchedReal | lib/who-api.ts:127-140 | when an endpoint yields readings the result is exactly their latest-per-key grouping, because the final filter removes nothing |
| WhoApi.Fetched | lib/who-api.ts:75-151 | under a country filter every returned reading, real or synthetic, has exactly that country; without a filter the result is never empty |
| WhoApi.FetchIndicators | lib/who-api.ts:75-151 | the fetch procedure returns the readings of the first yielding endpoint grouped and filtered, otherwise the filtered synthetic set |
| WhoApi.MockData | lib/who-api.ts:154-184 | 42 readings, country-major over the 6-country by 7-indicator roster, each valued max(0, base + offset) |
| WhoApi.MockDataBounds | lib/who-api.ts:170-181 | every synthetic value lies in [0, base + variance - 1], so no synthetic reading is ever an alert |
| WhoApi.MockDataPairsDistinct | lib/who-api.ts:168-184 | the synthetic set holds one reading per (country, indicator) pair |
| WhoApi.MockUpdate | lib/who-api.ts:227-238 | the synthetic update's country and indicator come from the rosters, value is in [1000, 50999], change in [-500, 499], timestamp is the clock in whole seconds |
| WhoStream.Upsert | app/api/who/stream/route.ts:55-116 | a store write changes only the reading's pair, keeps every existing id, and only appends to the log |
| WhoStream.UpsertKeepsValid | app/api/who/stream/route.ts:55-116 | a store write keeps ids fresh and distinct and every record pointing at its pair's indicator |
| WhoStream.Change | app/api/who/stream/route.ts:42 | the change is current minus previous when a value is remembered and 0 on first observation |
| WhoStream.EventFor | app/api/who/stream/route.ts:47-53 | the event copies the reading's country, indicator and value; its timestamp is the clock in whole seconds |
| WhoStream.StepEmission | app/api/who/stream/route.ts:38-53 | a reading emits exactly one event iff its key is unseen or its value differs, nothing otherwise, and the event carries the change from the remembered value |
| WhoStream.StepRemembers | app/api/who/stream/route.ts:123 | after a reading its key remembers its value, emitted or not, and every other key is unchanged |
| WhoStream.StepFaultIrrelevant | app/api/who/stream/route.ts:55-119 | a store failure changes neither what is emitted nor what is remembered |
| WhoStream.StepRecords | app/api/who/stream/route.ts:57-112 | with a working store an emitted reading logs exactly one record; it points at the pair's existing indicator, which is updated in place, or at a newly created one, and an unemitted reading leaves the store alone |
| WhoStream.StepsKeepStoreValid | app/api/who/stream/route.ts:36-124 | every batch keeps the store invariant (fresh distinct ids, records pointing at their pair) |
| WhoStream.StepsFaultIrrelevant | app/api/who/stream/route.ts:36-124 | store failures change neither the events of a batch nor the values it leaves remembered |
| WhoStream.StepsRecordPerEvent | app/api/who/stream/route.ts:57-119 | with a working store a batch logs exactly one record per emitted event |
| WhoStream.StepsRemember | app/api/who/stream/route.ts:123 | after a batch with distinct keys every reading's value is the one remembered for its key |
| WhoStream.StepsQuiet | app/api/who/stream/route.ts:45 | a batch whose every value is already remembered changes nothing |
| WhoStream.SecondPassSilent | app/api/who/stream/route.ts:36-124 | processing the same batch without repeated keys twice in a row: the second pass emits nothing and changes nothing |
| WhoStream.CycleFallback | app/api/who/stream/route.ts:125-135 | an empty or failed fetch emits exactly one synthetic update with a roster country and leaves the remembered values and the store untouched |
| WhoStream.FetchNeverEmpty | app/api/who/stream/route.ts:32-34 | the unfiltered fetch never returns an empty batch, so the cycle's fallback is reached only when the fetch throws |
| WhoStream.StreamPoller.constructor | app/api/who/stream/route.ts:7 | the poller starts with no remembered values and no emitted events |
| WhoStream.StreamPoller.SaveReading | app/api/who/stream/route.ts:55-116 | the lookup-then-update-or-create sequence leaves the store as the store write says and touches nothing else |
| WhoStream.StreamPoller.ProcessReading | app/api/who/stream/route.ts:37-123 | the loop body leaves the poller in the state of one change-detection step |
| WhoStream.StreamPoller.ProcessBatch | app/api/who/stream/route.ts:36-124 | the `for` loop leaves the poller in the state of the batch's steps |
| WhoStream.StreamPoller.Tick | app/api/who/stream/route.ts:29-135 | one interval callback leaves the poller in the state of one cycle |
| WhoStream.Frame | app/api/who/stream/route.ts:15-23 | a frame is the payload plus its 8 framing characters |
| WhoStream.Unframe | app/api/who/stream/route.ts:15-23 | a recovered payload is 8 characters shorter than its frame |
| WhoStream.UnframeFrame | app/api/who/stream/route.ts:15-23 | a frame's payload is recovered from it |
| WhoStream.FrameUnframe | app/api/who/stream/route.ts:15-23 | anything that unframes is exactly the frame of its payload |
| WhoStream.FrameSingleLine | app/api/who/stream/route.ts:15-23 | a payload without line breaks frames as one `data:` line followed by the blank line that dispatches it |
| WhoStream.SessionOutput | app/api/who/stream/route.ts:15-26 | a connection writes the connected message first, then one health-update message per emitted event, each recoverable from its frame |
| WhoStream.FrameUpdate | app/api/who/stream/route.ts:20-23 | a health-update frame unframes to the envelope around the event's JSON text |
| WhoStream.ConnectedIsNotUpdate | app/api/who/stream/route.ts:15-23 | the connected frame differs from every health-update frame |
| InventoryUtils.ReorderCheck | lib/inventory-utils.ts:5-42 | existing requests are never changed; one pending request for maxStock - stock is added iff the store works, the medicine exists, its stock is at or below minStock and nothing is pending for it; restocking by it reaches maxStock |
| InventoryUtils.ReorderCheckAtMostOnePending | lib/inventory-utils.ts:17-36 | if no medicine has two pending requests before the check, none has after it |
| InventoryUtils.ReorderCheckIdempotent | lib/inventory-utils.ts:17-24 | once a check has gone through, a second check for the same medicine changes nothing |
| InventoryUtils.CheckAndCreateReorder | lib/inventory-utils.ts:5-42 | the procedure changes the requests as the check says and leaves medicines, transactions and publications unchanged |
| InventoryUtils.DifferenceInDays | lib/inventory-utils.ts:73 | the whole number of days between two instants, truncated toward zero |
| InventoryUtils.ExpirationStatus | lib/inventory-utils.ts:68-84 | expired with 0 days iff the expiry is before now; expiring soon iff fewer than 31 whole days remain, with days in [0, 30]; ok with more than 30 days otherwise; days left are the whole days to the expiry |
| InventoryUtils.ExpirationMonotone | lib/inventory-utils.ts:68-84 | a later expiry never gets an earlier status nor fewer days left |
| InventoryUtils.ExpiringBy | lib/inventory-utils.ts:49-54 | exactly the medicines expiring at or before the limit, each as many times as in the input |
| InventoryUtils.ExpiringMedicines | lib/inventory-utils.ts:45-65 | exactly the medicines expiring within 30 days of now, each as many times as in the input, ordered by expiry ascending, or nothing when the query fails |
| InventoryUtils.ExpiringMatchesStatus | lib/inventory-utils.ts:45-84 | every listed medicine is expired or expiring soon, and every expired medicine is listed |
| ReorderRoute.PostReorder | app/api/reorder/route.ts:27-67 | 400 iff id or status is missing or empty, with the store unchanged; 500 with the store unchanged for an unknown id; on 200 the request's status is the given string and a completion had its medicine; no row is added or removed |
| ReorderRoute.PostReorderEffect | app/api/reorder/route.ts:39-57 | only the given request changes, to the given status; stock changes only on "completed", only for that request's medicine and by its quantity; a missing medicine answers 500 after the status is set |
| ReorderRoute.DoubleCompletion | app/api/reorder/route.ts:39-57 | completing the same request twice adds its quantity twice |
| ReorderRoute.Post | app/api/reorder/route.ts:27-67 | the handler leaves the tables and answers as the handler function says, with transactions and publications unchanged |
| MedicinesRoute.Created | app/api/medicines/route.ts:33-43 | a missing or zero stock is stored as 0, minStock as 10 and maxStock as 100; the other fields are copied |
| MedicinesRoute.PostMedicine | app/api/medicines/route.ts:28-80 | 500 with nothing stored iff a required field is missing or the id is taken; otherwise 201 with the created medicine stored under its id; reorder requests are never touched |
| MedicinesRoute.PostMedicineLogs | app/api/medicines/route.ts:47-71 | one "added" transaction and one stock update are produced iff the initial stock is positive; they carry the medicine's id, its stock and the initial stock as quantity |
| MedicinesRoute.PostMedicineNoReorder | app/api/medicines/route.ts:28-80 | creating a medicine at or below its minimum stock creates no reorder request |
| MedicinesRoute.PostMedicineAsWritten | app/api/medicines/route.ts:46-80 | as written, a medicine with initial stock is stored and the client still gets 500, and no stock update is ever published |
| MedicinesRoute.AsWrittenFailsAfterStoring | app/api/medicines/route.ts:70 | a concrete body for which the handler as written stores the medicine and its transaction and answers 500 where the corrected one answers 201 |
| MedicinesRoute.Post | app/api/medicines/route.ts:28-80 | the handler changes the store and answers as the corrected handler function says |
| StockChart.LowStockOnly | components/StockChart.tsx:21 | a medicine is in the result iff it is in the input with stock at or below minStock; the result is no longer than the input |
| StockChart.LowStockOnlyCounts | components/StockChart.tsx:21 | each low-stock medicine is kept as many times as it occurs in the input, every other medicine not at all |
| StockChart.LowStockOnlyAppend | components/StockChart.tsx:21 | filtering a concatenation is concatenating the filtered parts, so the input order is kept |
| StockChart.LowStockOnlyCons | components/StockChart.tsx:21 | the filter keeps or drops the first medicine and filters the rest |
| StockChart.LowStockWithKey | components/StockChart.tsx:21 | keeping the low-stock medicines and keeping the medicines of one stock can be done in either order |
| StockChart.Chosen | components/StockChart.tsx:22-25 | the low-stock medicines when any is low, otherwise all medicines |
| StockChart.Ranked | components/StockChart.tsx:26-31 | the chosen medicines, rearranged, in ascending order of stock |
| StockChart.ChosenUniform | components/StockChart.tsx:26-31 | on the chosen medicines the comparator only ever compares stock |
| StockChart.EntryOf | components/StockChart.tsx:33-39 | an entry copies stock, minStock and id, flags low stock iff stock is at or below minStock, and cuts names longer than 15 to 15 characters plus "..." |
| StockChart.Entries | components/StockChart.tsx:33-39 | one entry per medicine, in order |
| StockChart.ChartData | components/StockChart.tsx:21-39 | at most 10 entries, exactly min(10, number of chosen medicines) |
| StockChart.RankedFollowsComparator | components/StockChart.tsx:26-32 | chart order never puts a medicine before one the comparator ranks earlier, and no medicine left out after the cut ranks strictly before a kept one |
| StockChart.ChartShowsOnlyLowWhenAnyLow | components/StockChart.tsx:21-25 | when any medicine is low stock every entry is a low-stock one |
| StockChart.ChartStable | components/StockChart.tsx:21-31 | the medicines of one stock appear in chart order exactly as in the input: all of them when none is low, the low-stock ones among them when any is |
| StockChart.BuildChart | components/StockChart.tsx:21-39 | the chart on the given array, which is reordered by stock when no medicine is low and left alone otherwise |
| Sorting.SortBy | components/StockChart.tsx:26-31 | sorting keeps length and contents (a permutation) and orders by the key |
| Sorting.SortByStable | components/StockChart.tsx:26-31 | sorting keeps the relative order of elements with equal keys |
| Sorting.TakeKeepsSmallest | components/StockChart.tsx:32 | after a sort, nothing cut off by `slice(0, n)` has a smaller key than a kept element |
| Sorting.SortInPlace | components/StockChart.tsx:26-31 | the in-place sort leaves the array holding the sorted sequence |
| Common.OrString | lib/who-api.ts:93 | a present non-empty string is kept, an absent or empty one gives the default, so a non-empty default always gives a non-empty result |
| Common.OrInt | lib/who-api.ts:110 | a present nonzero number is kept, an absent or zero one gives the default, so a nonzero default always gives a nonzero result |
| Common.Lower | lib/who-api.ts:98-99 | lower-casing keeps the length and maps each character |
| Common.TrimStart | lib/who-api.ts:94 | only a leading run of white space is removed, and the result does not start with white space |
| Common.TrimEnd | lib/who-api.ts:94 | only a trailing run of white space is removed, and the result does not end with white space |
| Common.Trim | lib/who-api.ts:94 | the result is a slice of the string with only white space cut off before and after it (`StripsSpace`); it neither starts nor ends with white space, and is empty exactly when the string is all white space |
| Common.TrimOfParts | lib/who-api.ts:94 | cutting leading and then trailing white space cuts both ends, and leaves nothing exactly when the string is all white space |
| Common.TrimKeepsTrimmed | lib/who-api.ts:94 | a string that neither starts nor ends with white space is left as it is |
| Common.TrimIdempotent | lib/who-api.ts:94 | trimming a trimmed name changes nothing |
| Common.ContainsAt | lib/who-api.ts:98-99 | `includes` holds exactly when the substring occurs at some offset |
| Common.Take | components/HealthChart.tsx:38 | `slice(0, n)` is a prefix of length min(n, length) |
| Common.TruncateShape | components/HealthChart.tsx:41 | a name within the limit is unchanged; a longer one becomes its first n characters followed by the suffix |
| HealthRows.AddTotal | components/CountryComparison.tsx:26-32 | adding a value creates the country's entry at the end if absent and adds the value to that country's total only |
| HealthRows.GroupSum | components/CountryComparison.tsx:24-32 | one entry per country having the indicator, in first-appearance order, each holding the sum of its values with missing ones as 0 |
| HealthRows.GroupSumEntries | components/CountryComparison.tsx:24-32 | the group-sum's countries are distinct, each entry's total is its country's sum, and its countries are exactly those having the indicator |
| HealthRows.FirstDistinct | components/HealthBarChart.tsx:25 | `Array.from(new Set(...))` has no repeats and holds exactly the input's names |
| HealthRows.FindValue | components/HealthBarChart.tsx:47-51 | the value (missing as 0) of the first row matching country and indicator, or 0 when none matches |
| HealthRows.Scaled | components/HealthBarChart.tsx:51-54 | the figure is the floor of the looked-up value divided by the divisor |
| HealthRows.TopTotals | components/CountryComparison.tsx:34-37 | the ranking has min(n, number of countries having the indicator) entries |
| HealthRows.TopTotalsDistinct | components/CountryComparison.tsx:34-37 | the ranking lists each country at most once |
| HealthRows.TopTotalsSums | components/CountryComparison.tsx:34-37 | each ranked country has the indicator and carries its sum |
| HealthRows.TopTotalsOrdered | components/CountryComparison.tsx:36 | ranked totals never increase |
| HealthRows.TopTotalsTies | components/CountryComparison.tsx:34-37 | the ranking is a prefix of the sorted group totals, and countries with equal totals keep the order of their first appearance |
| HealthRows.TopTotalsDominates | components/CountryComparison.tsx:36-37 | every ranked total is at least the sum of every country left out |
| HealthRows.SetEntry | components/HealthChart.tsx:31-37 | `Map.set` appends a new country or overwrites the country's entry in place; other entries are unchanged |
| HealthRows.EntryFor | components/HealthChart.tsx:31-37 | the entry found for a country is an entry of that country, and none is found exactly when the country is absent |
| HealthRows.LastMatch | components/HealthChart.tsx:31-37 | a found row matches the country and indicator |
| HealthRows.LastMatchIsLast | components/HealthChart.tsx:31-37 | the row found is a matching row with no matching row after it, and none is found only when no row matches |
| HealthRows.LatestByCountry | components/HealthChart.tsx:31-37 | one row per country having the indicator, in first-appearance order, each being that country's last such row |
| HealthRows.LatestByCountryAt | components/HealthChart.tsx:31-37 | each kept row is the last row of its country with the indicator |
| HealthRows.FirstCountries | components/HealthBarChart.tsx:25 | the first n distinct countries by first appearance, with no repeats and each having a row |
| HealthRows.FirstCountriesFull | components/HealthBarChart.tsx:25 | a country with rows is left out only when n countries are already listed |
| CountryComparison.SortedCountries | components/CountryComparison.tsx:24-37 | at most 10 countries: min(10, number of countries with Total Cases rows) |
| CountryComparison.SortedCountriesRanked | components/CountryComparison.tsx:24-37 | the listed countries are distinct, carry their Total Cases sums, never increase, and each is at least every country left out |
| CountryComparison.RankBadge | components/CountryComparison.tsx:39-44 | trophy, award and medal exactly for indices 0, 1 and 2; any other index shows index + 1 |
| CountryComparison.RankColor | components/CountryComparison.tsx:46-51 | blue exactly from index 3 on |
| CountryComparison.Thousands | components/CountryComparison.tsx:94 | the figure is the total's floor in thousands |
| CountryComparison.Card | components/CountryComparison.tsx:76-94 | one line per ranked country, in rank order: the country, its total in thousands, trophy, award and medal exactly at places 1 to 3, the place number from 4 on, and blue exactly from place 4 on |
| CountryComparison.CardShowsSums | components/CountryComparison.tsx:24-94 | each line shows a distinct country with Total Cases rows and its Total Cases sum in thousands |
| CountryComparison.CardFiguresOrdered | components/CountryComparison.tsx:34-37 | the displayed figures never increase down the card |
| CountryComparison.ThousandsMonotone | components/CountryComparison.tsx:94 | a larger total never shows a smaller figure |
| HealthChart.PointOf | components/HealthChart.tsx:39-43 | a point keeps the country, holds the value's floor in thousands when the value is present and NaN when it is missing, and cuts names longer than 10 to 10 characters plus "..." |
| HealthChart.Points | components/HealthChart.tsx:39-43 | one point per row, in order |
| HealthChart.Candidates | components/HealthChart.tsx:31-38 | the first 10 entries of the country map: the first 10 countries by first appearance, chosen before any sorting |
| HealthChart.ChartData | components/HealthChart.tsx:31-44 | min(10, number of countries with Total Cases rows) points, a rearrangement of the candidates' points, in non-increasing order of thousands when no value is NaN |
| HealthChart.ChartTies | components/HealthChart.tsx:31-44 | points with equal thousands keep the order of the first-appearance candidates (stable sort) |
| HealthChart.ChartDefinedIff | components/HealthChart.tsx:31-44 | no point is NaN exactly when every candidate row has a value |
| HealthChart.HasDataIff | components/HealthChart.tsx:46 | the chart has data iff some row is a Total Cases row |
| HealthChart.ChartCountries | components/HealthChart.tsx:31-44 | the chart shows exactly the first 10 countries by first appearance, each once |
| HealthChart.ChartValues | components/HealthChart.tsx:31-44 | each point is made from its country's last Total Cases row |
| HealthChart.CandidatesAreLatest | components/HealthChart.tsx:31-38 | each candidate is its country's last Total Cases row |
| HealthTrendChart.TopCountries | components/HealthTrendChart.tsx:35-38 | at most 5 countries |
| HealthTrendChart.TopCountriesRanked | components/HealthTrendChart.tsx:25-38 | the top countries are distinct, have Total Cases rows, come in non-increasing order of their sums, and each outranks every country left out |
| HealthTrendChart.ChartData | components/HealthTrendChart.tsx:55-68 | one point per top country, in rank order |
| HealthTrendChart.PointValues | components/HealthTrendChart.tsx:55-67 | the i-th point holds floor(first Total Cases / 1000) + 10i, floor(first Deaths / 100) and floor(first Recovered / 1000) + 8i, missing rows as 0, and the name cut at 15 with "..." |
| HealthTrendChart.TwoCountriesHaveData | components/HealthTrendChart.tsx:55-70 | with non-negative values and two or more countries shown the chart has data, because of the 10i offset |
| HealthBarChart.ChartData | components/HealthBarChart.tsx:25-56 | min(6, number of distinct countries) bars, for the first 6 countries by first appearance |
| HealthBarChart.BarValues | components/HealthBarChart.tsx:46-56 | each bar holds the first matching row's value in thousands for Total Cases, Recovered and Active Cases and in hundreds for Deaths, missing rows as 0, and the name cut at 12 with "..." |
| HealthBarChart.ChartCountries | components/HealthBarChart.tsx:25 | the bars name distinct countries that have rows, and a country is left out only when 6 are shown |
| HealthBarChart.HasDataIff | components/HealthBarChart.tsx:58 | the chart has data iff some shown country's first Total Cases value is at least 1000 |
| CategoryDistribution.ChartData | components/CategoryDistribution.tsx:25-40 | min(6, number of distinct countries) entries, for the first 6 countries by first appearance |
| CategoryDistribution.EntryValues | components/CategoryDistribution.tsx:28-39 | the label is the first 10 characters of the full name with no ellipsis; the figures are the first matching values in thousands, in hundreds for Deaths and unscaled for Vaccination Rate, missing rows as 0 |
| CategoryDistribution.LabelsMayCollide | components/CategoryDistribution.tsx:32 | two different countries can share a label |
| CategoryDistribution.HasDataIff | components/CategoryDistribution.tsx:65 | the chart has data iff some shown country's first Total Cases value is at least 1000 |
| WorldMap.BandOf | components/WorldMap.tsx:67-77 | no data iff the value is 0; otherwise the band follows value / max at thresholds 0.8, 0.6, 0.4 and 0.2, exactly |
| WorldMap.RatioAtLeast | components/WorldMap.tsx:70-76 | a ratio threshold k/5 is met iff 5 * value >= k * max |
| WorldMap.BandMonotone | components/WorldMap.tsx:70-76 | for a fixed max, a larger nonzero value never gets a lower band |
| WorldMap.ZeroIsNoData | components/WorldMap.tsx:68 | a zero value is coloured #1a1a1a whatever the max |
| WorldMap.HcKey | components/WorldMap.tsx:43-64 | the table's key for a listed country, otherwise the lower-cased first two characters |
| WorldMap.HcKeyShape | components/WorldMap.tsx:105 | a map key has at most two characters and no upper-case letter |
| WorldMap.MaxValue | components/WorldMap.tsx:101 | the max is at least 1 and at least every total, and it is 1 or some country's total |
| WorldMap.ProcessedData | components/WorldMap.tsx:87-127 | one map point per country with Total Cases rows, with a max of at least 1 |
| WorldMap.ProcessedPoints | components/WorldMap.tsx:91-124 | each point has its country's key, its total's floor in thousands, and the colour of its total against the max |
| WorldMap.LargestIsHigh | components/WorldMap.tsx:101-116 | the country with the largest positive total is coloured pink |
| StockTable.GetStockStatus | components/StockTable.tsx:58-62 | "Habis" iff stock is 0, "Rendah" iff stock is nonzero and at most minStock, "Aman" otherwise |
| StockTable.StatusAgreesWithLowStock | components/StockTable.tsx:58-62 | with a non-negative minimum the status is not "Aman" exactly for low-stock medicines |
| StockTable.EmptyButNotLow | components/StockTable.tsx:59-60 | a medicine with no stock and a negative minimum is "Habis" but not low stock |
| StockTable.LeadingDigits | components/StockTable.tsx:27 | the length of the longest leading run of digits |
| StockTable.ParseNumeral | components/StockTable.tsx:27 | `parseInt` reads back any decimal numeral, whatever follows it |
| StockTable.ParseNegativeNumeral | components/StockTable.tsx:27 | `parseInt` reads back any negative decimal numeral |
| StockTable.ParseUnsigned | components/StockTable.tsx:27 | a string starting with a digit parses to its magnitude: no white space or sign is stripped |
| StockTable.ParseSigned | components/StockTable.tsx:27 | a leading minus sign negates the magnitude |
| StockTable.UpdateStockEffect | components/StockTable.tsx:26-56 | an invalid quantity only raises an alert; a valid one sends one request and clears `updating`; success resets only that medicine's field and refreshes once; a failed or thrown request leaves quantity and refresh count alone and appends exactly one alert to the old ones: the server's error message (or "Gagal memperbarui stok") on failure, the unexpected-error message on a throw |
| StockTable.EmptyFieldMeansOne | components/StockTable.tsx:27 | an empty or missing field requests quantity 1 |
| StockTable.SuccessResetsToOne | components/StockTable.tsx:27-44 | after a successful update that medicine's field again requests quantity 1 |
| StockTable.StockTableView.constructor | components/StockTable.tsx:23-24 | the table starts with no quantities, no update in progress and no alerts |
| StockTable.StockTableView.SetQuantity | components/StockTable.tsx:24 | typing changes only that medicine's field |
| StockTable.StockTableView.UpdateStock | components/StockTable.tsx:26-56 | the handler leaves the table in the state the update effect says |
| Dashboard.StatsOf | components/Dashboard.tsx:71-90 | the medicine count is the list's length, and the low-stock and pending counts are bounded by their lists |
| Dashboard.LowStockZeroIff | components/Dashboard.tsx:73 | the low-stock count is 0 iff no medicine has stock at or below its minimum |
| Dashboard.PendingZeroIff | components/Dashboard.tsx:79 | the pending count is 0 iff no request has status exactly "pending" |
| Dashboard.TotalValueAdds | components/Dashboard.tsx:74 | the total value is additive over lists and non-negative for non-negative stock and prices |
| Dashboard.DashboardView.constructor | components/Dashboard.tsx:31-36 | all stats start at 0 |
| Dashboard.DashboardView.CalculateStats | components/Dashboard.tsx:71-90 | a failed reorder fetch updates no stat; otherwise all four stats are recomputed |
| HealthDashboard.StatsOf | components/HealthDashboard.tsx:70-89 | active outbreaks are always 0, a non-array input gives zeros, and countries never exceed rows |
| HealthDashboard.CountriesCounted | components/HealthDashboard.tsx:73 | the country count is the number of distinct names, 0 iff there are no rows |
| HealthDashboard.TotalCasesIsSumOfCountryTotals | components/HealthDashboard.tsx:74-76 | total cases equal the sum of the per-country Total Cases totals |
| HealthDashboard.HealthDashboardView.constructor | components/HealthDashboard.tsx:31-36 | all stats start at 0 |
| HealthDashboard.HealthDashboardView.CalculateStats | components/HealthDashboard.tsx:70-89 | the stats become those of the current indicators |
| LiveFeed.PushBounded | app/page.tsx:37 | the new update comes first, the list keeps at most 50 entries, and the rest is a prefix of the old list |
| LiveFeed.PushKeepsRecent | app/page.tsx:37 | every old update that still fits moves back by one place |
| LiveFeed.Feed.constructor | app/page.tsx:12-20 | mounting opens one source, not yet connected, with an empty list |
| LiveFeed.Feed.OnOpen | app/page.tsx:22-27 | opening sets connected only while mounted and changes nothing else |
| LiveFeed.Feed.OnMessage | app/page.tsx:29-42 | a health update is pushed onto the bounded list, "connected" sets connected, and any other or unparseable message, or one after unmount, changes nothing |
| LiveFeed.Feed.OnError | app/page.tsx:44-57 | while mounted an error disconnects, closes the source and schedules one reconnect; otherwise nothing changes |
| LiveFeed.Feed.ReconnectFires | app/page.tsx:50-55 | a pending reconnect opens a new source while mounted |
| LiveFeed.Feed.Unmount | app/page.tsx:62-66 | cleanup unmounts, clears the pending reconnect and closes the source |
| LiveFeed.UnmountSilences | app/page.tsx:29-66 | after unmount no message, error, timer or open event changes the list or opens a source |

Several definitions carry no contract of their own. Their meaning is stated by the lemmas about them in the table above:

- `WhoStream.Step`: `StepEmission`, `StepRemembers`, `StepFaultIrrelevant` and `StepRecords`.
- `WhoStream.Steps`: `StepsKeepStoreValid`, `StepsFaultIrrelevant`, `StepsRecordPerEvent`, `StepsRemember`, `StepsQuiet` and `SecondPassSilent`.
- `WhoStream.Cycle`: `CycleFallback`.
- `WhoApi.TransformItem`: `TransformItemReading`.
- `WhoApi.TransformAll`: `TransformAllThrows` and `TransformAllReadings`.
- `WhoApi.Transformed` and `WhoApi.Endpoints`: `EndpointsExtends`, `EndpointsReadings`, `TransformedReadings`, `EndpointsHead`, `FirstYieldIsFirst`, `FirstYieldResult`, `TransformedFirst` and `PartialThenNext`.
- `WhoApi.GroupLatest`: `GroupLatestNonEmpty`, `GroupLatestStep`, `GroupLatestDistinct`, `GroupLatestCovers`, `GroupLatestSubset`, `GroupLatestIsLatest` and `GroupLatestFirstSeen`.
- `WhoApi.MockReading`: `MockData`.
- `StockTable.ParseInt` and `StockTable.Magnitude`: `ParseNumeral`, `ParseNegativeNumeral`, `ParseUnsigned` and `ParseSigned`.
- `StockChart.Compare`: `ChosenUniform` and `RankedFollowsComparator`.
- `Common.Contains`: `ContainsAt`.
- `Common.Truncate`: `TruncateShape`.
- `WorldMap.PointOf`: `ProcessedPoints`.
- `HealthBarChart.BarOf`: `BarValues`.
- `CategoryDistribution.EntryOf`: `EntryValues`.
- `HealthTrendChart.PointAt`: `PointValues`.

## Left out

- Network access: `fetchWHOAPI` with its timeout (lib/who-api.ts:42-72), every component `fetch`, and the map topology download. Upstream and HTTP results are inputs.
- Timers and concurrency: the 5-second interval and its abort cleanup (app/api/who/stream/route.ts:29, 139-143), the components' polling and debounce effects, and the sharing of `previousValues` by concurrent connections. One cycle is modelled at a time.
- The event emitter: publication is an append to an output sequence. Delivery belongs to Node's `EventEmitter`, which is not part of this model.
- Prisma: the store is abstract, with at most one current indicator per (country, indicator). The `orderBy: { date: 'desc' }` choice among duplicate rows is not modelled, and database-generated ids are a `freshId` parameter.
- Floating point: every number is an integer. `parseFloat` results and NaN are given as integer values, with NaN as a missing value. The averaged recovery rate (components/HealthDashboard.tsx:79-81) is not modelled. Vaccination Rate's `Math.floor` is the identity on integers.
- WorldMap.BandOf: requires a max of at least 1, which the only caller guarantees (components/WorldMap.tsx:101); thresholds are compared exactly, without floating-point rounding.
- Dates and locale: `new Date`, ISO strings, the calendar semantics of date-fns `differenceInDays` (modelled as whole 24-hour days) and `toLocaleString` formatting.
- Null or non-object rows (`i && ...`) and prototype-named keys such as `__proto__` in the `reduce` objects are not modelled. Object key order is taken as insertion order, which JavaScript changes for integer-like keys.
- Strings: lower-casing and trimming are ASCII only, with no Unicode case mapping or Unicode white space.
- WorldMap: drawing, the topology cache and the tooltip HTML are not modelled; a point's deaths and recovered figures are kept but not stated.
- StockTable.UpdateStockEffect: the intermediate `updating` value during the request, and the stale `quantity` closure if two updates overlap, are not modelled.
- The stock-mutation handler (sold/added with the negative-stock check) is not part of this model.
- JSON: payloads are opaque strings; `JSON.stringify` is a parameter of `WhoStream.SessionOutput`.
- Rendering: JSX, styles and icons beyond the rank badge and colour.
- HealthChart.ChartData: with a NaN point the comparator is inconsistent and the order is left to the JavaScript engine, so the order is stated only when every value is present; the model places a NaN point as if it were 0.
- HealthChart.PointOf: a `null` value, which the division reads as 0, is not told apart from an absent one, which gives NaN; both are `None`.
- WhoApi.TransformedFirst: states the first-yielding-endpoint result only when no item throws; with throws, `WhoApi.TransformedReadings` and `WhoApi.PartialThenNext` state what is kept.
- WhoApi.TransformItem: a non-numeric value (`parseFloat` giving NaN) is given as 0, which fails the `value > 0` test just as NaN does; the fields other than the name are taken to be strings or numbers.

## Findings

| source | as written | input that shows it | evidently intended | confidence | as-written member | corrected member |
|---|---|---|---|---|---|---|
| app/api/medicines/route.ts:70 | calls `realtimeEmitter.emitStockUpdate`, which lib/realtime.ts:12-37 does not define, so it throws after the medicine and its "added" transaction are stored and the client gets 500 | a body with medicineId "MED-1", stock 5 and the other required fields | publish the stock update and answer 201 | medium, not executed | MedicinesRoute.PostMedicineAsWritten, MedicinesRoute.AsWrittenFailsAfterStoring | MedicinesRoute.PostMedicine |

=== FILE: category_distribution.dfy ===
/**
 * The category radar chart (components/CategoryDistribution.tsx): the first
 * six countries by first appearance, each labelled with at most ten
 * characters of its name (no ellipsis) and carrying the first value of five
 * indicators, scaled.
 */
module CategoryDistribution {

  import opened Common
  import opened HealthRows

  const MAX_COUNTRIES := 6
  const LABEL_LENGTH := 10

  datatype Entry = Entry(
    country: string, fullCountry: string, totalCases: int, deaths: int, recovered: int,
    activeCases: int, vaccinationRate: int)

  function EntryOf(rows: seq<Row>, country: string): Entry
  {
    Entry(Truncate(country, LABEL_LENGTH, ""), country,
          Scaled(rows, country, TOTAL_CASES, 1000),
          Scaled(rows, country, DEATHS, 100),
          Scaled(rows, country, RECOVERED, 1000),
          Scaled(rows, country, ACTIVE_CASES, 1000),
          Scaled(rows, country, VACCINATION_RATE, 1))
  }

  /** `chartData` */
  function ChartData(rows: seq<Row>): (r: seq<Entry>)
    ensures |r| == Min(MAX_COUNTRIES, |FirstDistinct(AllCountries(rows))|)
    ensures forall i :: 0 <= i < |r| ==> r[i].fullCountry == FirstCountries(rows, MAX_COUNTRIES)[i]
  {
    var cs := FirstCountries(rows, MAX_COUNTRIES);
    seq(|cs|, i requires 0 <= i < |cs| => EntryOf(rows, cs[i]))
  }

  /**
   * The shown name is the name's first ten characters with nothing appended, the
   * full name is kept beside it, and the values are the first rows' values:
   * Total Cases, Recovered and Active Cases in thousands, Deaths in hundreds,
   * the vaccination rate as is.
   */
  lemma EntryValues(rows: seq<Row>, i: nat)
    requires i < |ChartData(rows)|
    ensures var e := ChartData(rows)[i];
      e.country <= e.fullCountry && |e.country| == Min(LABEL_LENGTH, |e.fullCountry|) &&
      e.totalCases * 1000 <= FindValue(rows, e.fullCountry, TOTAL_CASES) < (e.totalCases + 1) * 1000 &&
      e.deaths * 100 <= FindValue(rows, e.fullCountry, DEATHS) < (e.deaths + 1) * 100 &&
      e.recovered * 1000 <= FindValue(rows, e.fullCountry, RECOVERED) < (e.recovered + 1) * 1000 &&
      e.activeCases * 1000 <= FindValue(rows, e.fullCountry, ACTIVE_CASES) < (e.activeCases + 1) * 1000 &&
      e.vaccinationRate == FindValue(rows, e.fullCountry, VACCINATION_RATE)
  {
  }

  /** Two countries whose names share their first ten characters are shown under the same name. */
  lemma LabelsMayCollide()
    ensures Truncate("Netherlands", LABEL_LENGTH, "") == Truncate("Netherlandz", LABEL_LENGTH, "")
  {
  }

  /** `chartData.length > 0 && chartData.some(d => d['Total Cases'] > 0)` */
  predicate HasData(entries: seq<Entry>)
  {
    |entries| > 0 && exists i :: 0 <= i < |entries| && entries[i].totalCases > 0
  }

  /** The chart has data exactly when one of its countries' first Total Cases value is at least 1000. */
  lemma HasDataIff(rows: seq<Row>)
    ensures HasData(ChartData(rows)) <==>
      exists i :: 0 <= i < |ChartData(rows)| && FindValue(rows, ChartData(rows)[i].fullCountry, TOTAL_CASES) >= 1000
  {
  }
}

=== FILE: common.dfy ===
/**
 * Small helpers shared by the whole model: an optional value, the
 * JavaScript `||` defaulting rule, and the few string operations the
 * dashboard uses (ASCII lower-casing, trimming, containment, truncation).
 */
module Common {

  datatype Option<T> = None | Some(value: T)

  /** JavaScript `!s` for an optional string: absent or empty. */
  predicate IsFalsy(s: Option<string>)
  {
    s.None? || s.value == ""
  }

  /** JavaScript `s || d` for a string that may be absent: the empty string is falsy. */
  function OrString(s: Option<string>, d: string): (r: string)
    ensures !IsFalsy(s) ==> r == s.value
    ensures IsFalsy(s) ==> r == d
    ensures d != "" ==> r != ""
  {
    if s.Some? && s.value != "" then s.value else d
  }

  /** JavaScript `x || d` for a number that may be absent: 0 is falsy. */
  function OrInt(x: Option<int>, d: int): (r: int)
    ensures x.Some? && x.value != 0 ==> r == x.value
    ensures x.None? || x.value == 0 ==> r == d
    ensures d != 0 ==> r != 0
  {
    if x.Some? && x.value != 0 then x.value else d
  }

  function Min(a: int, b: int): int
  {
    if a <= b then a else b
  }

  function Max(a: int, b: int): int
  {
    if a >= b then a else b
  }

  function LowerChar(c: char): char
  {
    if 'A' <= c <= 'Z' then (c as int + 32) as char else c
  }

  /** `String.prototype.toLowerCase`, restricted to ASCII letters. */
  function Lower(s: string): (r: string)
    ensures |r| == |s|
    ensures forall i :: 0 <= i < |s| ==> r[i] == LowerChar(s[i])
  {
    if s == [] then [] else [LowerChar(s[0])] + Lower(s[1..])
  }

  predicate IsSpace(c: char)
  {
    c == ' ' || c == '\t' || c == '\n' || c == '\r' || c == '\U{000B}' || c == '\U{000C}'
  }

  /** `s` without its leading white space. */
  function TrimStart(s: string): (r: string)
    ensures |r| <= |s| && r == s[|s| - |r|..]
    ensures forall i :: 0 <= i < |s| - |r| ==> IsSpace(s[i])
    ensures r != [] ==> !IsSpace(r[0])
  {
    if s != [] && IsSpace(s[0]) then TrimStart(s[1..]) else s
  }

  /** `s` without its trailing white space. */
  function TrimEnd(s: string): (r: string)
    ensures r <= s
    ensures forall i :: |r| <= i < |s| ==> IsSpace(s[i])
    ensures r != [] ==> !IsSpace(r[|r| - 1])
  {
    if s != [] && IsSpace(s[|s| - 1]) then TrimEnd(s[..|s| - 1]) else s
  }

  /** `r` is a slice `s[a..b]` of `s` with only white space before `a` and after `b`. */
  ghost predicate StripsSpace(s: string, r: string)
  {
    exists a, b :: 0 <= a <= b <= |s| && r == s[a..b] &&
      (forall i :: 0 <= i < a ==> IsSpace(s[i])) &&
      (forall i :: b <= i < |s| ==> IsSpace(s[i]))
  }

  /**
   * Stripping leading white space (`t`) and then trailing white space (`r`)
   * strips both ends, and leaves nothing exactly when all of `s` is space.
   */
  lemma TrimOfParts(s: string, t: string, r: string)
    requires |t| <= |s| && t == s[|s| - |t|..]
    requires forall i :: 0 <= i < |s| - |t| ==> IsSpace(s[i])
    requires t != [] ==> !IsSpace(t[0])
    requires r <= t && forall i :: |r| <= i < |t| ==> IsSpace(t[i])
    requires r != [] ==> !IsSpace(r[|r| - 1])
    ensures StripsSpace(s, r)
    ensures r != [] ==> !IsSpace(r[0])
    ensures r == [] <==> forall i :: 0 <= i < |s| ==> IsSpace(s[i])
  {
    var a := |s| - |t|;
    assert r == s[a..a + |r|] by {
      assert r == t[..|r|];
    }
    forall i | a + |r| <= i < |s|
      ensures IsSpace(s[i])
    {
      assert s[i] == t[i - a];
    }
    if r != [] {
      assert r[0] == t[0] == s[a];
    }
  }

  /**
   * `String.prototype.trim`, with the ASCII white-space characters: the
   * result is the slice of `s` left after removing white space at both ends;
   * it neither starts nor ends with white space, and it is empty exactly
   * when `s` is all white space.
   */
  function Trim(s: string): (r: string)
    ensures |r| <= |s|
    ensures StripsSpace(s, r)
    ensures r != [] ==> !IsSpace(r[0]) && !IsSpace(r[|r| - 1])
    ensures r == [] <==> forall i :: 0 <= i < |s| ==> IsSpace(s[i])
  {
    var t := TrimStart(s);
    var r := TrimEnd(t);
    TrimOfParts(s, t, r);
    r
  }

  /** A string that neither starts nor ends with white space is its own trim. */
  lemma TrimKeepsTrimmed(s: string)
    requires s != [] ==> !IsSpace(s[0]) && !IsSpace(s[|s| - 1])
    ensures Trim(s) == s
  {
    assert TrimStart(s) == s;
  }

  /** Trimming twice is trimming once. */
  lemma TrimIdempotent(s: string)
    ensures Trim(Trim(s)) == Trim(s)
  {
    TrimKeepsTrimmed(Trim(s));
  }

  /** `s.includes(sub)`: `sub` occurs somewhere in `s` (the empty string occurs everywhere). */
  predicate Contains(s: string, sub: string)
  {
    sub <= s || (s != [] && Contains(s[1..], sub))
  }

  /** `s.length > n ? s.substring(0, n) + suffix : s` */
  function Truncate(s: string, n: nat, suffix: string): string
  {
    if |s| > n then s[..n] + suffix else s
  }

  /** `s.slice(0, n)` */
  function Take<T>(s: seq<T>, n: nat): (r: seq<T>)
    ensures |r| == Min(n, |s|) && r <= s
  {
    s[..Min(n, |s|)]
  }

  /** Sum of `f` over a sequence, folded from the left like `reduce`. */
  function SumOf<T>(s: seq<T>, f: T -> int): int
  {
    if s == [] then 0 else SumOf(s[..|s| - 1], f) + f(s[|s| - 1])
  }

  /** Number of elements satisfying `p`, as `filter(p).length`. */
  function CountOf<T>(s: seq<T>, p: T -> bool): (n: nat)
    ensures n <= |s|
  {
    if s == [] then 0 else CountOf(s[..|s| - 1], p) + (if p(s[|s| - 1]) then 1 else 0)
  }

  /** The sum over a concatenation is the sum of the two sums. */
  lemma {:induction false} SumOfAppend<T>(a: seq<T>, b: seq<T>, f: T -> int)
    ensures SumOf(a + b, f) == SumOf(a, f) + SumOf(b, f)
  {
    if b != [] {
      assert (a + b)[..|a + b| - 1] == a + b[..|b| - 1];
      SumOfAppend(a, b[..|b| - 1], f);
    } else {
      assert a + b == a;
    }
  }

  /** A sum of non-negative terms is non-negative. */
  lemma {:induction false} SumOfNonNegative<T>(s: seq<T>, f: T -> int)
    requires forall x :: x in s ==> f(x) >= 0
    ensures SumOf(s, f) >= 0
  {
    if s != [] {
      assert forall x :: x in s[..|s| - 1] ==> x in s;
      SumOfNonNegative(s[..|s| - 1], f);
    }
  }

  /** Nothing is counted exactly when no element satisfies the predicate. */
  lemma {:induction false} CountOfZero<T>(s: seq<T>, p: T -> bool)
    ensures CountOf(s, p) == 0 <==> forall x :: x in s ==> !p(x)
  {
    if s != [] {
      CountOfZero(s[..|s| - 1], p);
      assert s == s[..|s| - 1] + [s[|s| - 1]];
    }
  }

  /** `sub` occurs in `s` starting at offset `i`. */
  predicate OccursAt(s: string, sub: string, i: int)
  {
    0 <= i <= |s| - |sub| && s[i..i + |sub|] == sub
  }

  /** An occurrence at any offset makes `Contains` hold. */
  lemma {:induction false} OccursContains(s: string, sub: string, i: int)
    requires OccursAt(s, sub, i)
    ensures Contains(s, sub)
  {
    if i == 0 {
      assert s[..|sub|] == sub;
    } else {
      assert s[1..][i - 1..i - 1 + |sub|] == s[i..i + |sub|];
      OccursContains(s[1..], sub, i - 1);
    }
  }

  /** When `Contains` holds, an occurrence exists; its offset is returned. */
  lemma {:induction false} ContainsOccurs(s: string, sub: string) returns (i: nat)
    requires Contains(s, sub)
    ensures OccursAt(s, sub, i)
  {
    if sub <= s {
      i := 0;
      assert s[0..|sub|] == sub;
    } else {
      var j := ContainsOccurs(s[1..], sub);
      i := j + 1;
      assert s[i..i + |sub|] == s[1..][j..j + |sub|];
    }
  }

  /** `Contains` is exactly the existence of an occurrence at some offset. */
  lemma ContainsAt(s: string, sub: string)
    ensures Contains(s, sub) <==> exists i :: OccursAt(s, sub, i)
  {
    if Contains(s, sub) {
      var i := ContainsOccurs(s, sub);
    }
    if exists i :: OccursAt(s, sub, i) {
      var i :| OccursAt(s, sub, i);
      OccursContains(s, sub, i);
    }
  }

  /** A truncated label is the original when short enough, otherwise its first
      `n` characters followed by the suffix; either way it starts with at most
      `n` characters of the original. */
  lemma TruncateShape(s: string, n: nat, suffix: string)
    ensures |s| <= n ==> Truncate(s, n, suffix) == s
    ensures |s| > n ==> |Truncate(s, n, suffix)| == n + |suffix| && s[..n] <= Truncate(s, n, suffix)
    ensures |Truncate(s, n, suffix)| <= Max(|s|, n + |suffix|)
  {
  }
}

=== FILE: country_comparison.dfy ===
/**
 * The country comparison card (components/CountryComparison.tsx): the ten
 * countries with the largest summed "Total Cases", largest first, each with a
 * rank badge and its total shown in thousands.
 */
module CountryComparison {

  import opened Common
  import opened HealthRows

  const TOP := 10

  /** `sortedCountries`: the per-country Total Cases sums, sorted descending, first ten. */
  function SortedCountries(rows: seq<Row>): (r: seq<CountryTotal>)
    ensures |r| <= TOP
    ensures |r| == Min(TOP, |FirstDistinct(IndicatorCountries(rows, TOTAL_CASES))|)
  {
    TopTotals(rows, TOTAL_CASES, TOP)
  }

  /**
   * The card lists distinct countries with Total Cases rows, each with the
   * sum of its values, largest first, and no country left out has a larger
   * sum than one that is listed.
   */
  lemma SortedCountriesRanked(rows: seq<Row>)
    ensures var r := SortedCountries(rows);
      Distinct(Names(r)) &&
      (forall i :: 0 <= i < |r| ==>
         r[i].country in IndicatorCountries(rows, TOTAL_CASES) && r[i].total == SumFor(rows, TOTAL_CASES, r[i].country)) &&
      (forall i, j :: 0 <= i < j < |r| ==> r[i].total >= r[j].total) &&
      (forall i, c :: 0 <= i < |r| && c in IndicatorCountries(rows, TOTAL_CASES) && c !in Names(r) ==>
         r[i].total >= SumFor(rows, TOTAL_CASES, c))
  {
    TopTotalsDistinct(rows, TOTAL_CASES, TOP);
    TopTotalsSums(rows, TOTAL_CASES, TOP);
    TopTotalsOrdered(rows, TOTAL_CASES, TOP);
    TopTotalsDominates(rows, TOTAL_CASES, TOP);
  }

  /** The badge of a rank: an icon for the first three, otherwise the 1-based position. */
  datatype Badge = Trophy | Award | Medal | Number(n: nat)

  /** `getRankIcon(index) || index + 1` */
  function RankBadge(index: nat): (b: Badge)
    ensures index == 0 <==> b == Trophy
    ensures index == 1 <==> b == Award
    ensures index == 2 <==> b == Medal
    ensures b.Number? <==> index >= 3
    ensures b.Number? ==> b.n == index + 1
  {
    if index == 0 then Trophy
    else if index == 1 then Award
    else if index == 2 then Medal
    else Number(index + 1)
  }

  /** `getRankColor(index)` */
  function RankColor(index: nat): (c: string)
    ensures index >= 3 <==> c == "bg-blue-500/20 text-blue-400"
  {
    if index == 0 then "bg-yellow-500/20 text-yellow-400"
    else if index == 1 then "bg-gray-500/20 text-gray-400"
    else if index == 2 then "bg-orange-500/20 text-orange-400"
    else "bg-blue-500/20 text-blue-400"
  }

  /** The figure shown for a total: whole thousands, rounded down. */
  function Thousands(total: int): (k: int)
    ensures k * 1000 <= total < (k + 1) * 1000
  {
    total / 1000
  }

  /** The rows of the card: badge, country and figure, one per ranked country. */
  datatype CardRow = CardRow(badge: Badge, color: string, country: string, thousands: int)

  /**
   * The rows of the card, one per ranked country in rank order: the first
   * three carry the trophy, award and medal icons on their own colours, the
   * rest their 1-based position on blue, each with its total in whole thousands.
   */
  function Card(rows: seq<Row>): (r: seq<CardRow>)
    ensures var s := SortedCountries(rows);
      |r| == |s| &&
      forall i :: 0 <= i < |r| ==>
        r[i].country == s[i].country &&
        r[i].thousands * 1000 <= s[i].total < (r[i].thousands + 1) * 1000 &&
        (r[i].badge == Trophy <==> i == 0) &&
        (r[i].badge == Award <==> i == 1) &&
        (r[i].badge == Medal <==> i == 2) &&
        (r[i].badge.Number? <==> i >= 3) &&
        (r[i].badge.Number? ==> r[i].badge.n == i + 1) &&
        (r[i].color == "bg-blue-500/20 text-blue-400" <==> i >= 3)
  {
    var s := SortedCountries(rows);
    seq(|s|, i requires 0 <= i < |s| => CardRow(RankBadge(i), RankColor(i), s[i].country, Thousands(s[i].total)))
  }

  /**
   * Every line of the card names a distinct country that has Total Cases
   * rows and shows the thousands of that country's summed values.
   */
  lemma CardShowsSums(rows: seq<Row>)
    ensures var r := Card(rows);
      (forall i :: 0 <= i < |r| ==>
         r[i].country in IndicatorCountries(rows, TOTAL_CASES) &&
         r[i].thousands * 1000 <= SumFor(rows, TOTAL_CASES, r[i].country) < (r[i].thousands + 1) * 1000) &&
      (forall i, j :: 0 <= i < j < |r| ==> r[i].country != r[j].country)
  {
    var s := SortedCountries(rows);
    SortedCountriesRanked(rows);
    forall i, j | 0 <= i < j < |s|
      ensures s[i].country != s[j].country
    {
      assert Names(s)[i] != Names(s)[j];
    }
  }

  /** Larger totals never show a smaller figure, so the card's figures are non-increasing too. */
  lemma CardFiguresOrdered(rows: seq<Row>)
    ensures var r := Card(rows);
      forall i, j :: 0 <= i < j < |r| ==> r[i].thousands >= r[j].thousands
  {
    TopTotalsOrdered(rows, TOTAL_CASES, TOP);
    var s := SortedCountries(rows);
    forall i, j | 0 <= i < j < |s|
      ensures Thousands(s[i].total) >= Thousands(s[j].total)
    {
      ThousandsMonotone(s[j].total, s[i].total);
    }
  }

  lemma ThousandsMonotone(a: int, b: int)
    requires a <= b
    ensures Thousands(a) <= Thousands(b)
  {
  }
}

=== FILE: dashboard.dfy ===
/**
 * The inventory dashboard's summary cards (components/Dashboard.tsx,
 * `calculateStats`): the number of medicines, how many are low on stock, the
 * stock's total value, and the number of pending reorder requests. The
 * reorder list comes from a request that may fail (`None`), in which case
 * no card changes.
 */
module Dashboard {

  import opened Common
  import opened InventoryStore

  datatype Stats = Stats(totalMedicines: nat, lowStock: nat, totalValue: int, pendingReorders: nat)

  function ValueOf(m: Medicine): int
  {
    m.stock * m.price
  }

  predicate IsPending(r: ReorderRequest)
  {
    r.status == PENDING
  }

  /** The four figures for a medicine list and a reorder list. */
  function StatsOf(medicines: seq<Medicine>, reorders: seq<ReorderRequest>): (s: Stats)
    ensures s.totalMedicines == |medicines|
    ensures s.lowStock <= s.totalMedicines && s.pendingReorders <= |reorders|
  {
    Stats(|medicines|, CountOf(medicines, LowStock), SumOf(medicines, ValueOf), CountOf(reorders, IsPending))
  }

  /** No low-stock card count exactly when no medicine is at or below its minimum. */
  lemma LowStockZeroIff(medicines: seq<Medicine>, reorders: seq<ReorderRequest>)
    ensures StatsOf(medicines, reorders).lowStock == 0 <==> forall m :: m in medicines ==> !LowStock(m)
  {
    CountOfZero(medicines, LowStock);
  }

  /** No pending card count exactly when no request's status is exactly "pending". */
  lemma PendingZeroIff(medicines: seq<Medicine>, reorders: seq<ReorderRequest>)
    ensures StatsOf(medicines, reorders).pendingReorders == 0 <==> forall r :: r in reorders ==> r.status != PENDING
  {
    CountOfZero(reorders, IsPending);
  }

  /** The total value adds up over any split of the list, and is not negative for non-negative stocks and prices. */
  lemma TotalValueAdds(a: seq<Medicine>, b: seq<Medicine>, reorders: seq<ReorderRequest>)
    ensures StatsOf(a + b, reorders).totalValue == StatsOf(a, reorders).totalValue + StatsOf(b, reorders).totalValue
    ensures (forall m :: m in a ==> m.stock >= 0 && m.price >= 0) ==> StatsOf(a, reorders).totalValue >= 0
  {
    SumOfAppend(a, b, ValueOf);
    if forall m :: m in a ==> m.stock >= 0 && m.price >= 0 {
      SumOfNonNegative(a, ValueOf);
    }
  }

  /** The dashboard's cards, updated in place. */
  class DashboardView {
    var stats: Stats

    constructor()
      ensures stats == Stats(0, 0, 0, 0)
    {
      stats := Stats(0, 0, 0, 0);
    }

    /** `calculateStats`; `reorders` is `None` when the reorder request or its decoding fails. */
    method CalculateStats(medicines: seq<Medicine>, reorders: Option<seq<ReorderRequest>>)
      modifies this
      ensures reorders.None? ==> stats == old(stats)
      ensures reorders.Some? ==> stats == StatsOf(medicines, reorders.value)
    {
      var totalMedicines := |medicines|;
      var lowStock := CountOf(medicines, LowStock);
      var totalValue := SumOf(medicines, ValueOf);
      if reorders.None? {
        return;
      }
      var pendingReorders := CountOf(reorders.value, IsPending);
      stats := Stats(totalMedicines, lowStock, totalValue, pendingReorders);
    }
  }
}

=== FILE: health_bar_chart.dfy ===
/**
 * The bar chart (components/HealthBarChart.tsx): the first six countries by
 * first appearance, each with the first value of four indicators, scaled.
 */
module HealthBarChart {

  import opened Common
  import opened HealthRows

  const MAX_COUNTRIES := 6
  const NAME_LENGTH := 12

  datatype Bar = Bar(country: string, name: string, totalCases: int, deaths: int, recovered: int, activeCases: int)

  function BarOf(rows: seq<Row>, country: string): Bar
  {
    Bar(country, Truncate(country, NAME_LENGTH, "..."),
        Scaled(rows, country, TOTAL_CASES, 1000),
        Scaled(rows, country, DEATHS, 100),
        Scaled(rows, country, RECOVERED, 1000),
        Scaled(rows, country, ACTIVE_CASES, 1000))
  }

  /** `chartData`: one bar per country of `FirstCountries(rows, 6)`, in that order. */
  function ChartData(rows: seq<Row>): (r: seq<Bar>)
    ensures |r| == Min(MAX_COUNTRIES, |FirstDistinct(AllCountries(rows))|)
    ensures forall i :: 0 <= i < |r| ==> r[i].country == FirstCountries(rows, MAX_COUNTRIES)[i]
  {
    var cs := FirstCountries(rows, MAX_COUNTRIES);
    seq(|cs|, i requires 0 <= i < |cs| => BarOf(rows, cs[i]))
  }

  /**
   * Each bar uses the country's first row of each indicator: totalCases,
   * recovered and activeCases in thousands, deaths in hundreds, a missing row
   * counting as 0.
   */
  lemma BarValues(rows: seq<Row>, i: nat)
    requires i < |ChartData(rows)|
    ensures var b := ChartData(rows)[i];
      b.totalCases * 1000 <= FindValue(rows, b.country, TOTAL_CASES) < (b.totalCases + 1) * 1000 &&
      b.deaths * 100 <= FindValue(rows, b.country, DEATHS) < (b.deaths + 1) * 100 &&
      b.recovered * 1000 <= FindValue(rows, b.country, RECOVERED) < (b.recovered + 1) * 1000 &&
      b.activeCases * 1000 <= FindValue(rows, b.country, ACTIVE_CASES) < (b.activeCases + 1) * 1000 &&
      b.name == Truncate(b.country, NAME_LENGTH, "...")
  {
  }

  /** The bars show distinct countries of the rows, and a country is left out only when six are shown. */
  lemma ChartCountries(rows: seq<Row>)
    ensures var r := ChartData(rows);
      (forall i, j :: 0 <= i < j < |r| ==> r[i].country != r[j].country) &&
      (forall i :: 0 <= i < |r| ==> exists row :: row in rows && row.country == r[i].country) &&
      (forall row :: row in rows && (forall i :: 0 <= i < |r| ==> r[i].country != row.country) ==> |r| == MAX_COUNTRIES)
  {
    var r := ChartData(rows);
    var cs := FirstCountries(rows, MAX_COUNTRIES);
    forall i | 0 <= i < |r|
      ensures exists row :: row in rows && row.country == r[i].country
    {
      assert cs[i] in cs;
    }
    forall row | row in rows && (forall i :: 0 <= i < |r| ==> r[i].country != row.country)
      ensures |r| == MAX_COUNTRIES
    {
      assert row.country !in cs;
      FirstCountriesFull(rows, MAX_COUNTRIES, row);
    }
  }

  /** `chartData.length > 0 && chartData.some(d => d.totalCases > 0)` */
  predicate HasData(bars: seq<Bar>)
  {
    |bars| > 0 && exists i :: 0 <= i < |bars| && bars[i].totalCases > 0
  }

  /** The chart has data exactly when one of its countries' first Total Cases value is at least 1000. */
  lemma HasDataIff(rows: seq<Row>)
    ensures HasData(ChartData(rows)) <==>
      exists i :: 0 <= i < |ChartData(rows)| && FindValue(rows, ChartData(rows)[i].country, TOTAL_CASES) >= 1000
  {
  }
}

=== FILE: health_chart.dfy ===
/**
 * The Total Cases area chart (components/HealthChart.tsx): the latest Total
 * Cases row of each country, the first ten countries by first appearance,
 * each as a point in thousands with a name cut to ten characters, sorted by
 * the point's value, largest first.
 *
 * This component reads `indicator.value` with no `|| 0`: a row without a
 * value gives `Math.floor(undefined / 1000)`, which is NaN, held here as a
 * point whose `totalCases` is `None`.
 */
module HealthChart {

  import opened Common
  import opened Sorting
  import opened HealthRows

  const MAX_POINTS := 10
  const NAME_LENGTH := 10

  /** A chart point; `totalCases` is `None` when it is NaN. */
  datatype Point = Point(country: string, name: string, totalCases: Option<int>)

  /** The point of one row: `Math.floor(indicator.value / 1000)` and the shortened name. */
  function PointOf(r: Row): (p: Point)
    ensures p.country == r.country
    ensures p.totalCases.Some? <==> r.value.Some?
    ensures r.value.Some? ==> p.totalCases.value * 1000 <= r.value.value < (p.totalCases.value + 1) * 1000
    ensures |r.country| <= NAME_LENGTH ==> p.name == r.country
    ensures |r.country| > NAME_LENGTH ==> p.name == r.country[..NAME_LENGTH] + "..."
  {
    var cases := match r.value
      case Some(v) => Some(v / 1000)
      case None => None;
    Point(r.country, Truncate(r.country, NAME_LENGTH, "..."), cases)
  }

  function Points(rs: seq<Row>): (ps: seq<Point>)
    ensures |ps| == |rs| && forall i :: 0 <= i < |rs| ==> ps[i] == PointOf(rs[i])
  {
    if rs == [] then [] else [PointOf(rs[0])] + Points(rs[1..])
  }

  /**
   * The sort key of `sort((a, b) => b.totalCases - a.totalCases)`. A NaN
   * point makes the comparator answer NaN, which the sort reads as "equal";
   * such a comparator is inconsistent and the order is then left to the
   * engine, so the key here gives NaN points the place of a 0.
   */
  function CasesDescending(p: Point): int
  {
    match p.totalCases
    case Some(v) => -v
    case None => 0
  }

  /** Every point has a number as its value. */
  predicate AllDefined(ps: seq<Point>)
  {
    forall i :: 0 <= i < |ps| ==> ps[i].totalCases.Some?
  }

  /** The rows charted, before sorting: the first ten entries of the country map. */
  function Candidates(rows: seq<Row>): (c: seq<Row>)
    ensures c <= LatestByCountry(rows, TOTAL_CASES)
    ensures AllCountries(c) == Take(FirstDistinct(IndicatorCountries(rows, TOTAL_CASES)), MAX_POINTS)
  {
    var latest := LatestByCountry(rows, TOTAL_CASES);
    var c := Take(latest, MAX_POINTS);
    assert forall i :: 0 <= i < |c| ==> AllCountries(c)[i] == AllCountries(latest)[i];
    c
  }

  /**
   * `chartData`: a reordering of the candidates' points, largest first when
   * every point has a value.
   */
  function ChartData(rows: seq<Row>): (r: seq<Point>)
    ensures |r| == Min(MAX_POINTS, |FirstDistinct(IndicatorCountries(rows, TOTAL_CASES))|)
    ensures multiset(r) == multiset(Points(Candidates(rows)))
    ensures AllDefined(r) ==>
      forall i, j :: 0 <= i < j < |r| ==> r[i].totalCases.value >= r[j].totalCases.value
  {
    var r := SortBy(Points(Candidates(rows)), CasesDescending);
    assert forall i, j :: 0 <= i < j < |r| ==> CasesDescending(r[i]) <= CasesDescending(r[j]);
    r
  }

  /**
   * Ties keep the country map's order (stable sort): the points with `t`
   * thousands, or the NaN points when `t` is 0 together with those with 0,
   * appear in the chart in the order of the candidates.
   */
  lemma ChartTies(rows: seq<Row>, t: int)
    ensures WithKey(ChartData(rows), CasesDescending, -t) == WithKey(Points(Candidates(rows)), CasesDescending, -t)
  {
    SortedTies(Points(Candidates(rows)), ChartData(rows), t);
  }

  lemma SortedTies(ps: seq<Point>, r: seq<Point>, t: int)
    requires r == SortBy(ps, CasesDescending)
    ensures WithKey(r, CasesDescending, -t) == WithKey(ps, CasesDescending, -t)
  {
    SortByStable(ps, CasesDescending, -t);
  }

  /** The points are all defined exactly when every candidate row has a value. */
  lemma ChartDefinedIff(rows: seq<Row>)
    ensures AllDefined(ChartData(rows)) <==>
      forall k :: 0 <= k < |Candidates(rows)| ==> Candidates(rows)[k].value.Some?
  {
    var c := Candidates(rows);
    var ps := Points(c);
    var r := ChartData(rows);
    if AllDefined(r) {
      forall k | 0 <= k < |c|
        ensures c[k].value.Some?
      {
        assert ps[k] in multiset(r);
        var i :| 0 <= i < |r| && r[i] == ps[k];
      }
    }
    if forall k :: 0 <= k < |c| ==> c[k].value.Some? {
      forall i | 0 <= i < |r|
        ensures r[i].totalCases.Some?
      {
        assert r[i] in multiset(ps);
        var k :| 0 <= k < |ps| && ps[k] == r[i];
      }
    }
  }

  /** `chartData.length > 0` */
  predicate HasData(rows: seq<Row>)
  {
    |ChartData(rows)| > 0
  }

  /** The chart has data exactly when some row is a Total Cases row. */
  lemma HasDataIff(rows: seq<Row>)
    ensures HasData(rows) <==> exists r :: r in rows && r.indicator == TOTAL_CASES
  {
    var ic := IndicatorCountries(rows, TOTAL_CASES);
    IndicatorCountriesMembers(rows, TOTAL_CASES);
    assert ic == [] || ic[0] in ic;
    if exists r :: r in rows && r.indicator == TOTAL_CASES {
      var r :| r in rows && r.indicator == TOTAL_CASES;
      assert r.country in FirstDistinct(ic);
    }
  }

  /**
   * The chart shows one point per country, for exactly the first ten
   * countries with a Total Cases row in order of first appearance (not
   * necessarily the ten largest).
   */
  lemma ChartCountries(rows: seq<Row>)
    ensures var r := ChartData(rows);
      var chosen := Take(FirstDistinct(IndicatorCountries(rows, TOTAL_CASES)), MAX_POINTS);
      (forall i :: 0 <= i < |r| ==> r[i].country in chosen) &&
      (forall c :: c in chosen ==> exists i :: 0 <= i < |r| && r[i].country == c) &&
      (forall i, j :: 0 <= i < j < |r| ==> r[i].country != r[j].country)
  {
    var c := Candidates(rows);
    var ps := Points(c);
    var r := ChartData(rows);
    var chosen := Take(FirstDistinct(IndicatorCountries(rows, TOTAL_CASES)), MAX_POINTS);
    forall i, j | 0 <= i < j < |ps|
      ensures PointCountry(ps[i]) != PointCountry(ps[j])
    {
      assert AllCountries(c)[i] != AllCountries(c)[j];
    }
    PermutationKeepsDistinct(ps, r, PointCountry);
    forall i | 0 <= i < |r|
      ensures r[i].country in chosen
    {
      assert r[i] in multiset(ps);
      var k :| 0 <= k < |ps| && ps[k] == r[i];
      assert AllCountries(c)[k] == r[i].country;
    }
    forall x | x in chosen
      ensures exists i :: 0 <= i < |r| && r[i].country == x
    {
      var k :| 0 <= k < |c| && AllCountries(c)[k] == x;
      assert ps[k] in multiset(r);
      var i :| 0 <= i < |r| && r[i] == ps[k];
    }
    forall i, j | 0 <= i < j < |r|
      ensures r[i].country != r[j].country
    {
      assert PointCountry(r[i]) != PointCountry(r[j]);
    }
  }

  /** Each point carries the value of its country's LAST Total Cases row, in thousands, and the shortened name. */
  lemma ChartValues(rows: seq<Row>)
    ensures var r := ChartData(rows);
      forall i :: 0 <= i < |r| ==>
        var last := LastMatch(rows, r[i].country, TOTAL_CASES);
        last.Some? && r[i] == PointOf(last.value)
  {
    var ps := Points(Candidates(rows));
    var r := ChartData(rows);
    CandidatesAreLatest(rows);
    forall i | 0 <= i < |r|
      ensures LastMatch(rows, r[i].country, TOTAL_CASES) == Some(Candidates(rows)[FindPoint(ps, r[i])])
    {
      assert r[i] in multiset(ps);
    }
  }

  lemma CandidatesAreLatest(rows: seq<Row>)
    ensures var c := Candidates(rows);
      forall k :: 0 <= k < |c| ==> LastMatch(rows, c[k].country, TOTAL_CASES) == Some(c[k])
  {
    var c := Candidates(rows);
    forall k | 0 <= k < |c|
      ensures LastMatch(rows, c[k].country, TOTAL_CASES) == Some(c[k])
    {
      LatestByCountryAt(rows, TOTAL_CASES, k);
    }
  }

  function PointCountry(p: Point): string
  {
    p.country
  }

  /** A position of `p` in `ps`. */
  function FindPoint(ps: seq<Point>, p: Point): (k: nat)
    requires p in multiset(ps)
    ensures k < |ps| && ps[k] == p
  {
    if ps[0] == p then 0 else 1 + FindPoint(ps[1..], p)
  }

  /** A country is listed among the Total Cases countries exactly when some Total Cases row has it. */
  lemma {:induction false} IndicatorCountriesMembers(rows: seq<Row>, indicator: string)
    ensures forall c :: c in IndicatorCountries(rows, indicator) <==> exists r :: r in rows && r.indicator == indicator && r.country == c
  {
    if rows != [] {
      IndicatorCountriesMembers(rows[..|rows| - 1], indicator);
      assert rows == rows[..|rows| - 1] + [rows[|rows| - 1]];
    }
  }
}

=== FILE: health_dashboard.dfy ===
/**
 * The health dashboard's summary cards (components/HealthDashboard.tsx,
 * `calculateStats`): the number of distinct countries, the summed Total
 * Cases, and the outbreak count, which this computation always sets to 0.
 * An input that is not an array (`None`) counts as no rows.
 */
module HealthDashboard {

  import opened Common
  import opened HealthRows

  datatype HealthStats = HealthStats(totalCountries: nat, totalCases: int, activeOutbreaks: nat)

  /** `i.value || 0` for Total Cases rows, 0 for the others. */
  function CasesOf(r: Row): int
  {
    if r.indicator == TOTAL_CASES then ValueOr0(r) else 0
  }

  /** The figures for the rows received. */
  function StatsOf(indicators: Option<seq<Row>>): (s: HealthStats)
    ensures s.activeOutbreaks == 0
    ensures indicators.None? ==> s == HealthStats(0, 0, 0)
    ensures indicators.Some? ==> s.totalCountries <= |indicators.value|
  {
    var rows := if indicators.Some? then indicators.value else [];
    HealthStats(|FirstDistinct(AllCountries(rows))|, SumOf(rows, CasesOf), 0)
  }

  /** The country count is the number of distinct country names, and is 0 exactly when there are no rows. */
  lemma CountriesCounted(rows: seq<Row>)
    ensures StatsOf(Some(rows)).totalCountries == |FirstDistinct(AllCountries(rows))|
    ensures StatsOf(Some(rows)).totalCountries == 0 <==> rows == []
  {
    if rows != [] {
      assert AllCountries(rows)[0] in FirstDistinct(AllCountries(rows));
    }
  }

  /** The sum of the totals of a per-country accumulator. */
  function SumTotals(acc: seq<CountryTotal>): int
  {
    if acc == [] then 0 else acc[0].total + SumTotals(acc[1..])
  }

  lemma {:induction false} AddTotalSum(acc: seq<CountryTotal>, c: string, v: int)
    ensures SumTotals(AddTotal(acc, c, v)) == SumTotals(acc) + v
  {
    if acc != [] && acc[0].country != c {
      AddTotalSum(acc[1..], c, v);
    }
  }

  /**
   * The card's total equals the sum of the per-country Total Cases totals
   * that the comparison card, the map and the trend chart rank.
   */
  lemma {:induction false} TotalCasesIsSumOfCountryTotals(rows: seq<Row>)
    ensures StatsOf(Some(rows)).totalCases == SumTotals(GroupSum(rows, TOTAL_CASES))
  {
    if rows != [] {
      var init := rows[..|rows| - 1];
      TotalCasesIsSumOfCountryTotals(init);
      var last := rows[|rows| - 1];
      if last.indicator == TOTAL_CASES {
        AddTotalSum(GroupSum(init, TOTAL_CASES), last.country, ValueOr0(last));
      }
    }
  }

  /** The dashboard's cards, updated in place. */
  class HealthDashboardView {
    var stats: HealthStats

    constructor()
      ensures stats == HealthStats(0, 0, 0)
    {
      stats := HealthStats(0, 0, 0);
    }

    /** `calculateStats` */
    method CalculateStats(indicators: Option<seq<Row>>)
      modifies this
      ensures stats == StatsOf(indicators)
    {
      var rows := if indicators.Some? then indicators.value else [];
      var countries := |FirstDistinct(AllCountries(rows))|;
      var totalCases := SumOf(rows, CasesOf);
      stats := HealthStats(countries, totalCases, 0);
    }
  }
}

=== FILE: health_rows.dfy ===
/**
 * The health-indicator rows the dashboard components receive from the
 * health endpoint, and the three ways the components summarise them:
 * a per-country sum of one indicator built with `reduce` into an object
 * (whose `Object.entries` keep first-insertion order), the list of distinct
 * country names in first-appearance order (`Array.from(new Set(...))`), and
 * the value of the first row that matches a country and an indicator
 * (`filter(...).find(...)?.value || 0`).
 */
module HealthRows {

  import opened Common
  import opened Sorting

  const TOTAL_CASES := "Total Cases"
  const DEATHS := "Deaths"
  const RECOVERED := "Recovered"
  const ACTIVE_CASES := "Active Cases"
  const VACCINATION_RATE := "Vaccination Rate"

  /** One health indicator row; `value` is absent when the row has none (or NaN). */
  datatype Row = Row(country: string, indicator: string, value: Option<int>)

  /** `row.value || 0` */
  function ValueOr0(r: Row): int
  {
    if r.value.Some? then r.value.value else 0
  }

  datatype CountryTotal = CountryTotal(country: string, total: int)

  /** The countries of group totals, in order (`AllCountries` is the same projection on indicator rows). */
  function Names(acc: seq<CountryTotal>): (ns: seq<string>)
    ensures |ns| == |acc|
    ensures forall i :: 0 <= i < |acc| ==> ns[i] == acc[i].country
  {
    if acc == [] then [] else [acc[0].country] + Names(acc[1..])
  }

  ghost predicate Distinct(s: seq<string>)
  {
    forall i, j :: 0 <= i < j < |s| ==> s[i] != s[j]
  }

  /** The accumulated total for `c`, or 0 when `c` has no entry (`acc[c] || 0`). */
  function TotalOf(acc: seq<CountryTotal>, c: string): int
  {
    if acc == [] then 0
    else if acc[0].country == c then acc[0].total
    else TotalOf(acc[1..], c)
  }

  /** One `reduce` step: `if (!acc[c]) acc[c] = 0; acc[c] += v;` */
  function AddTotal(acc: seq<CountryTotal>, c: string, v: int): (r: seq<CountryTotal>)
    ensures Names(r) == if c in Names(acc) then Names(acc) else Names(acc) + [c]
    ensures forall d :: TotalOf(r, d) == TotalOf(acc, d) + (if d == c then v else 0)
  {
    if acc == [] then [CountryTotal(c, v)]
    else if acc[0].country == c then [acc[0].(total := acc[0].total + v)] + acc[1..]
    else
      var t := AddTotal(acc[1..], c, v);
      assert Names(acc) == [acc[0].country] + Names(acc[1..]);
      assert Names([acc[0]] + t) == [acc[0].country] + Names(t);
      [acc[0]] + t
  }

  /** The countries of the rows carrying `indicator`, in row order. */
  function IndicatorCountries(rows: seq<Row>, indicator: string): seq<string>
  {
    if rows == [] then []
    else
      var last := rows[|rows| - 1];
      IndicatorCountries(rows[..|rows| - 1], indicator) + (if last.indicator == indicator then [last.country] else [])
  }

  /** The sum of `row.value || 0` over the rows of country `c` carrying `indicator`. */
  function SumFor(rows: seq<Row>, indicator: string, c: string): int
  {
    if rows == [] then 0
    else
      var last := rows[|rows| - 1];
      SumFor(rows[..|rows| - 1], indicator, c) + (if last.indicator == indicator && last.country == c then ValueOr0(last) else 0)
  }

  /** `Array.from(new Set(s))`: distinct names in order of first appearance. */
  function FirstDistinct(s: seq<string>): (d: seq<string>)
    ensures Distinct(d)
    ensures forall x :: x in d <==> x in s
    ensures |d| <= |s|
  {
    if s == [] then []
    else
      var p := FirstDistinct(s[..|s| - 1]);
      assert forall x :: x in s <==> x in s[..|s| - 1] || x == s[|s| - 1] by {
        assert s == s[..|s| - 1] + [s[|s| - 1]];
      }
      if s[|s| - 1] in p then p else p + [s[|s| - 1]]
  }

  /**
   * The per-country totals of one indicator, in first-insertion order:
   * `rows.filter(i => i.indicator === indicator).reduce(...)` followed by
   * `Object.entries`. Each country carrying the indicator appears once, in the
   * order it first appears, and its total is the sum of its values.
   */
  function GroupSum(rows: seq<Row>, indicator: string): (r: seq<CountryTotal>)
    ensures Names(r) == FirstDistinct(IndicatorCountries(rows, indicator))
    ensures forall c :: TotalOf(r, c) == SumFor(rows, indicator, c)
  {
    if rows == [] then []
    else
      var last := rows[|rows| - 1];
      var p := GroupSum(rows[..|rows| - 1], indicator);
      var s := IndicatorCountries(rows[..|rows| - 1], indicator);
      if last.indicator == indicator then
        assert IndicatorCountries(rows, indicator) == s + [last.country];
        assert (s + [last.country])[..|s|] == s;
        AddTotal(p, last.country, ValueOr0(last))
      else
        assert IndicatorCountries(rows, indicator) == s;
        p
  }

  lemma {:induction false} TotalOfAt(acc: seq<CountryTotal>, i: nat)
    requires i < |acc| && Distinct(Names(acc))
    ensures TotalOf(acc, acc[i].country) == acc[i].total
  {
    if i > 0 {
      assert Names(acc)[0] != Names(acc)[i];
      assert Names(acc[1..]) == Names(acc)[1..];
      TotalOfAt(acc[1..], i - 1);
    }
  }

  /** Every entry of the grouping carries exactly its country's sum. */
  lemma GroupSumEntries(rows: seq<Row>, indicator: string)
    ensures var g := GroupSum(rows, indicator);
      Distinct(Names(g)) &&
      (forall i :: 0 <= i < |g| ==> g[i].total == SumFor(rows, indicator, g[i].country)) &&
      (forall c :: c in Names(g) <==> c in IndicatorCountries(rows, indicator))
  {
    var g := GroupSum(rows, indicator);
    forall i | 0 <= i < |g| ensures g[i].total == SumFor(rows, indicator, g[i].country) {
      TotalOfAt(g, i);
    }
  }

  /** The value of the first row of country `c` carrying `indicator`, or 0 when none does. */
  predicate Matches(r: Row, c: string, indicator: string)
  {
    r.country == c && r.indicator == indicator
  }

  function FindValue(rows: seq<Row>, c: string, indicator: string): (v: int)
    ensures (forall i :: 0 <= i < |rows| ==> !Matches(rows[i], c, indicator)) ==> v == 0
    ensures forall i :: 0 <= i < |rows| && Matches(rows[i], c, indicator)
                        && (forall j :: 0 <= j < i ==> !Matches(rows[j], c, indicator))
                        ==> v == ValueOr0(rows[i])
  {
    if rows == [] then 0
    else if Matches(rows[0], c, indicator) then ValueOr0(rows[0])
    else
      assert forall i :: 1 <= i < |rows| ==> rows[i] == rows[1..][i - 1];
      FindValue(rows[1..], c, indicator)
  }

  /** All country names of the rows, in row order (`rows.map(i => i.country)`); `Names` is the same projection on group totals. */
  function AllCountries(rows: seq<Row>): (cs: seq<string>)
    ensures |cs| == |rows|
    ensures forall i :: 0 <= i < |rows| ==> cs[i] == rows[i].country
  {
    if rows == [] then [] else [rows[0].country] + AllCountries(rows[1..])
  }

  /** First-appearance order: the distinct names of a prefix are a prefix of the distinct names. */
  lemma {:induction false} FirstDistinctPrefix(s: seq<string>, k: nat)
    requires k <= |s|
    ensures FirstDistinct(s[..k]) <= FirstDistinct(s)
  {
    if k < |s| {
      FirstDistinctPrefix(s[..|s| - 1], k);
      assert s[..|s| - 1][..k] == s[..k];
    } else {
      assert s[..k] == s;
    }
  }

  // ---------------------------------------------------------------------------
  // Ranking the per-country totals

  /** The sort key of `sort((a, b) => b.value - a.value)`: larger totals first. */
  function TotalDescending(c: CountryTotal): int
  {
    -c.total
  }

  /** The `n` largest per-country totals of one indicator, largest first, ties in first-insertion order. */
  function TopTotals(rows: seq<Row>, indicator: string, n: nat): (r: seq<CountryTotal>)
    ensures |r| == Min(n, |FirstDistinct(IndicatorCountries(rows, indicator))|)
  {
    var g := GroupSum(rows, indicator);
    Take(SortBy(g, TotalDescending), n)
  }

  /** The ranking lists distinct countries. */
  lemma TopTotalsDistinct(rows: seq<Row>, indicator: string, n: nat)
    ensures Distinct(Names(TopTotals(rows, indicator, n)))
  {
    var g := GroupSum(rows, indicator);
    var s := SortBy(g, TotalDescending);
    var r := TopTotals(rows, indicator, n);
    GroupSumEntries(rows, indicator);
    ReorderedDistinct(g, s);
    forall i, j | 0 <= i < j < |r|
      ensures Names(r)[i] != Names(r)[j]
    {
      assert r[i] == s[i] && r[j] == s[j];
      assert Names(s)[i] != Names(s)[j];
    }
  }

  /** Each listed country carries the indicator, and its total is the sum of its values. */
  lemma TopTotalsSums(rows: seq<Row>, indicator: string, n: nat)
    ensures var r := TopTotals(rows, indicator, n);
      forall i :: 0 <= i < |r| ==>
        r[i].country in IndicatorCountries(rows, indicator) && r[i].total == SumFor(rows, indicator, r[i].country)
  {
    var g := GroupSum(rows, indicator);
    var s := SortBy(g, TotalDescending);
    var r := TopTotals(rows, indicator, n);
    GroupSumEntries(rows, indicator);
    forall i | 0 <= i < |r|
      ensures r[i].country in IndicatorCountries(rows, indicator) && r[i].total == SumFor(rows, indicator, r[i].country)
    {
      assert r[i] == s[i];
      assert s[i] in multiset(g);
      var k :| 0 <= k < |g| && g[k] == s[i];
      assert Names(g)[k] == g[k].country;
    }
  }

  /** The ranking is in non-increasing order of total. */
  lemma TopTotalsOrdered(rows: seq<Row>, indicator: string, n: nat)
    ensures var r := TopTotals(rows, indicator, n);
      forall i, j :: 0 <= i < j < |r| ==> r[i].total >= r[j].total
  {
    var s := SortBy(GroupSum(rows, indicator), TotalDescending);
    var r := TopTotals(rows, indicator, n);
    forall i, j | 0 <= i < j < |r|
      ensures r[i].total >= r[j].total
    {
      assert TotalDescending(s[i]) <= TotalDescending(s[j]);
    }
  }

  /**
   * Ties keep first-insertion order: the countries sharing a total `t` come
   * in the ranking, of which `TopTotals` is a prefix, in the order the
   * group-sum lists them, which is their order of first appearance.
   */
  lemma TopTotalsTies(rows: seq<Row>, indicator: string, n: nat, t: int)
    ensures var s := SortBy(GroupSum(rows, indicator), TotalDescending);
      TopTotals(rows, indicator, n) <= s &&
      WithKey(s, TotalDescending, -t) == WithKey(GroupSum(rows, indicator), TotalDescending, -t)
  {
    SortByStable(GroupSum(rows, indicator), TotalDescending, -t);
  }

  /** Every listed country's total is at least that of every country carrying the indicator that is left out. */
  lemma TopTotalsDominates(rows: seq<Row>, indicator: string, n: nat)
    ensures var r := TopTotals(rows, indicator, n);
      forall i, c :: 0 <= i < |r| && c in IndicatorCountries(rows, indicator) && c !in Names(r) ==>
        r[i].total >= SumFor(rows, indicator, c)
  {
    var g := GroupSum(rows, indicator);
    var s := SortBy(g, TotalDescending);
    var r := TopTotals(rows, indicator, n);
    assert r == s[..|r|];
    GroupSumEntries(rows, indicator);
    forall i, c | 0 <= i < |r| && c in IndicatorCountries(rows, indicator) && c !in Names(r)
      ensures r[i].total >= SumFor(rows, indicator, c)
    {
      var k :| 0 <= k < |g| && Names(g)[k] == c;
      var p := RankOf(g, s, k, |r|, c);
      assert TotalDescending(s[i]) <= TotalDescending(s[p]);
    }
  }

  function CountryOf(e: CountryTotal): string
  {
    e.country
  }

  /** A reordering of entries with distinct names keeps the names distinct. */
  lemma ReorderedDistinct(g: seq<CountryTotal>, s: seq<CountryTotal>)
    requires multiset(g) == multiset(s) && Distinct(Names(g))
    ensures Distinct(Names(s))
  {
    forall i, j | 0 <= i < j < |g|
      ensures CountryOf(g[i]) != CountryOf(g[j])
    {
      assert Names(g)[i] != Names(g)[j];
    }
    PermutationKeepsDistinct(g, s, CountryOf);
    forall i, j | 0 <= i < j < |s|
      ensures Names(s)[i] != Names(s)[j]
    {
      assert CountryOf(s[i]) != CountryOf(s[j]);
      assert Names(s)[i] == s[i].country && Names(s)[j] == s[j].country;
    }
  }

  /** Where an entry left out of the first `m` of the reordering sits: at or after position `m`. */
  lemma RankOf(g: seq<CountryTotal>, s: seq<CountryTotal>, k: nat, m: nat, c: string) returns (p: nat)
    requires multiset(g) == multiset(s) && k < |g| && m <= |s| && g[k].country == c
    requires c !in Names(s[..m])
    ensures m <= p < |s| && s[p] == g[k]
  {
    assert g[k] in multiset(s);
    p :| 0 <= p < |s| && s[p] == g[k];
  }

  // ---------------------------------------------------------------------------
  // The latest row per country

  /** The first entry of `acc` for country `c`: the value `Map.get(c)` returns. */
  function EntryFor(acc: seq<Row>, c: string): (r: Option<Row>)
    ensures r.Some? ==> r.value in acc && r.value.country == c
    ensures r.None? <==> c !in AllCountries(acc)
  {
    if acc == [] then None
    else if acc[0].country == c then Some(acc[0])
    else EntryFor(acc[1..], c)
  }

  /** `map.set(x.country, x)`: overwrite the country's entry in place, or append a new one. */
  function SetEntry(acc: seq<Row>, x: Row): (r: seq<Row>)
    ensures AllCountries(r) == if x.country in AllCountries(acc) then AllCountries(acc) else AllCountries(acc) + [x.country]
    ensures forall c :: EntryFor(r, c) == if c == x.country then Some(x) else EntryFor(acc, c)
  {
    if acc == [] then [x]
    else if acc[0].country == x.country then [x] + acc[1..]
    else
      var t := SetEntry(acc[1..], x);
      assert AllCountries(acc) == [acc[0].country] + AllCountries(acc[1..]);
      assert AllCountries([acc[0]] + t) == [acc[0].country] + AllCountries(t);
      [acc[0]] + t
  }

  /** The last row of country `c` carrying `indicator`, if any. */
  function LastMatch(rows: seq<Row>, c: string, indicator: string): (r: Option<Row>)
    ensures r.Some? ==> Matches(r.value, c, indicator)
  {
    if rows == [] then None
    else if Matches(rows[|rows| - 1], c, indicator) then Some(rows[|rows| - 1])
    else LastMatch(rows[..|rows| - 1], c, indicator)
  }

  /** `LastMatch` finds the matching row with no matching row after it, and finds nothing only when no row matches. */
  lemma {:induction false} LastMatchIsLast(rows: seq<Row>, c: string, indicator: string)
    ensures LastMatch(rows, c, indicator).None? <==> forall i :: 0 <= i < |rows| ==> !Matches(rows[i], c, indicator)
    ensures LastMatch(rows, c, indicator).Some? ==>
      exists i :: 0 <= i < |rows| && rows[i] == LastMatch(rows, c, indicator).value && Matches(rows[i], c, indicator) &&
                  forall j :: i < j < |rows| ==> !Matches(rows[j], c, indicator)
  {
    if rows != [] {
      var n := |rows| - 1;
      LastMatchIsLast(rows[..n], c, indicator);
      if !Matches(rows[n], c, indicator) {
        assert forall i :: 0 <= i < n ==> rows[..n][i] == rows[i];
        if LastMatch(rows, c, indicator).Some? {
          var i :| 0 <= i < n && rows[..n][i] == LastMatch(rows, c, indicator).value &&
            Matches(rows[..n][i], c, indicator) && forall j :: i < j < n ==> !Matches(rows[..n][j], c, indicator);
          assert rows[i] == LastMatch(rows, c, indicator).value;
        }
      }
    }
  }

  /**
   * `new Map(rows.filter(i => i.indicator === indicator).map(i => [i.country, i])).values()`:
   * one row per country carrying the indicator, in order of the country's
   * first appearance, holding the country's last such row.
   */
  function LatestByCountry(rows: seq<Row>, indicator: string): (r: seq<Row>)
    ensures AllCountries(r) == FirstDistinct(IndicatorCountries(rows, indicator))
    ensures forall c :: EntryFor(r, c) == LastMatch(rows, c, indicator)
  {
    if rows == [] then []
    else
      var last := rows[|rows| - 1];
      var p := LatestByCountry(rows[..|rows| - 1], indicator);
      var s := IndicatorCountries(rows[..|rows| - 1], indicator);
      if last.indicator == indicator then
        assert IndicatorCountries(rows, indicator) == s + [last.country];
        assert (s + [last.country])[..|s|] == s;
        SetEntry(p, last)
      else
        assert IndicatorCountries(rows, indicator) == s;
        p
  }

  lemma {:induction false} EntryForAt(acc: seq<Row>, i: nat)
    requires i < |acc| && Distinct(AllCountries(acc))
    ensures EntryFor(acc, acc[i].country) == Some(acc[i])
  {
    if i > 0 {
      assert AllCountries(acc)[0] != AllCountries(acc)[i];
      assert AllCountries(acc[1..]) == AllCountries(acc)[1..];
      EntryForAt(acc[1..], i - 1);
    }
  }

  /** Each entry of `LatestByCountry` is the last row of its country carrying the indicator. */
  lemma LatestByCountryAt(rows: seq<Row>, indicator: string, k: nat)
    requires k < |LatestByCountry(rows, indicator)|
    ensures var r := LatestByCountry(rows, indicator);
      LastMatch(rows, r[k].country, indicator) == Some(r[k])
  {
    EntryForAt(LatestByCountry(rows, indicator), k);
  }

  /** `Math.floor((rows.filter(i => i.country === c).find(i => i.indicator === indicator)?.value || 0) / divisor)` */
  function Scaled(rows: seq<Row>, c: string, indicator: string, divisor: nat): (v: int)
    requires divisor > 0
    ensures v * divisor <= FindValue(rows, c, indicator) < (v + 1) * divisor
  {
    var x := FindValue(rows, c, indicator);
    var q := x / divisor;
    assert q * divisor + x % divisor == x;
    assert (q + 1) * divisor == q * divisor + divisor;
    q
  }

  /** With no negative values, a looked-up value is never negative. */
  lemma {:induction false} FindValueNonNegative(rows: seq<Row>, c: string, indicator: string)
    requires forall r :: r in rows ==> ValueOr0(r) >= 0
    ensures FindValue(rows, c, indicator) >= 0
  {
    if rows != [] && !Matches(rows[0], c, indicator) {
      assert forall r :: r in rows[1..] ==> r in rows;
      FindValueNonNegative(rows[1..], c, indicator);
    }
  }

  /** `Array.from(new Set(rows.map(i => i.country))).slice(0, n)` */
  function FirstCountries(rows: seq<Row>, n: nat): (cs: seq<string>)
    ensures cs <= FirstDistinct(AllCountries(rows))
    ensures |cs| == Min(n, |FirstDistinct(AllCountries(rows))|)
    ensures Distinct(cs)
    ensures forall c :: c in cs ==> exists r :: r in rows && r.country == c
  {
    var d := FirstDistinct(AllCountries(rows));
    var cs := Take(d, n);
    assert forall i :: 0 <= i < |cs| ==> cs[i] == d[i];
    forall c | c in cs
      ensures exists r :: r in rows && r.country == c
    {
      assert c in d;
      var k :| 0 <= k < |AllCountries(rows)| && AllCountries(rows)[k] == c;
      assert rows[k] in rows;
    }
    cs
  }

  /** A country of the rows is left out of the first `n` only when `n` countries are already listed. */
  lemma FirstCountriesFull(rows: seq<Row>, n: nat, r: Row)
    requires r in rows && r.country !in FirstCountries(rows, n)
    ensures |FirstCountries(rows, n)| == n
  {
    var k :| 0 <= k < |rows| && rows[k] == r;
    assert AllCountries(rows)[k] == r.country;
    var d := FirstDistinct(AllCountries(rows));
    assert r.country in d;
    assert |d| <= n ==> Take(d, n) == d;
  }
}

=== FILE: health_trend_chart.dfy ===
/**
 * The trend chart (components/HealthTrendChart.tsx): the five countries with
 * the largest summed Total Cases, largest first, each plotted with its first
 * Total Cases, Deaths and Recovered values, scaled, and with a per-position
 * offset added to cases and recovered.
 */
module HealthTrendChart {

  import opened Common
  import opened HealthRows

  const TOP := 5
  const NAME_LENGTH := 15

  datatype TrendPoint = TrendPoint(country: string, name: string, cases: int, deaths: int, recovered: int)

  /** `topCountries` */
  function TopCountries(rows: seq<Row>): (cs: seq<string>)
    ensures |cs| <= TOP
  {
    Names(TopTotals(rows, TOTAL_CASES, TOP))
  }

  /** The point of the country at position `idx`. */
  function PointAt(rows: seq<Row>, country: string, idx: nat): TrendPoint
  {
    TrendPoint(country, Truncate(country, NAME_LENGTH, "..."),
               Scaled(rows, country, TOTAL_CASES, 1000) + idx * 10,
               Scaled(rows, country, DEATHS, 100),
               Scaled(rows, country, RECOVERED, 1000) + idx * 8)
  }

  /** `chartData` */
  function ChartData(rows: seq<Row>): (r: seq<TrendPoint>)
    ensures |r| == |TopCountries(rows)|
    ensures forall i :: 0 <= i < |r| ==> r[i].country == TopCountries(rows)[i]
  {
    var cs := TopCountries(rows);
    seq(|cs|, i requires 0 <= i < |cs| => PointAt(rows, cs[i], i))
  }

  /**
   * The chart shows distinct countries with Total Cases rows, in
   * non-increasing order of summed Total Cases, and no country left out has a
   * larger sum than one that is shown.
   */
  lemma TopCountriesRanked(rows: seq<Row>)
    ensures var cs := TopCountries(rows);
      Distinct(cs) &&
      (forall i :: 0 <= i < |cs| ==> cs[i] in IndicatorCountries(rows, TOTAL_CASES)) &&
      (forall i, j :: 0 <= i < j < |cs| ==> SumFor(rows, TOTAL_CASES, cs[i]) >= SumFor(rows, TOTAL_CASES, cs[j])) &&
      (forall c, i :: 0 <= i < |cs| && c in IndicatorCountries(rows, TOTAL_CASES) && c !in cs ==>
         SumFor(rows, TOTAL_CASES, cs[i]) >= SumFor(rows, TOTAL_CASES, c))
  {
    TopTotalsDistinct(rows, TOTAL_CASES, TOP);
    TopTotalsSums(rows, TOTAL_CASES, TOP);
    TopTotalsOrdered(rows, TOTAL_CASES, TOP);
    TopTotalsDominates(rows, TOTAL_CASES, TOP);
  }

  /**
   * Position `i` plots the country's FIRST Total Cases and Recovered values in
   * thousands plus 10·i and 8·i, and its first Deaths value in hundreds with no
   * offset; a missing row counts as 0.
   */
  lemma PointValues(rows: seq<Row>, i: nat)
    requires i < |ChartData(rows)|
    ensures var p := ChartData(rows)[i];
      (p.cases - 10 * i) * 1000 <= FindValue(rows, p.country, TOTAL_CASES) < (p.cases - 10 * i + 1) * 1000 &&
      p.deaths * 100 <= FindValue(rows, p.country, DEATHS) < (p.deaths + 1) * 100 &&
      (p.recovered - 8 * i) * 1000 <= FindValue(rows, p.country, RECOVERED) < (p.recovered - 8 * i + 1) * 1000 &&
      p.name == Truncate(p.country, NAME_LENGTH, "...")
  {
  }

  /** `chartData.length > 0 && chartData.some(d => d.cases > 0)` */
  predicate HasData(points: seq<TrendPoint>)
  {
    |points| > 0 && exists i :: 0 <= i < |points| && points[i].cases > 0
  }

  /**
   * With no negative values, the chart has data as soon as two countries are
   * shown: the second one's cases are at least its offset of 10.
   */
  lemma TwoCountriesHaveData(rows: seq<Row>)
    requires forall r :: r in rows ==> ValueOr0(r) >= 0
    requires |ChartData(rows)| >= 2
    ensures HasData(ChartData(rows))
  {
    var r := ChartData(rows);
    FindValueNonNegative(rows, r[1].country, TOTAL_CASES);
    assert r[1].cases >= 10;
  }
}

=== FILE: inventory_store.dfy ===
/**
 * The medicine-inventory side of the application: its records and the store
 * the route handlers and the reorder trigger change. The database is
 * abstracted as maps keyed by the unique identifiers plus append-only logs.
 */
module InventoryStore {

  import opened Common

  /** A medicine (`Medicine`); `expiryDate` is a millisecond timestamp. */
  datatype Medicine = Medicine(
    medicineId: string, name: string, stock: int, minStock: int, maxStock: int,
    price: int, expiryDate: int)

  /** A reorder request (`ReorderRequest`); its status is free text such as "pending". */
  datatype ReorderRequest = ReorderRequest(medicineId: string, quantity: int, status: string)

  /** A stock transaction (`Transaction`); `event` is "added" or "sold". */
  datatype Transaction = Transaction(medicineId: string, event: string, quantity: int, timestamp: int)

  /** The stock-update message published for live clients. */
  datatype StockUpdate = StockUpdate(
    medicineId: string, name: string, stock: int, event: string, quantity: int, timestamp: int)

  /** The whole inventory as a value. */
  datatype Inventory = Inventory(
    medicines: map<string, Medicine>, requests: map<string, ReorderRequest>,
    transactions: seq<Transaction>, published: seq<StockUpdate>)

  /** Every medicine is stored under its own id. */
  predicate Keyed(medicines: map<string, Medicine>)
  {
    forall id :: id in medicines ==> medicines[id].medicineId == id
  }

  /** Low stock: at or below the minimum. */
  predicate LowStock(m: Medicine)
  {
    m.stock <= m.minStock
  }

  /** An HTTP response: its status code only (bodies are presentation). */
  datatype Response = Response(status: int)

  const PENDING := "pending"
  const COMPLETED := "completed"
  const ADDED := "added"

  /** The inventory tables, updated in place by the handlers. */
  class Store {
    var medicines: map<string, Medicine>
    var requests: map<string, ReorderRequest>
    var transactions: seq<Transaction>
    var published: seq<StockUpdate>

    function State(): Inventory
      reads this
    {
      Inventory(medicines, requests, transactions, published)
    }

    constructor(init: Inventory)
      ensures State() == init
    {
      medicines := init.medicines;
      requests := init.requests;
      transactions := init.transactions;
      published := init.published;
    }
  }
}

=== FILE: inventory_utils.dfy ===
/**
 * The inventory rules of lib/inventory-utils.ts: the low-stock reorder
 * trigger, the expiry classification of one medicine, and the query for the
 * medicines that expire within 30 days.
 *
 * Store errors are a boolean input (`fails`); the functions swallow them as
 * the source does. The clock is a millisecond timestamp parameter.
 */
module InventoryUtils {

  import opened Common
  import opened Sorting
  import opened InventoryStore

  // ---------------------------------------------------------------------------
  // checkAndCreateReorder

  /** Some request for the medicine has status exactly "pending". */
  predicate HasPending(requests: map<string, ReorderRequest>, medicineId: string)
  {
    exists k :: k in requests && requests[k].medicineId == medicineId && requests[k].status == PENDING
  }

  /** The ids of the pending requests for a medicine. */
  ghost function PendingFor(requests: map<string, ReorderRequest>, medicineId: string): set<string>
  {
    set k | k in requests && requests[k].medicineId == medicineId && requests[k].status == PENDING
  }

  /** The trigger fires: the medicine exists, its stock is at or below its minimum, and nothing is pending for it. */
  predicate NeedsReorder(medicines: map<string, Medicine>, requests: map<string, ReorderRequest>, medicineId: string)
  {
    medicineId in medicines && LowStock(medicines[medicineId]) &&
    !HasPending(requests, medicineId)
  }

  /**
   * The request table after `checkAndCreateReorder(medicineId)`; `freshId` is
   * the id the database gives a new request.
   */
  function ReorderCheck(medicines: map<string, Medicine>, requests: map<string, ReorderRequest>,
                        medicineId: string, freshId: string, fails: bool): (r: map<string, ReorderRequest>)
    requires freshId !in requests
    ensures forall k :: k in requests ==> k in r && r[k] == requests[k]
    ensures forall k :: k in r && k !in requests ==> k == freshId
    ensures freshId in r <==> !fails && NeedsReorder(medicines, requests, medicineId)
    ensures freshId in r ==>
      var m := medicines[medicineId];
      r[freshId] == ReorderRequest(medicineId, m.maxStock - m.stock, PENDING) && m.stock + r[freshId].quantity == m.maxStock
  {
    if !fails && NeedsReorder(medicines, requests, medicineId) then
      var m := medicines[medicineId];
      requests[freshId := ReorderRequest(medicineId, m.maxStock - m.stock, PENDING)]
    else requests
  }

  /** No medicine ever has two pending requests: the trigger keeps that invariant. */
  lemma ReorderCheckAtMostOnePending(medicines: map<string, Medicine>, requests: map<string, ReorderRequest>,
                                     medicineId: string, freshId: string, fails: bool)
    requires freshId !in requests
    requires forall m :: |PendingFor(requests, m)| <= 1
    ensures forall m :: |PendingFor(ReorderCheck(medicines, requests, medicineId, freshId, fails), m)| <= 1
  {
    var r := ReorderCheck(medicines, requests, medicineId, freshId, fails);
    forall m
      ensures |PendingFor(r, m)| <= 1
    {
      if freshId !in r {
        assert PendingFor(r, m) == PendingFor(requests, m);
      } else if m != medicineId {
        assert PendingFor(r, m) == PendingFor(requests, m);
      } else {
        assert PendingFor(requests, m) == {};
        assert PendingFor(r, m) == {freshId};
      }
    }
  }

  /** Once a check has gone through, a second check for the same medicine changes nothing. */
  lemma ReorderCheckIdempotent(medicines: map<string, Medicine>, requests: map<string, ReorderRequest>,
                               medicineId: string, id1: string, id2: string, fails2: bool)
    requires id1 !in requests
    requires id2 !in ReorderCheck(medicines, requests, medicineId, id1, false)
    ensures var once := ReorderCheck(medicines, requests, medicineId, id1, false);
      ReorderCheck(medicines, once, medicineId, id2, fails2) == once
  {
    var once := ReorderCheck(medicines, requests, medicineId, id1, false);
    if id1 in once {
      assert once[id1].medicineId == medicineId && once[id1].status == PENDING;
      assert HasPending(once, medicineId);
    } else {
      assert once == requests;
    }
  }

  /** `checkAndCreateReorder`: reads the medicine, looks for a pending request, and creates one when needed. */
  method CheckAndCreateReorder(store: Store, medicineId: string, freshId: string, fails: bool)
    requires freshId !in store.requests
    modifies store
    ensures store.requests == ReorderCheck(old(store.medicines), old(store.requests), medicineId, freshId, fails)
    ensures store.medicines == old(store.medicines)
    ensures store.transactions == old(store.transactions) && store.published == old(store.published)
  {
    if fails {
      return;
    }
    if medicineId !in store.medicines {
      return;
    }
    var medicine := store.medicines[medicineId];
    if medicine.stock > medicine.minStock {
      return;
    }
    if HasPending(store.requests, medicineId) {
      return;
    }
    var reorderQuantity := medicine.maxStock - medicine.stock;
    store.requests := store.requests[freshId := ReorderRequest(medicineId, reorderQuantity, PENDING)];
  }

  // ---------------------------------------------------------------------------
  // getExpirationStatus

  const DAY_MS := 86400000

  /** Whole days from `earlier` to `later`, truncated toward zero. */
  function DifferenceInDays(later: int, earlier: int): (d: int)
    ensures later >= earlier ==> d >= 0 && d * DAY_MS <= later - earlier < (d + 1) * DAY_MS
    ensures later < earlier ==> d <= 0 && (d - 1) * DAY_MS < later - earlier <= d * DAY_MS
  {
    var diff := later - earlier;
    if diff >= 0 then diff / DAY_MS else -((-diff) / DAY_MS)
  }

  datatype ExpiryStatus = Expired | ExpiringSoon | Fine

  /** The result of `getExpirationStatus`; `Fine` is the source's 'ok'. */
  datatype Expiration = Expiration(status: ExpiryStatus, daysLeft: int)

  /** `getExpirationStatus(expiryDate)` at clock reading `nowMs`. */
  function ExpirationStatus(expiryMs: int, nowMs: int): (e: Expiration)
    ensures e.status == Expired <==> expiryMs < nowMs
    ensures e.status == Expired ==> e.daysLeft == 0
    ensures e.status == ExpiringSoon <==> nowMs <= expiryMs < nowMs + 31 * DAY_MS
    ensures e.status == Fine <==> nowMs + 31 * DAY_MS <= expiryMs
    ensures e.status != Expired ==> e.daysLeft * DAY_MS <= expiryMs - nowMs < (e.daysLeft + 1) * DAY_MS
    ensures e.status == ExpiringSoon ==> 0 <= e.daysLeft <= 30
    ensures e.status == Fine ==> e.daysLeft > 30
  {
    var daysLeft := DifferenceInDays(expiryMs, nowMs);
    if expiryMs < nowMs then Expiration(Expired, 0)
    else if daysLeft <= 30 then Expiration(ExpiringSoon, daysLeft)
    else Expiration(Fine, daysLeft)
  }

  function Rank(s: ExpiryStatus): int
  {
    match s
    case Expired => 0
    case ExpiringSoon => 1
    case Fine => 2
  }

  /** A later expiry never gets an earlier status, nor fewer days left. */
  lemma ExpirationMonotone(e1: int, e2: int, nowMs: int)
    requires e1 <= e2
    ensures Rank(ExpirationStatus(e1, nowMs).status) <= Rank(ExpirationStatus(e2, nowMs).status)
    ensures ExpirationStatus(e1, nowMs).daysLeft <= ExpirationStatus(e2, nowMs).daysLeft
  {
  }

  // ---------------------------------------------------------------------------
  // checkExpiringMedicines

  function ExpiryOf(m: Medicine): int
  {
    m.expiryDate
  }

  /** The medicines expiring at or before `limit`, in their stored order. */
  function ExpiringBy(meds: seq<Medicine>, limit: int): (r: seq<Medicine>)
    ensures forall m :: m in r <==> m in meds && m.expiryDate <= limit
    ensures forall m :: multiset(r)[m] == if m.expiryDate <= limit then multiset(meds)[m] else 0
    ensures |r| <= |meds|
  {
    if meds == [] then []
    else
      assert meds == [meds[0]] + meds[1..];
      (if meds[0].expiryDate <= limit then [meds[0]] else []) + ExpiringBy(meds[1..], limit)
  }

  /**
   * `checkExpiringMedicines()` at clock reading `nowMs`: the medicines whose
   * expiry is at most 30 days away, soonest first, or nothing when the query fails.
   */
  function ExpiringMedicines(meds: seq<Medicine>, nowMs: int, fails: bool): (r: seq<Medicine>)
    ensures fails ==> r == []
    ensures !fails ==> forall m :: m in r <==> m in meds && m.expiryDate <= nowMs + 30 * DAY_MS
    ensures !fails ==> forall m :: multiset(r)[m] == if m.expiryDate <= nowMs + 30 * DAY_MS then multiset(meds)[m] else 0
    ensures SortedBy(r, ExpiryOf)
  {
    if fails then []
    else
      var chosen := ExpiringBy(meds, nowMs + 30 * DAY_MS);
      var r := SortBy(chosen, ExpiryOf);
      assert forall m :: m in r <==> m in chosen by {
        forall m ensures m in r <==> m in chosen {
          assert m in r <==> m in multiset(r);
          assert m in chosen <==> m in multiset(chosen);
        }
      }
      r
  }

  /**
   * Every medicine the query lists is expired or expiring soon by
   * `getExpirationStatus`, and every expired medicine is listed.
   */
  lemma ExpiringMatchesStatus(meds: seq<Medicine>, nowMs: int)
    ensures forall m :: m in ExpiringMedicines(meds, nowMs, false) ==> ExpirationStatus(m.expiryDate, nowMs).status != Fine
    ensures forall m :: m in meds && ExpirationStatus(m.expiryDate, nowMs).status == Expired ==>
      m in ExpiringMedicines(meds, nowMs, false)
  {
  }
}

=== FILE: live_feed.dfy ===
/**
 * The home page's live feed (app/page.tsx): one server-sent-event source at a
 * time, the "connected" indicator, the newest-first list of at most 50 health
 * updates, and the reconnect scheduled 3000 ms after an error. The browser's
 * events and the timer are the methods' callers; a closed source delivers no
 * events.
 */
module LiveFeed {

  import opened Common
  import opened WhoApi

  const MAX_UPDATES := 50
  const RECONNECT_DELAY_MS := 3000

  /** `[data, ...prev].slice(0, 50)` */
  function PushBounded(x: UpdateEvent, prev: seq<UpdateEvent>): (r: seq<UpdateEvent>)
    ensures |r| == Min(MAX_UPDATES, |prev| + 1)
    ensures r[0] == x
    ensures r[1..] <= prev
  {
    Take([x] + prev, MAX_UPDATES)
  }

  /** Pushing keeps the list bounded and keeps every update that still fits, in order. */
  lemma PushKeepsRecent(x: UpdateEvent, prev: seq<UpdateEvent>, i: nat)
    requires i < |prev| && i + 1 < MAX_UPDATES
    ensures PushBounded(x, prev)[i + 1] == prev[i]
  {
  }

  /** A message as parsed from the event's data. */
  datatype Message = Connected | HealthUpdate(data: UpdateEvent) | OtherType | Unparseable

  /** The effect's local and React state. */
  class Feed {
    var updates: seq<UpdateEvent>
    var connected: bool
    var mounted: bool
    var sourceOpen: bool
    var reconnectPending: bool
    var connections: nat

    /** A pending reconnect means the source is closed; after unmount nothing is open or pending. */
    predicate Valid()
      reads this
    {
      |updates| <= MAX_UPDATES &&
      (reconnectPending ==> !sourceOpen) &&
      (!mounted ==> !reconnectPending && !sourceOpen)
    }

    /** Mounting: the effect runs and `connect()` opens the first source. */
    constructor()
      ensures Valid() && mounted && sourceOpen && !connected && connections == 1
      ensures updates == [] && !reconnectPending
    {
      updates := [];
      connected := false;
      mounted := true;
      sourceOpen := true;
      reconnectPending := false;
      connections := 1;
    }

    /** `eventSource.onopen` */
    method OnOpen()
      requires Valid()
      modifies this
      ensures Valid()
      ensures connected == (old(connected) || (mounted && sourceOpen))
      ensures updates == old(updates) && mounted == old(mounted) && sourceOpen == old(sourceOpen)
      ensures reconnectPending == old(reconnectPending) && connections == old(connections)
    {
      if sourceOpen && mounted {
        connected := true;
      }
    }

    /** `eventSource.onmessage` */
    method OnMessage(m: Message)
      requires Valid()
      modifies this
      ensures Valid()
      ensures mounted && sourceOpen && m.HealthUpdate? ==> updates == PushBounded(m.data, old(updates))
      ensures !(mounted && sourceOpen && m.HealthUpdate?) ==> updates == old(updates)
      ensures connected == (old(connected) || (mounted && sourceOpen && m == Connected))
      ensures mounted == old(mounted) && sourceOpen == old(sourceOpen)
      ensures reconnectPending == old(reconnectPending) && connections == old(connections)
    {
      if !sourceOpen || !mounted {
        return;
      }
      match m {
        case Connected =>
          connected := true;
        case HealthUpdate(data) =>
          updates := PushBounded(data, updates);
        case OtherType =>
        case Unparseable =>
      }
    }

    /** `eventSource.onerror`: while mounted, disconnect, close, and schedule one reconnect. */
    method OnError()
      requires Valid()
      modifies this
      ensures Valid()
      ensures mounted && old(sourceOpen) ==> !connected && !sourceOpen && reconnectPending
      ensures !(mounted && old(sourceOpen)) ==>
        connected == old(connected) && sourceOpen == old(sourceOpen) && reconnectPending == old(reconnectPending)
      ensures updates == old(updates) && mounted == old(mounted) && connections == old(connections)
    {
      if !sourceOpen || !mounted {
        return;
      }
      connected := false;
      sourceOpen := false;
      reconnectPending := true;
    }

    /** The reconnect timer fires: a new source is opened, if still mounted. */
    method ReconnectFires()
      requires Valid()
      modifies this
      ensures Valid()
      ensures old(reconnectPending) ==> !reconnectPending && sourceOpen && connections == old(connections) + 1
      ensures !old(reconnectPending) ==> reconnectPending == old(reconnectPending) && sourceOpen == old(sourceOpen) && connections == old(connections)
      ensures updates == old(updates) && connected == old(connected) && mounted == old(mounted)
    {
      if !reconnectPending {
        return;
      }
      reconnectPending := false;
      if mounted {
        sourceOpen := true;
        connections := connections + 1;
      }
    }

    /** The effect's cleanup: unmount, clear the pending reconnect, close the source. */
    method Unmount()
      requires Valid()
      modifies this
      ensures Valid()
      ensures !mounted && !reconnectPending && !sourceOpen
      ensures updates == old(updates) && connected == old(connected) && connections == old(connections)
    {
      mounted := false;
      reconnectPending := false;
      sourceOpen := false;
    }
  }

  /** After unmount, no message, error or timer changes the list or opens a source. */
  method UnmountSilences(f: Feed, m: Message)
    requires f.Valid()
    modifies f
    ensures f.updates == old(f.updates) && !f.sourceOpen && f.connections == old(f.connections)
  {
    f.Unmount();
    f.OnMessage(m);
    f.OnError();
    f.ReconnectFires();
    f.OnOpen();
  }
}

=== FILE: medicines_route.dfy ===
/**
 * `POST /api/medicines` (app/api/medicines/route.ts): creates a medicine with
 * JavaScript `||` defaults and, when it starts with stock, logs an "added"
 * transaction and publishes a stock update. The clock is a millisecond
 * timestamp parameter.
 */
module MedicinesRoute {

  import opened Common
  import opened InventoryStore

  /** The request body; a field the client left out is `None`. */
  datatype NewMedicine = NewMedicine(
    medicineId: Option<string>, name: Option<string>, stock: Option<int>,
    minStock: Option<int>, maxStock: Option<int>, price: Option<int>, expiryDate: Option<int>)

  /** The fields without which the database rejects the insert. */
  predicate Complete(body: NewMedicine)
  {
    body.medicineId.Some? && body.name.Some? && body.price.Some? && body.expiryDate.Some?
  }

  /** The medicine created from a complete body: stock defaults to 0, minStock to 10, maxStock to 100. */
  function Created(body: NewMedicine): (m: Medicine)
    requires Complete(body)
    ensures m.medicineId == body.medicineId.value && m.name == body.name.value
    ensures m.price == body.price.value && m.expiryDate == body.expiryDate.value
    ensures m.stock == (if body.stock.None? || body.stock.value == 0 then 0 else body.stock.value)
    ensures m.minStock == (if body.minStock.None? || body.minStock.value == 0 then 10 else body.minStock.value)
    ensures m.maxStock == (if body.maxStock.None? || body.maxStock.value == 0 then 100 else body.maxStock.value)
  {
    Medicine(body.medicineId.value, body.name.value, OrInt(body.stock, 0), OrInt(body.minStock, 10),
             OrInt(body.maxStock, 100), body.price.value, body.expiryDate.value)
  }

  datatype Outcome = Outcome(response: Response, inventory: Inventory)

  /** The insert is refused: a required field is missing or the id is taken. */
  predicate Rejected(inv: Inventory, body: NewMedicine)
  {
    !Complete(body) || body.medicineId.value in inv.medicines
  }

  /** The handler with the stock-update publication it is evidently meant to make. */
  function PostMedicine(inv: Inventory, body: NewMedicine, nowMs: int): (o: Outcome)
    ensures Rejected(inv, body) <==> o.response == Response(500)
    ensures Rejected(inv, body) ==> o.inventory == inv
    ensures !Rejected(inv, body) ==>
      o.response == Response(201) && o.inventory.medicines == inv.medicines[body.medicineId.value := Created(body)]
    ensures o.inventory.requests == inv.requests
    ensures Keyed(inv.medicines) ==> Keyed(o.inventory.medicines)
  {
    if Rejected(inv, body) then Outcome(Response(500), inv)
    else
      var m := Created(body);
      var created := inv.(medicines := inv.medicines[m.medicineId := m]);
      if m.stock > 0 then
        var timestamp := nowMs / 1000;
        Outcome(Response(201), created.(
          transactions := created.transactions + [Transaction(m.medicineId, ADDED, m.stock, timestamp)],
          published := created.published + [StockUpdate(m.medicineId, m.name, m.stock, ADDED, m.stock, timestamp)]))
      else Outcome(Response(201), created)
  }

  /**
   * One transaction and one stock update are produced exactly when the
   * initial stock is positive; both carry the new medicine's id and its
   * initial stock as the quantity, and the update also carries its stock.
   */
  lemma PostMedicineLogs(inv: Inventory, body: NewMedicine, nowMs: int)
    requires !Rejected(inv, body)
    ensures var o := PostMedicine(inv, body, nowMs);
      var m := Created(body);
      (m.stock > 0 ==>
         o.inventory.transactions == inv.transactions + [Transaction(m.medicineId, ADDED, m.stock, nowMs / 1000)] &&
         |o.inventory.published| == |inv.published| + 1 &&
         var u := o.inventory.published[|inv.published|];
         u.medicineId == m.medicineId && u.stock == m.stock && u.quantity == m.stock && u.event == ADDED) &&
      (m.stock <= 0 ==> o.inventory.transactions == inv.transactions && o.inventory.published == inv.published)
  {
  }

  /** Creating a medicine at or below its minimum stock still creates no reorder request. */
  lemma PostMedicineNoReorder(inv: Inventory, body: NewMedicine, nowMs: int)
    requires !Rejected(inv, body) && Created(body).stock <= Created(body).minStock
    ensures PostMedicine(inv, body, nowMs).inventory.requests == inv.requests
  {
  }

  /**
   * The handler as written: the publication calls a method the emitter does
   * not define, which throws once the medicine and its transaction are
   * already stored, so the client gets 500 and nothing is published.
   */
  function PostMedicineAsWritten(inv: Inventory, body: NewMedicine, nowMs: int): (o: Outcome)
    ensures !Rejected(inv, body) && Created(body).stock > 0 ==>
      o.response == Response(500) && body.medicineId.value in o.inventory.medicines
    ensures o.inventory.published == inv.published
  {
    if Rejected(inv, body) then Outcome(Response(500), inv)
    else
      var m := Created(body);
      var created := inv.(medicines := inv.medicines[m.medicineId := m]);
      if m.stock > 0 then
        Outcome(Response(500), created.(
          transactions := created.transactions + [Transaction(m.medicineId, ADDED, m.stock, nowMs / 1000)]))
      else Outcome(Response(201), created)
  }

  /** A concrete body on which the handler as written reports failure although it stored the medicine and its transaction. */
  lemma AsWrittenFailsAfterStoring()
    ensures var inv := Inventory(map[], map[], [], []);
      var body := NewMedicine(Some("MED-1"), Some("Paracetamol"), Some(5), None, None, Some(2000), Some(0));
      var o := PostMedicineAsWritten(inv, body, 0);
      o.response == Response(500) && "MED-1" in o.inventory.medicines && |o.inventory.transactions| == 1 &&
      PostMedicine(inv, body, 0).response == Response(201)
  {
    var inv := Inventory(map[], map[], [], []);
    var body := NewMedicine(Some("MED-1"), Some("Paracetamol"), Some(5), None, None, Some(2000), Some(0));
    assert !Rejected(inv, body);
    assert Created(body).stock == 5;
  }

  /** The handler on the store, with the publication appended to the published updates. */
  method Post(store: Store, body: NewMedicine, nowMs: int) returns (response: Response)
    modifies store
    ensures Outcome(response, store.State()) == PostMedicine(old(store.State()), body, nowMs)
  {
    if !Complete(body) || body.medicineId.value in store.medicines {
      return Response(500);
    }
    var initialStock := OrInt(body.stock, 0);
    var medicine := Medicine(body.medicineId.value, body.name.value, initialStock, OrInt(body.minStock, 10),
                             OrInt(body.maxStock, 100), body.price.value, body.expiryDate.value);
    store.medicines := store.medicines[medicine.medicineId := medicine];
    if initialStock > 0 {
      var timestamp := nowMs / 1000;
      store.transactions := store.transactions + [Transaction(medicine.medicineId, ADDED, initialStock, timestamp)];
      var stockUpdate := StockUpdate(medicine.medicineId, medicine.name, medicine.stock, ADDED, initialStock, timestamp);
      store.published := store.published + [stockUpdate];
    }
    response := Response(201);
  }
}

=== FILE: reorder_route.dfy ===
/**
 * `POST /api/reorder` (app/api/reorder/route.ts): sets a reorder request's
 * status and, when the new status is "completed", adds the requested quantity
 * to the medicine's stock. The body fields `id` and `status` may be absent;
 * the two writes are not in one transaction.
 */
module ReorderRoute {

  import opened Common
  import opened InventoryStore

  /** What the handler answers and leaves in the two tables it writes. */
  datatype Outcome = Outcome(response: Response, medicines: map<string, Medicine>, requests: map<string, ReorderRequest>)

  /** The handler as a function of the tables and the request body. */
  function PostReorder(medicines: map<string, Medicine>, requests: map<string, ReorderRequest>,
                       id: Option<string>, status: Option<string>): (o: Outcome)
    ensures forall k :: k in o.requests <==> k in requests
    ensures forall k :: k in o.medicines <==> k in medicines
    ensures o.response.status == 400 <==> IsFalsy(id) || IsFalsy(status)
    ensures o.response.status == 400 ==> o.medicines == medicines && o.requests == requests
    ensures !IsFalsy(id) && !IsFalsy(status) && id.value !in requests ==>
      o == Outcome(Response(500), medicines, requests)
    ensures o.response.status in {200, 400, 500}
    ensures o.response.status == 200 ==>
      id.value in requests && o.requests[id.value].status == status.value &&
      (status.value == COMPLETED ==> requests[id.value].medicineId in medicines)
  {
    if IsFalsy(id) || IsFalsy(status) then Outcome(Response(400), medicines, requests)
    else if id.value !in requests then Outcome(Response(500), medicines, requests)
    else
      var request := requests[id.value].(status := status.value);
      var requests' := requests[id.value := request];
      if status.value != COMPLETED then Outcome(Response(200), medicines, requests')
      else if request.medicineId !in medicines then Outcome(Response(500), medicines, requests')
      else
        var m := medicines[request.medicineId];
        Outcome(Response(200), medicines[request.medicineId := m.(stock := m.stock + request.quantity)], requests')
  }

  /**
   * For an existing request the status becomes exactly the given string, with
   * no check of the old one; only that request changes; stock changes only on
   * "completed", and then only for that request's medicine, by its quantity.
   */
  lemma PostReorderEffect(medicines: map<string, Medicine>, requests: map<string, ReorderRequest>, id: string, status: string)
    requires id != "" && status != "" && id in requests
    ensures var o := PostReorder(medicines, requests, Some(id), Some(status));
      var q := requests[id];
      o.requests == requests[id := q.(status := status)] &&
      (status != COMPLETED ==> o.medicines == medicines && o.response == Response(200)) &&
      (status == COMPLETED && q.medicineId in medicines ==>
         o.response == Response(200) &&
         o.medicines[q.medicineId].stock == medicines[q.medicineId].stock + q.quantity &&
         forall k :: k in medicines && k != q.medicineId ==> o.medicines[k] == medicines[k]) &&
      (status == COMPLETED && q.medicineId !in medicines ==> o.response == Response(500) && o.medicines == medicines)
  {
  }

  /** Completing the same request twice adds its quantity twice: there is no guard on the previous status. */
  lemma DoubleCompletion(medicines: map<string, Medicine>, requests: map<string, ReorderRequest>, id: string)
    requires id != "" && id in requests && requests[id].medicineId in medicines
    ensures var once := PostReorder(medicines, requests, Some(id), Some(COMPLETED));
      var twice := PostReorder(once.medicines, once.requests, Some(id), Some(COMPLETED));
      var mid := requests[id].medicineId;
      once.response == twice.response == Response(200) &&
      twice.medicines[mid].stock == medicines[mid].stock + 2 * requests[id].quantity
  {
  }

  /** The handler on the store: the status update first, then the stock increment. */
  method Post(store: Store, id: Option<string>, status: Option<string>) returns (response: Response)
    modifies store
    ensures Outcome(response, store.medicines, store.requests) ==
      PostReorder(old(store.medicines), old(store.requests), id, status)
    ensures store.transactions == old(store.transactions) && store.published == old(store.published)
  {
    if IsFalsy(id) || IsFalsy(status) {
      return Response(400);
    }
    if id.value !in store.requests {
      return Response(500);
    }
    var reorderRequest := store.requests[id.value].(status := status.value);
    store.requests := store.requests[id.value := reorderRequest];
    if status.value == COMPLETED {
      if reorderRequest.medicineId !in store.medicines {
        return Response(500);
      }
      var medicine := store.medicines[reorderRequest.medicineId];
      store.medicines := store.medicines[reorderRequest.medicineId :=
        medicine.(stock := medicine.stock + reorderRequest.quantity)];
    }
    response := Response(200);
  }
}

=== FILE: sorting.dfy ===
/**
 * `Array.prototype.sort` with a comparator of the form `(a, b) => key(a) - key(b)`,
 * which ECMAScript (since ES2019) requires to be stable: a stable insertion
 * sort by an integer key, ascending. A descending sort (`b.v - a.v`) is the
 * ascending sort by the negated key.
 */
module Sorting {

  import opened Common

  ghost predicate SortedBy<T>(s: seq<T>, key: T -> int)
  {
    forall i, j :: 0 <= i < j < |s| ==> key(s[i]) <= key(s[j])
  }

  /** The elements of `s` whose key is `k`, in their order in `s`. */
  function WithKey<T>(s: seq<T>, key: T -> int, k: int): seq<T>
  {
    if s == [] then []
    else (if key(s[0]) == k then [s[0]] else []) + WithKey(s[1..], key, k)
  }

  /** Inserts `x` in front of the first element whose key is not smaller. */
  function Insert<T>(x: T, s: seq<T>, key: T -> int): (r: seq<T>)
    ensures |r| == |s| + 1
  {
    if s == [] then [x]
    else if key(s[0]) >= key(x) then [x] + s
    else [s[0]] + Insert(x, s[1..], key)
  }

  /** Inserting adds `x` and keeps every other element. */
  lemma {:induction false} InsertPermutes<T>(x: T, s: seq<T>, key: T -> int)
    ensures multiset(Insert(x, s, key)) == multiset(s) + multiset{x}
  {
    if s != [] && key(s[0]) < key(x) {
      InsertPermutes(x, s[1..], key);
      assert s == [s[0]] + s[1..];
    }
  }

  /** A lower bound on the keys of `x` and of `s` bounds every key after the insertion. */
  lemma {:induction false} InsertLowerBound<T>(x: T, s: seq<T>, key: T -> int, b: int)
    requires b <= key(x)
    requires forall i :: 0 <= i < |s| ==> b <= key(s[i])
    ensures forall i :: 0 <= i < |s| + 1 ==> b <= key(Insert(x, s, key)[i])
  {
    if s != [] && key(s[0]) < key(x) {
      var r := Insert(x, s, key);
      var t := Insert(x, s[1..], key);
      InsertLowerBound(x, s[1..], key, b);
      assert r == [s[0]] + t;
      forall i | 0 < i < |r|
        ensures b <= key(r[i])
      {
        assert r[i] == t[i - 1];
      }
    }
  }

  lemma {:induction false} InsertSorted<T>(x: T, s: seq<T>, key: T -> int)
    requires SortedBy(s, key)
    ensures SortedBy(Insert(x, s, key), key)
  {
    if s != [] && key(s[0]) < key(x) {
      var t := Insert(x, s[1..], key);
      InsertSorted(x, s[1..], key);
      InsertLowerBound(x, s[1..], key, key(s[0]));
      var r := [s[0]] + t;
      assert Insert(x, s, key) == r;
      forall i, j | 0 <= i < j < |r|
        ensures key(r[i]) <= key(r[j])
      {
        if i == 0 {
          assert r[j] == t[j - 1];
        } else {
          assert r[i] == t[i - 1] && r[j] == t[j - 1];
        }
      }
    }
  }

  /** Stable sort by `key`, ascending. */
  function SortBy<T>(s: seq<T>, key: T -> int): (r: seq<T>)
    ensures |r| == |s|
    ensures multiset(r) == multiset(s)
    ensures SortedBy(r, key)
  {
    if s == [] then []
    else
      assert s == [s[0]] + s[1..];
      InsertSorted(s[0], SortBy(s[1..], key), key);
      InsertPermutes(s[0], SortBy(s[1..], key), key);
      Insert(s[0], SortBy(s[1..], key), key)
  }

  lemma WithKeyCons<T>(a: T, t: seq<T>, key: T -> int, k: int)
    ensures WithKey([a] + t, key, k) == (if key(a) == k then [a] else []) + WithKey(t, key, k)
  {
    assert ([a] + t)[0] == a;
    assert ([a] + t)[1..] == t;
  }

  lemma {:induction false} InsertWithKey<T>(x: T, s: seq<T>, key: T -> int, k: int)
    ensures WithKey(Insert(x, s, key), key, k)
         == (if key(x) == k then [x] else []) + WithKey(s, key, k)
  {
    if s == [] {
      assert Insert(x, s, key) == [x] + [];
      WithKeyCons(x, [], key, k);
    } else if key(s[0]) >= key(x) {
      assert Insert(x, s, key) == [x] + s;
      WithKeyCons(x, s, key, k);
    } else {
      var t := Insert(x, s[1..], key);
      var w := WithKey(s[1..], key, k);
      assert Insert(x, s, key) == [s[0]] + t;
      InsertWithKey(x, s[1..], key, k);
      WithKeyCons(s[0], t, key, k);
      WithKeyCons(s[0], s[1..], key, k);
      assert [s[0]] + s[1..] == s;
      if key(x) == k {
        assert key(s[0]) != k;
        assert WithKey(t, key, k) == [x] + w;
      } else {
        assert WithKey(t, key, k) == w;
      }
    }
  }

  /** Stability: for every key value, the elements carrying it keep their input order. */
  lemma {:induction false} SortByStable<T>(s: seq<T>, key: T -> int, k: int)
    ensures WithKey(SortBy(s, key), key, k) == WithKey(s, key, k)
  {
    if s != [] {
      SortByStable(s[1..], key, k);
      InsertWithKey(s[0], SortBy(s[1..], key), key, k);
    }
  }

  /** Taking a prefix of a sorted sequence keeps the smallest keys: nothing left
      out sorts strictly before anything kept. */
  lemma TakeKeepsSmallest<T>(s: seq<T>, key: T -> int, n: nat)
    requires SortedBy(s, key)
    ensures forall i, j :: 0 <= i < Min(n, |s|) <= j < |s| ==> key(s[i]) <= key(s[j])
  {
  }

  /** `Insert` in split form: `x` lands after the leading elements with a smaller key. */
  lemma {:induction false} InsertSplit<T>(x: T, s: seq<T>, key: T -> int, m: nat)
    requires m <= |s|
    requires forall k :: 0 <= k < m ==> key(s[k]) < key(x)
    requires m == |s| || key(s[m]) >= key(x)
    ensures Insert(x, s, key) == s[..m] + [x] + s[m..]
  {
    if m > 0 {
      InsertSplit(x, s[1..], key, m - 1);
      assert s[1..][..m - 1] == s[1..m];
      assert s[1..][m - 1..] == s[m..];
      assert s[..m] == [s[0]] + s[1..m];
    }
  }

  /**
   * Reassembles the array contents after one insertion step: `n` is `o` with
   * `o[i - 1]` moved to position `j - 1` and the elements between shifted left
   * by one, all of which have a smaller key; `o[j]`, if any, has a key not smaller.
   */
  lemma InsertAssembled<T>(o: seq<T>, n: seq<T>, i: nat, j: nat, key: T -> int)
    requires |o| == |n| && 0 < i <= j <= |n|
    requires forall k :: 0 <= k < i - 1 ==> n[k] == o[k]
    requires forall k :: i - 1 <= k < j - 1 ==> n[k] == o[k + 1]
    requires n[j - 1] == o[i - 1]
    requires forall k :: j <= k < |n| ==> n[k] == o[k]
    requires forall k :: i <= k < j ==> key(o[k]) < key(o[i - 1])
    requires j == |n| || key(o[j]) >= key(o[i - 1])
    ensures n[..i - 1] == o[..i - 1]
    ensures n[i - 1..] == Insert(o[i - 1], o[i..], key)
  {
    var x := o[i - 1];
    var t := o[i..];
    var m := j - i;
    assert forall k :: 0 <= k < m ==> key(t[k]) < key(x) by {
      forall k | 0 <= k < m
        ensures key(t[k]) < key(x)
      {
        assert t[k] == o[i + k];
      }
    }
    assert m == |t| || key(t[m]) >= key(x) by {
      if m < |t| {
        assert t[m] == o[j];
      }
    }
    InsertSplit(x, t, key, m);
    var r := t[..m] + [x] + t[m..];
    assert |n[i - 1..]| == |r|;
    forall k | 0 <= k < |r|
      ensures n[i - 1 + k] == r[k]
    {
      if k < m {
        assert r[k] == t[k] == o[i + k];
      } else if k == m {
        assert r[k] == x;
      } else {
        assert r[k] == t[k - 1] == o[i + k - 1];
      }
    }
  }

  /**
   * Shifts the elements of `a[i..]` one place left for as long as their key
   * is smaller than `key(x)`; `j` is where the shifting stopped.
   */
  method ShiftSmaller<T>(a: array<T>, i: int, x: T, key: T -> int) returns (j: int)
    requires 0 < i < a.Length
    modifies a
    ensures i <= j <= a.Length
    ensures forall k :: 0 <= k < i - 1 ==> a[k] == old(a[k])
    ensures forall k :: i - 1 <= k < j - 1 ==> a[k] == old(a[k + 1])
    ensures forall k :: j <= k < a.Length ==> a[k] == old(a[k])
    ensures forall k :: i <= k < j ==> key(old(a[k])) < key(x)
    ensures j == a.Length || key(a[j]) >= key(x)
  {
    j := i;
    while j < a.Length && key(a[j]) < key(x)
      invariant i <= j <= a.Length
      invariant forall k :: 0 <= k < i - 1 ==> a[k] == old(a[k])
      invariant forall k :: i - 1 <= k < j - 1 ==> a[k] == old(a[k + 1])
      invariant forall k :: j <= k < a.Length ==> a[k] == old(a[k])
      invariant forall k :: i <= k < j ==> key(old(a[k])) < key(x)
    {
      a[j - 1] := a[j];
      j := j + 1;
    }
  }

  /** Moves `a[i - 1]` rightwards into the suffix `a[i..]`, before its first element with a key not smaller. */
  method InsertInto<T>(a: array<T>, i: int, key: T -> int)
    requires 0 < i < a.Length
    modifies a
    ensures a[..i - 1] == old(a[..i - 1])
    ensures a[i - 1..] == Insert(old(a[i - 1]), old(a[i..]), key)
  {
    ghost var o := a[..];
    var x := a[i - 1];
    var j := ShiftSmaller(a, i, x, key);
    a[j - 1] := x;
    InsertAssembled(o, a[..], i, j, key);
  }

  /**
   * `array.sort((a, b) => key(a) - key(b))` on the array itself: an insertion
   * sort that grows a sorted suffix leftwards.
   */
  method SortInPlace<T>(a: array<T>, key: T -> int)
    modifies a
    ensures a[..] == SortBy(old(a[..]), key)
  {
    if a.Length == 0 {
      return;
    }
    ghost var s := a[..];
    var i := a.Length - 1;
    assert s[i..] == [a[i]];
    while i > 0
      invariant 0 <= i < a.Length
      invariant a[..i] == s[..i]
      invariant a[i..] == SortBy(s[i..], key)
    {
      assert s[i - 1..][0] == s[i - 1] && s[i - 1..][1..] == s[i..];
      assert SortBy(s[i - 1..], key) == Insert(s[i - 1], SortBy(s[i..], key), key);
      assert a[i - 1] == s[i - 1];
      InsertInto(a, i, key);
      i := i - 1;
    }
    assert a[..] == a[0..];
  }

  /** A value found at two positions is counted at least twice. */
  lemma CountTwice<T>(s: seq<T>, i: nat, j: nat)
    requires i < j < |s| && s[i] == s[j]
    ensures multiset(s)[s[i]] >= 2
  {
    assert s == s[..j] + s[j..];
    assert s[i] in s[..j];
    assert s[j..][0] == s[j];
  }

  /** A value found at one position only is counted once. */
  lemma CountOnce<T>(s: seq<T>, p: nat)
    requires p < |s|
    requires forall k :: 0 <= k < |s| && k != p ==> s[k] != s[p]
    ensures multiset(s)[s[p]] == 1
  {
    assert s == s[..p] + [s[p]] + s[p + 1..];
    assert s[p] !in s[..p];
    assert s[p] !in s[p + 1..];
  }

  /** Reordering keeps names distinct. */
  lemma PermutationKeepsDistinct<T>(a: seq<T>, b: seq<T>, name: T -> string)
    requires multiset(a) == multiset(b)
    requires forall i, j :: 0 <= i < j < |a| ==> name(a[i]) != name(a[j])
    ensures forall i, j :: 0 <= i < j < |b| ==> name(b[i]) != name(b[j])
  {
    forall i, j | 0 <= i < j < |b|
      ensures name(b[i]) != name(b[j])
    {
      if name(b[i]) == name(b[j]) {
        assert b[i] in multiset(a) && b[j] in multiset(a);
        var p :| 0 <= p < |a| && a[p] == b[i];
        var q :| 0 <= q < |a| && a[q] == b[j];
        assert p == q;
        CountTwice(b, i, j);
        CountOnce(a, p);
        assert false;
      }
    }
  }
}

=== FILE: stock_chart.dfy ===
/**
 * The stock chart (components/StockChart.tsx): the low-stock medicines when
 * there are any, otherwise all medicines, ordered by the chart's comparator,
 * the first ten, each turned into a chart entry with a truncated name.
 *
 * The `.sort` of the source runs on the array it is given: on a fresh array
 * of the low-stock medicines, or on the caller's own `medicines` array when
 * none is low, which the chart therefore reorders.
 */
module StockChart {

  import opened Common
  import opened Sorting
  import opened InventoryStore

  const MAX_ENTRIES := 10
  const NAME_LENGTH := 15

  /** One chart entry. */
  datatype ChartEntry = ChartEntry(name: string, stock: int, minStock: int, medicineId: string, isLowStock: bool)

  function StockOf(m: Medicine): int
  {
    m.stock
  }

  /**
   * `medicines.filter(m => m.stock <= m.minStock)`. `LowStockOnlyCounts`
   * states that it keeps every low-stock medicine as often as it occurs and
   * nothing else, `LowStockOnlyAppend` that it keeps the input order.
   */
  function LowStockOnly(meds: seq<Medicine>): (r: seq<Medicine>)
    ensures forall m :: m in r <==> m in meds && LowStock(m)
    ensures |r| <= |meds|
  {
    if meds == [] then []
    else (if LowStock(meds[0]) then [meds[0]] else []) + LowStockOnly(meds[1..])
  }

  /** The filter keeps each low-stock medicine as many times as it occurs, and drops every other one. */
  lemma {:induction false} LowStockOnlyCounts(meds: seq<Medicine>, m: Medicine)
    ensures multiset(LowStockOnly(meds))[m] == if LowStock(m) then multiset(meds)[m] else 0
  {
    if meds != [] {
      LowStockOnlyCounts(meds[1..], m);
      assert meds == [meds[0]] + meds[1..];
      assert multiset(meds) == multiset{meds[0]} + multiset(meds[1..]);
    }
  }

  /** The filter works element by element, so it keeps the input order. */
  lemma {:induction false} LowStockOnlyAppend(a: seq<Medicine>, b: seq<Medicine>)
    ensures LowStockOnly(a + b) == LowStockOnly(a) + LowStockOnly(b)
  {
    if a == [] {
      assert a + b == b;
    } else {
      assert (a + b)[0] == a[0];
      assert (a + b)[1..] == a[1..] + b;
      LowStockOnlyAppend(a[1..], b);
    }
  }

  lemma LowStockOnlyCons(m: Medicine, t: seq<Medicine>)
    ensures LowStockOnly([m] + t) == (if LowStock(m) then [m] else []) + LowStockOnly(t)
  {
    assert ([m] + t)[0] == m;
    assert ([m] + t)[1..] == t;
  }

  /** Keeping the low-stock medicines and keeping those of one stock commute. */
  lemma {:induction false} LowStockWithKey(meds: seq<Medicine>, stock: int)
    ensures WithKey(LowStockOnly(meds), StockOf, stock) == LowStockOnly(WithKey(meds, StockOf, stock))
  {
    if meds != [] {
      var m, t := meds[0], meds[1..];
      assert meds == [m] + t;
      var lt, wt := LowStockOnly(t), WithKey(t, StockOf, stock);
      LowStockWithKey(t, stock);
      LowStockOnlyCons(m, t);
      WithKeyCons(m, t, StockOf, stock);
      if LowStock(m) {
        assert LowStockOnly(meds) == [m] + lt;
        WithKeyCons(m, lt, StockOf, stock);
        if m.stock == stock {
          assert WithKey(meds, StockOf, stock) == [m] + wt;
          LowStockOnlyCons(m, wt);
        } else {
          assert WithKey(meds, StockOf, stock) == wt;
          assert WithKey(LowStockOnly(meds), StockOf, stock) == WithKey(lt, StockOf, stock);
        }
      } else {
        assert LowStockOnly(meds) == lt;
        if m.stock == stock {
          assert WithKey(meds, StockOf, stock) == [m] + wt;
          LowStockOnlyCons(m, wt);
        } else {
          assert WithKey(meds, StockOf, stock) == wt;
        }
      }
    }
  }

  /** The medicines the chart draws from: the low-stock ones if any, otherwise all. */
  function Chosen(meds: seq<Medicine>): (r: seq<Medicine>)
    ensures (exists m :: m in meds && LowStock(m)) ==> forall m :: m in r <==> m in meds && LowStock(m)
    ensures (forall m :: m in meds ==> !LowStock(m)) ==> r == meds
  {
    var low := LowStockOnly(meds);
    if |low| > 0 then
      assert low[0] in low;
      low
    else meds
  }

  /** The comparator as written: low stock first, then ascending stock. */
  function Compare(a: Medicine, b: Medicine): int
  {
    if LowStock(a) && !LowStock(b) then -1
    else if !LowStock(a) && LowStock(b) then 1
    else a.stock - b.stock
  }

  /** The chosen medicines are all low stock or all not, so the comparator only ever compares stock. */
  lemma ChosenUniform(meds: seq<Medicine>)
    ensures forall a, b :: a in Chosen(meds) && b in Chosen(meds) ==>
      LowStock(a) == LowStock(b) && Compare(a, b) == a.stock - b.stock
  {
  }

  function EntryOf(m: Medicine): (e: ChartEntry)
    ensures e.isLowStock <==> m.stock <= m.minStock
    ensures e.stock == m.stock && e.minStock == m.minStock && e.medicineId == m.medicineId
    ensures |m.name| <= NAME_LENGTH ==> e.name == m.name
    ensures |m.name| > NAME_LENGTH ==> e.name == m.name[..NAME_LENGTH] + "..."
  {
    ChartEntry(Truncate(m.name, NAME_LENGTH, "..."), m.stock, m.minStock, m.medicineId, LowStock(m))
  }

  function Entries(ms: seq<Medicine>): (r: seq<ChartEntry>)
    ensures |r| == |ms|
    ensures forall i :: 0 <= i < |ms| ==> r[i] == EntryOf(ms[i])
  {
    if ms == [] then [] else [EntryOf(ms[0])] + Entries(ms[1..])
  }

  /** The chart's medicines, in chart order, before the ten-entry cut. */
  function Ranked(meds: seq<Medicine>): (r: seq<Medicine>)
    ensures multiset(r) == multiset(Chosen(meds))
    ensures forall i, j :: 0 <= i < j < |r| ==> r[i].stock <= r[j].stock
  {
    SortBy(Chosen(meds), StockOf)
  }

  /** The chart data. */
  function ChartData(meds: seq<Medicine>): (r: seq<ChartEntry>)
    ensures |r| <= MAX_ENTRIES
    ensures |r| == Min(MAX_ENTRIES, |Chosen(meds)|)
  {
    Entries(Take(Ranked(meds), MAX_ENTRIES))
  }

  /**
   * The chart follows its comparator: any two medicines in chart order
   * compare as not greater, and none left out after the cut sorts strictly
   * before one that is kept.
   */
  lemma RankedFollowsComparator(meds: seq<Medicine>)
    ensures var r := Ranked(meds);
      (forall i, j :: 0 <= i < j < |r| ==> Compare(r[i], r[j]) <= 0) &&
      (forall i, j :: 0 <= i < Min(MAX_ENTRIES, |r|) <= j < |r| ==> Compare(r[i], r[j]) <= 0)
  {
    var r := Ranked(meds);
    ChosenUniform(meds);
    forall i, j | 0 <= i < j < |r|
      ensures Compare(r[i], r[j]) <= 0
    {
      assert r[i] in multiset(Chosen(meds)) && r[j] in multiset(Chosen(meds));
    }
  }

  /** When any medicine is low stock, every chart entry is a low-stock one. */
  lemma ChartShowsOnlyLowWhenAnyLow(meds: seq<Medicine>)
    requires exists m :: m in meds && LowStock(m)
    ensures forall e :: e in ChartData(meds) ==> e.isLowStock
  {
    var r := Take(Ranked(meds), MAX_ENTRIES);
    forall e | e in ChartData(meds)
      ensures e.isLowStock
    {
      var i :| 0 <= i < |r| && e == Entries(r)[i];
      assert r[i] in multiset(Chosen(meds));
    }
  }

  /**
   * Equal stocks keep their input order in the chart (stable sort): the
   * medicines of one stock appear in chart order as they do in the input,
   * less those that are not low stock when any medicine is low.
   */
  lemma ChartStable(meds: seq<Medicine>, stock: int)
    ensures WithKey(Ranked(meds), StockOf, stock) == WithKey(Chosen(meds), StockOf, stock)
    ensures (exists m :: m in meds && LowStock(m)) ==>
      WithKey(Ranked(meds), StockOf, stock) == LowStockOnly(WithKey(meds, StockOf, stock))
    ensures (forall m :: m in meds ==> !LowStock(m)) ==>
      WithKey(Ranked(meds), StockOf, stock) == WithKey(meds, StockOf, stock)
  {
    SortByStable(Chosen(meds), StockOf, stock);
    if exists m :: m in meds && LowStock(m) {
      var m :| m in meds && LowStock(m);
      assert m in LowStockOnly(meds);
      assert Chosen(meds) == LowStockOnly(meds);
      LowStockWithKey(meds, stock);
    }
  }

  /**
   * The component's computation on the array it receives. It sorts a fresh
   * array of the low-stock medicines, or, when none is low, the given array
   * itself, which is left reordered.
   */
  method BuildChart(medicines: array<Medicine>) returns (entries: seq<ChartEntry>)
    modifies medicines
    ensures entries == ChartData(old(medicines[..]))
    ensures (exists m :: m in old(medicines[..]) && LowStock(m)) ==> medicines[..] == old(medicines[..])
    ensures (forall m :: m in old(medicines[..]) ==> !LowStock(m)) ==> medicines[..] == SortBy(old(medicines[..]), StockOf)
  {
    var low := LowStockOnly(medicines[..]);
    if |low| > 0 {
      var sorted := new Medicine[|low|](i requires 0 <= i < |low| => low[i]);
      assert sorted[..] == low;
      SortInPlace(sorted, StockOf);
      entries := Entries(Take(sorted[..], MAX_ENTRIES));
    } else {
      SortInPlace(medicines, StockOf);
      entries := Entries(Take(medicines[..], MAX_ENTRIES));
    }
  }
}

=== FILE: stock_table.dfy ===
/**
 * The stock table (components/StockTable.tsx): the stock status badge of each
 * medicine, and the "sold"/"added" buttons, which read the quantity typed for
 * the medicine, reject a quantity that is not a positive number, send the
 * stock change, and on success clear that medicine's field and refresh.
 *
 * The request's outcome is an input (`Reply`); alerts and the sent requests
 * are recorded in sequences.
 */
module StockTable {

  import opened Common
  import opened InventoryStore

  // ---------------------------------------------------------------------------
  // getStockStatus

  /** The badge: out of stock, low, or safe. */
  datatype StockStatus = Habis | Rendah | Aman

  function Label(s: StockStatus): string
  {
    match s
    case Habis => "Habis"
    case Rendah => "Rendah"
    case Aman => "Aman"
  }

  /** `getStockStatus(stock, minStock)` */
  function GetStockStatus(stock: int, minStock: int): (s: StockStatus)
    ensures s == Habis <==> stock == 0
    ensures s == Rendah <==> stock != 0 && stock <= minStock
    ensures s == Aman <==> stock != 0 && stock > minStock
  {
    if stock == 0 then Habis
    else if stock <= minStock then Rendah
    else Aman
  }

  /**
   * With a non-negative minimum, the badge is anything but "Aman" exactly for
   * the medicines the chart and the reorder trigger call low stock.
   */
  lemma StatusAgreesWithLowStock(m: Medicine)
    requires m.minStock >= 0
    ensures GetStockStatus(m.stock, m.minStock) != Aman <==> LowStock(m)
  {
  }

  /** With a negative minimum, an empty shelf is "Habis" although it is not low stock. */
  lemma EmptyButNotLow()
    ensures var m := Medicine("MED-1", "Paracetamol", 0, -1, 100, 2000, 0);
      GetStockStatus(m.stock, m.minStock) == Habis && !LowStock(m)
  {
  }

  // ---------------------------------------------------------------------------
  // parseInt

  /** The value of a digit character in bases up to 16; 99 for any other character. */
  function DigitValue(c: char): nat
  {
    if '0' <= c <= '9' then c as nat - '0' as nat
    else if 'a' <= c <= 'f' then c as nat - 'a' as nat + 10
    else if 'A' <= c <= 'F' then c as nat - 'A' as nat + 10
    else 99
  }

  predicate IsDigit(c: char, base: nat)
  {
    DigitValue(c) < base
  }

  /** The length of the longest prefix of digits. */
  function LeadingDigits(s: string, base: nat): (n: nat)
    ensures n <= |s|
    ensures forall i :: 0 <= i < n ==> IsDigit(s[i], base)
    ensures n < |s| ==> !IsDigit(s[n], base)
  {
    if s != [] && IsDigit(s[0], base) then 1 + LeadingDigits(s[1..], base) else 0
  }

  /** The number a string of digits denotes, most significant first. */
  function Value(s: string, base: nat): nat
  {
    if s == [] then 0 else Value(s[..|s| - 1], base) * base + DigitValue(s[|s| - 1])
  }

  /**
   * `parseInt(s)` with no radix: leading white space, an optional sign, a
   * "0x"/"0X" prefix selecting base 16, then the longest run of digits;
   * `None` (NaN) when there is none.
   */
  function ParseInt(s: string): (r: Option<int>)
  {
    var t := TrimStart(s);
    var negative := t != [] && t[0] == '-';
    var u := if t != [] && (t[0] == '-' || t[0] == '+') then t[1..] else t;
    match Magnitude(u)
    case None => None
    case Some(v) => var w: int := v; Some(if negative then -w else w)
  }

  /** The unsigned part: a "0x"/"0X" prefix selects base 16, then the longest run of digits. */
  function Magnitude(u: string): Option<nat>
  {
    var hex := |u| >= 2 && u[0] == '0' && (u[1] == 'x' || u[1] == 'X');
    var base := if hex then 16 else 10;
    var digits := if hex then u[2..] else u;
    var n := LeadingDigits(digits, base);
    if n == 0 then None else Some(Value(digits[..n], base))
  }

  function DigitChar(d: nat): char
    requires d < 10
  {
    ('0' as nat + d) as char
  }

  /** The decimal numeral of `n`, as the number field holds it. */
  function DecimalString(n: nat): (s: string)
    ensures s != [] && forall i :: 0 <= i < |s| ==> IsDigit(s[i], 10)
    ensures s[0] == '0' ==> n == 0
  {
    if n < 10 then [DigitChar(n)] else DecimalString(n / 10) + [DigitChar(n % 10)]
  }

  lemma {:induction false} ValueOfDecimal(n: nat)
    ensures Value(DecimalString(n), 10) == n
  {
    if n >= 10 {
      ValueOfDecimal(n / 10);
      var s := DecimalString(n);
      assert s[..|s| - 1] == DecimalString(n / 10);
    }
  }

  /**
   * Round trip: `parseInt` reads back a decimal numeral and stops at the
   * first character that cannot continue it.
   */
  lemma ParseNumeral(n: nat, rest: string)
    requires rest == [] || (!IsDigit(rest[0], 10) && rest[0] != 'x' && rest[0] != 'X')
    ensures ParseInt(DecimalString(n) + rest) == Some(n as int)
  {
    NumeralFacts(n, rest);
    ParseUnsigned(DecimalString(n) + rest);
  }

  /** The same with a minus sign in front. */
  lemma ParseNegativeNumeral(n: nat, rest: string)
    requires rest == [] || (!IsDigit(rest[0], 10) && rest[0] != 'x' && rest[0] != 'X')
    ensures ParseInt("-" + (DecimalString(n) + rest)) == Some(-(n as int))
  {
    NumeralFacts(n, rest);
    ParseSigned(DecimalString(n) + rest);
  }

  /** A string starting with a digit is read without sign or white space. */
  lemma ParseUnsigned(u: string)
    requires u != [] && IsDigit(u[0], 10)
    ensures ParseInt(u) == (if Magnitude(u).Some? then Some(Magnitude(u).value as int) else None)
  {
    assert !IsSpace(u[0]);
    assert TrimStart(u) == u;
  }

  /** A leading minus sign negates the magnitude of what follows it. */
  lemma ParseSigned(u: string)
    requires u != [] && IsDigit(u[0], 10)
    ensures ParseInt("-" + u) == (if Magnitude(u).Some? then Some(-(Magnitude(u).value as int)) else None)
  {
    var s := "-" + u;
    assert s[0] == '-' && !IsSpace(s[0]);
    assert TrimStart(s) == s;
    assert s[1..] == u;
  }

  /** The numeral followed by `rest`: no hexadecimal prefix, and its digits are exactly the numeral's. */
  lemma NumeralFacts(n: nat, rest: string)
    requires rest == [] || (!IsDigit(rest[0], 10) && rest[0] != 'x' && rest[0] != 'X')
    ensures var u := DecimalString(n) + rest;
      IsDigit(u[0], 10) && Magnitude(u) == Some(n)
  {
    var d := DecimalString(n);
    var u := d + rest;
    assert u[0] == d[0];
    assert |d| >= 2 ==> u[1] == d[1];
    assert |d| == 1 && rest != [] ==> u[1] == rest[0];
    LeadingDigitsOf(d, rest);
    assert u[..|d|] == d;
    ValueOfDecimal(n);
    assert !(|u| >= 2 && u[0] == '0' && (u[1] == 'x' || u[1] == 'X'));
  }

  lemma {:induction false} LeadingDigitsOf(d: string, rest: string)
    requires forall i :: 0 <= i < |d| ==> IsDigit(d[i], 10)
    requires rest == [] || !IsDigit(rest[0], 10)
    ensures LeadingDigits(d + rest, 10) == |d|
  {
    if d != [] {
      assert (d + rest)[1..] == d[1..] + rest;
      LeadingDigitsOf(d[1..], rest);
    }
  }

  // ---------------------------------------------------------------------------
  // updateStock

  /** The PATCH request the button sends. */
  datatype PatchRequest = PatchRequest(medicineId: string, event: string, quantity: int)

  /** How the request ended: a 2xx reply, an error reply with its `error` field, or a thrown error. */
  datatype Reply = Ok | Failed(error: Option<string>) | Thrown

  const INVALID_QUANTITY := "Masukkan jumlah yang valid"
  const UPDATE_FAILED := "Gagal memperbarui stok"
  const UNEXPECTED_ERROR := "Terjadi kesalahan"

  /** The table's state: typed quantities, the row being updated, and what it has done so far. */
  datatype TableState = TableState(
    quantity: map<string, string>, updating: Option<string>, alerts: seq<string>,
    sent: seq<PatchRequest>, refreshes: nat)

  /** `parseInt(quantity[medicineId] || '1')` */
  function RequestedQuantity(quantity: map<string, string>, medicineId: string): Option<int>
  {
    ParseInt(OrString(if medicineId in quantity then Some(quantity[medicineId]) else None, "1"))
  }

  /** The quantity is usable: a number above zero. */
  predicate Valid(q: Option<int>)
  {
    q.Some? && q.value > 0
  }

  /** `updateStock(medicineId, event)` given how its request ends. */
  function UpdateStockEffect(st: TableState, medicineId: string, event: string, reply: Reply): (r: TableState)
    ensures !Valid(RequestedQuantity(st.quantity, medicineId)) ==> r == st.(alerts := st.alerts + [INVALID_QUANTITY])
    ensures Valid(RequestedQuantity(st.quantity, medicineId)) ==>
      r.sent == st.sent + [PatchRequest(medicineId, event, RequestedQuantity(st.quantity, medicineId).value)] &&
      r.updating == None
    ensures Valid(RequestedQuantity(st.quantity, medicineId)) && reply == Ok ==>
      r.quantity == st.quantity[medicineId := ""] && r.refreshes == st.refreshes + 1 && r.alerts == st.alerts
    ensures Valid(RequestedQuantity(st.quantity, medicineId)) && reply != Ok ==>
      r.quantity == st.quantity && r.refreshes == st.refreshes
    ensures Valid(RequestedQuantity(st.quantity, medicineId)) && reply.Failed? ==>
      r.alerts == st.alerts + [OrString(reply.error, UPDATE_FAILED)]
    ensures Valid(RequestedQuantity(st.quantity, medicineId)) && reply == Thrown ==>
      r.alerts == st.alerts + [UNEXPECTED_ERROR]
  {
    var qty := RequestedQuantity(st.quantity, medicineId);
    if !Valid(qty) then st.(alerts := st.alerts + [INVALID_QUANTITY])
    else
      var sent := st.sent + [PatchRequest(medicineId, event, qty.value)];
      match reply
      case Ok => TableState(st.quantity[medicineId := ""], None, st.alerts, sent, st.refreshes + 1)
      case Failed(error) => TableState(st.quantity, None, st.alerts + [OrString(error, UPDATE_FAILED)], sent, st.refreshes)
      case Thrown => TableState(st.quantity, None, st.alerts + [UNEXPECTED_ERROR], sent, st.refreshes)
  }

  /** An empty or never-typed field means one unit. */
  lemma EmptyFieldMeansOne(quantity: map<string, string>, medicineId: string)
    requires medicineId !in quantity || quantity[medicineId] == ""
    ensures RequestedQuantity(quantity, medicineId) == Some(1)
  {
    assert DigitChar(1) == '1';
    assert DecimalString(1) + "" == "1";
    ParseNumeral(1, "");
    assert OrString(if medicineId in quantity then Some(quantity[medicineId]) else None, "1") == "1";
  }

  /** After a successful update the field is cleared, so pressing again right away sends one unit. */
  lemma SuccessResetsToOne(st: TableState, medicineId: string, event: string)
    requires Valid(RequestedQuantity(st.quantity, medicineId))
    ensures RequestedQuantity(UpdateStockEffect(st, medicineId, event, Ok).quantity, medicineId) == Some(1)
  {
    EmptyFieldMeansOne(st.quantity[medicineId := ""], medicineId);
  }

  /** The component's state, updated in place by its handlers. */
  class StockTableView {
    var quantity: map<string, string>
    var updating: Option<string>
    var alerts: seq<string>
    var sent: seq<PatchRequest>
    var refreshes: nat

    function State(): TableState
      reads this
    {
      TableState(quantity, updating, alerts, sent, refreshes)
    }

    constructor()
      ensures State() == TableState(map[], None, [], [], 0)
    {
      quantity := map[];
      updating := None;
      alerts := [];
      sent := [];
      refreshes := 0;
    }

    /** The number field's `onChange`. */
    method SetQuantity(medicineId: string, text: string)
      modifies this
      ensures State() == old(State()).(quantity := old(quantity)[medicineId := text])
    {
      quantity := quantity[medicineId := text];
    }

    /** `updateStock`, with the request's outcome given. */
    method UpdateStock(medicineId: string, event: string, reply: Reply)
      modifies this
      ensures State() == UpdateStockEffect(old(State()), medicineId, event, reply)
    {
      var qty := ParseInt(OrString(if medicineId in quantity then Some(quantity[medicineId]) else None, "1"));
      assert qty == RequestedQuantity(quantity, medicineId);
      if qty.None? || qty.value <= 0 {
        alerts := alerts + [INVALID_QUANTITY];
        return;
      }
      updating := Some(medicineId);
      sent := sent + [PatchRequest(medicineId, event, qty.value)];
      match reply {
        case Ok =>
          quantity := quantity[medicineId := ""];
          refreshes := refreshes + 1;
        case Failed(error) =>
          alerts := alerts + [OrString(error, UPDATE_FAILED)];
        case Thrown =>
          alerts := alerts + [UNEXPECTED_ERROR];
      }
      updating := None;
    }
  }
}

=== FILE: stream.dfy ===
/**
 * The live health stream (app/api/who/stream/route.ts): the change-detection
 * cycle that runs on every poll, and the server-sent-events framing of what a
 * connection writes.
 *
 * One cycle takes the readings the data source returned, compares each with
 * the last value remembered for its `country-indicator` key, writes changed
 * readings to the store (the current indicator per (country, indicator) pair
 * plus an append-only log of update records) and emits an update event.
 * The clock and store failures are inputs: `clocks[i]` is what `Date.now()`
 * returns while reading `i` is processed and `faults[i]` says whether, and
 * where, the store operations for it throw.
 */
module WhoStream {

  import opened Common
  import opened WhoApi

  // ---------------------------------------------------------------------------
  // The store

  /** A stored current indicator; its country and indicator name are the key it is stored under. */
  datatype StoredIndicator = StoredIndicator(id: nat, value: int, category: string, date: int, isAlert: bool)

  /** One row of the update log (`healthUpdate`). */
  datatype UpdateRecord = UpdateRecord(
    indicatorId: nat, country: string, indicatorName: string, value: int, change: int, timestamp: int)

  /**
   * The abstract store: at most one current indicator per (country, indicator)
   * pair, the update log, and the next fresh indicator id.
   */
  datatype HealthStore = HealthStore(
    indicators: map<(string, string), StoredIndicator>, records: seq<UpdateRecord>, nextId: nat)

  /**
   * Where the store operations for one reading throw, if at all: nothing
   * persists when the lookup or the indicator write fails; the indicator is
   * written but no record is logged when the record insert fails.
   */
  datatype StoreFault = NoFault | FailBeforeUpsert | FailAfterUpsert

  /** Ids are fresh and distinct, and every record points at the indicator of its own pair. */
  ghost predicate StoreValid(s: HealthStore)
  {
    (forall p :: p in s.indicators ==> s.indicators[p].id < s.nextId) &&
    (forall p, q :: p in s.indicators && q in s.indicators && p != q ==>
       s.indicators[p].id != s.indicators[q].id) &&
    (forall r :: r in s.records ==>
       (r.country, r.indicatorName) in s.indicators &&
       s.indicators[(r.country, r.indicatorName)].id == r.indicatorId)
  }

  /** The id an upsert of `pair` uses: the stored indicator's, or a fresh one. */
  function IdFor(s: HealthStore, pair: (string, string)): (id: nat)
    ensures pair !in s.indicators ==> id == s.nextId
  {
    if pair in s.indicators then s.indicators[pair].id else s.nextId
  }

  /**
   * The store side of one changed reading: update the pair's indicator in
   * place, or create it, then log an update record.
   */
  function Upsert(s: HealthStore, d: HealthData, change: int, timestamp: int, fault: StoreFault): (r: HealthStore)
    ensures forall p :: p != (d.country, d.indicator) ==>
      (p in r.indicators <==> p in s.indicators) &&
      (p in s.indicators ==> r.indicators[p] == s.indicators[p])
    ensures forall p :: p in s.indicators ==> p in r.indicators && r.indicators[p].id == s.indicators[p].id
    ensures s.records <= r.records && |r.records| <= |s.records| + 1
  {
    if fault == FailBeforeUpsert then s
    else
      var pair := (d.country, d.indicator);
      var id := IdFor(s, pair);
      var indicators := s.indicators[pair := StoredIndicator(id, d.value, d.category, d.date, d.isAlert)];
      var nextId := if pair in s.indicators then s.nextId else s.nextId + 1;
      var records := if fault == NoFault
        then s.records + [UpdateRecord(id, d.country, d.indicator, d.value, change, timestamp)]
        else s.records;
      HealthStore(indicators, records, nextId)
  }

  /** A store write keeps ids fresh and distinct and every record pointing at its pair's indicator. */
  lemma UpsertKeepsValid(s: HealthStore, d: HealthData, change: int, timestamp: int, fault: StoreFault)
    requires StoreValid(s)
    ensures StoreValid(Upsert(s, d, change, timestamp, fault))
  {
    var r := Upsert(s, d, change, timestamp, fault);
    if fault != FailBeforeUpsert {
      var pair := (d.country, d.indicator);
      assert r.indicators[pair].id == IdFor(s, pair);
      forall rec | rec in r.records
        ensures (rec.country, rec.indicatorName) in r.indicators
        ensures r.indicators[(rec.country, rec.indicatorName)].id == rec.indicatorId
      {
        if rec !in s.records {
          assert rec == UpdateRecord(IdFor(s, pair), d.country, d.indicator, d.value, change, timestamp);
        }
      }
    }
  }

  // ---------------------------------------------------------------------------
  // The change-detection cycle

  /** The state a cycle changes: the remembered values, the store, and the events emitted so far. */
  datatype CycleState = CycleState(previous: map<string, int>, store: HealthStore, emitted: seq<UpdateEvent>)

  function Lookup(previous: map<string, int>, key: string): (v: Option<int>)
    ensures v.Some? <==> key in previous
  {
    if key in previous then Some(previous[key]) else None
  }

  /** The reported change: current minus previous, or 0 on first observation. */
  function Change(previous: Option<int>, current: int): (c: int)
    ensures previous.Some? ==> previous.value + c == current
    ensures previous.None? ==> c == 0
  {
    if previous.Some? then current - previous.value else 0
  }

  /** A reading is emitted on first observation or when its value differs from the remembered one. */
  predicate Emits(previous: Option<int>, current: int)
  {
    previous.None? || previous.value != current
  }

  /** The event emitted for reading `d` at clock `nowMs`; its timestamp is in whole seconds. */
  function EventFor(d: HealthData, previous: Option<int>, nowMs: int): (e: UpdateEvent)
    ensures e.country == d.country && e.indicator == d.indicator && e.value == d.value
    ensures e.timestamp * 1000 <= nowMs < e.timestamp * 1000 + 1000
  {
    UpdateEvent(d.country, d.indicator, d.value, Change(previous, d.value), nowMs / 1000)
  }

  /** One pass of the `for` loop body, for reading `d`. */
  function Step(s: CycleState, d: HealthData, nowMs: int, fault: StoreFault): CycleState
  {
    var key := Key(d);
    var prev := Lookup(s.previous, key);
    var previous := s.previous[key := d.value];
    if Emits(prev, d.value) then
      var e := EventFor(d, prev, nowMs);
      CycleState(previous, Upsert(s.store, d, e.change, e.timestamp, fault), s.emitted + [e])
    else
      CycleState(previous, s.store, s.emitted)
  }

  /** The `for` loop over a batch, reading by reading. */
  function Steps(s: CycleState, batch: seq<HealthData>, clocks: seq<int>, faults: seq<StoreFault>): CycleState
    requires |clocks| == |batch| && |faults| == |batch|
  {
    if batch == [] then s
    else
      var n := |batch| - 1;
      Step(Steps(s, batch[..n], clocks[..n], faults[..n]), batch[n], clocks[n], faults[n])
  }

  /**
   * One run of the interval callback. `fetched` is what the data source
   * returned (`None` when it threw); an empty or failed fetch emits one
   * synthetic update instead.
   */
  function Cycle(s: CycleState, fetched: Option<seq<HealthData>>, clocks: seq<int>, faults: seq<StoreFault>,
                 draws: UpdateDraws, nowMs: int): CycleState
    requires fetched.Some? ==> |clocks| == |fetched.value| && |faults| == |fetched.value|
    requires ValidUpdateDraws(draws)
  {
    if fetched.Some? && |fetched.value| > 0 then Steps(s, fetched.value, clocks, faults)
    else CycleState(s.previous, s.store, s.emitted + [MockUpdate(draws, nowMs)])
  }

  // ---------------------------------------------------------------------------
  // Properties of one reading

  /**
   * A reading is emitted exactly when its key is unseen or its value changed,
   * the emitted event carries the change from the remembered value, and
   * nothing else is emitted.
   */
  lemma StepEmission(s: CycleState, d: HealthData, nowMs: int, fault: StoreFault)
    ensures var r := Step(s, d, nowMs, fault);
      (Key(d) !in s.previous || s.previous[Key(d)] != d.value <==> |r.emitted| == |s.emitted| + 1) &&
      (Key(d) in s.previous && s.previous[Key(d)] == d.value <==> r.emitted == s.emitted) &&
      s.emitted <= r.emitted &&
      (|r.emitted| == |s.emitted| + 1 ==>
         var e := r.emitted[|s.emitted|];
         e.country == d.country && e.indicator == d.indicator && e.value == d.value &&
         (Key(d) in s.previous ==> e.change == d.value - s.previous[Key(d)]) &&
         (Key(d) !in s.previous ==> e.change == 0))
  {
  }

  /** The remembered value of the reading's key is refreshed whether or not it was emitted; other keys keep theirs. */
  lemma StepRemembers(s: CycleState, d: HealthData, nowMs: int, fault: StoreFault)
    ensures var r := Step(s, d, nowMs, fault);
      Key(d) in r.previous && r.previous[Key(d)] == d.value &&
      forall k :: k != Key(d) ==>
        (k in r.previous <==> k in s.previous) && (k in s.previous ==> r.previous[k] == s.previous[k])
  {
  }

  /** A store failure never changes what is emitted or remembered. */
  lemma StepFaultIrrelevant(s: CycleState, d: HealthData, nowMs: int, f1: StoreFault, f2: StoreFault)
    ensures Step(s, d, nowMs, f1).previous == Step(s, d, nowMs, f2).previous
    ensures Step(s, d, nowMs, f1).emitted == Step(s, d, nowMs, f2).emitted
  {
  }

  /**
   * With a working store, an emitted reading logs exactly one record, which
   * references the pair's existing indicator (updated in place to the reading)
   * or a newly created one; an unemitted reading leaves the store alone.
   */
  lemma StepRecords(s: CycleState, d: HealthData, nowMs: int)
    ensures var r := Step(s, d, nowMs, NoFault);
      var pair := (d.country, d.indicator);
      if Emits(Lookup(s.previous, Key(d)), d.value) then
        var e := r.emitted[|s.emitted|];
        r.store.records == s.store.records +
          [UpdateRecord(r.store.indicators[pair].id, d.country, d.indicator, d.value, e.change, e.timestamp)] &&
        r.store.indicators[pair] == StoredIndicator(r.store.indicators[pair].id, d.value, d.category, d.date, d.isAlert) &&
        (pair in s.store.indicators ==> r.store.indicators[pair].id == s.store.indicators[pair].id) &&
        (pair !in s.store.indicators ==> r.store.indicators[pair].id == s.store.nextId)
      else r.store == s.store
  {
  }

  // ---------------------------------------------------------------------------
  // Properties of a whole batch

  /** The store invariant holds after every batch. */
  lemma {:induction false} StepsKeepStoreValid(s: CycleState, batch: seq<HealthData>, clocks: seq<int>, faults: seq<StoreFault>)
    requires |clocks| == |batch| && |faults| == |batch|
    requires StoreValid(s.store)
    ensures StoreValid(Steps(s, batch, clocks, faults).store)
  {
    if batch != [] {
      var n := |batch| - 1;
      StepsKeepStoreValid(s, batch[..n], clocks[..n], faults[..n]);
      var t := Steps(s, batch[..n], clocks[..n], faults[..n]);
      var prev := Lookup(t.previous, Key(batch[n]));
      if Emits(prev, batch[n].value) {
        var e := EventFor(batch[n], prev, clocks[n]);
        UpsertKeepsValid(t.store, batch[n], e.change, e.timestamp, faults[n]);
      }
    }
  }

  /** Store failures change neither the events emitted by a batch nor the values it leaves remembered. */
  lemma {:induction false} StepsFaultIrrelevant(s: CycleState, batch: seq<HealthData>, clocks: seq<int>,
                                                f1: seq<StoreFault>, f2: seq<StoreFault>)
    requires |clocks| == |batch| && |f1| == |batch| && |f2| == |batch|
    ensures Steps(s, batch, clocks, f1).previous == Steps(s, batch, clocks, f2).previous
    ensures Steps(s, batch, clocks, f1).emitted == Steps(s, batch, clocks, f2).emitted
  {
    if batch != [] {
      var n := |batch| - 1;
      StepsFaultIrrelevant(s, batch[..n], clocks[..n], f1[..n], f2[..n]);
      var a := Steps(s, batch[..n], clocks[..n], f1[..n]);
      var b := Steps(s, batch[..n], clocks[..n], f2[..n]);
      assert Steps(s, batch, clocks, f1) == Step(a, batch[n], clocks[n], f1[n]);
      assert Steps(s, batch, clocks, f2) == Step(b, batch[n], clocks[n], f2[n]);
    }
  }

  /** With a working store, a batch logs exactly one record per emitted event. */
  lemma {:induction false} StepsRecordPerEvent(s: CycleState, batch: seq<HealthData>, clocks: seq<int>, faults: seq<StoreFault>)
    requires |clocks| == |batch| && |faults| == |batch|
    requires forall i :: 0 <= i < |faults| ==> faults[i] == NoFault
    ensures var r := Steps(s, batch, clocks, faults);
      |r.store.records| - |s.store.records| == |r.emitted| - |s.emitted|
  {
    if batch != [] {
      var n := |batch| - 1;
      StepsRecordPerEvent(s, batch[..n], clocks[..n], faults[..n]);
      StepEmission(Steps(s, batch[..n], clocks[..n], faults[..n]), batch[n], clocks[n], faults[n]);
      StepRecords(Steps(s, batch[..n], clocks[..n], faults[..n]), batch[n], clocks[n]);
    }
  }

  /** After a batch whose keys are distinct, every reading's value is the one remembered for its key. */
  lemma {:induction false} StepsRemember(s: CycleState, batch: seq<HealthData>, clocks: seq<int>, faults: seq<StoreFault>)
    requires |clocks| == |batch| && |faults| == |batch|
    requires DistinctKeys(batch, Key)
    ensures var r := Steps(s, batch, clocks, faults);
      forall j :: 0 <= j < |batch| ==> Key(batch[j]) in r.previous && r.previous[Key(batch[j])] == batch[j].value
  {
    if batch != [] {
      var n := |batch| - 1;
      var p := Steps(s, batch[..n], clocks[..n], faults[..n]);
      StepsRemember(s, batch[..n], clocks[..n], faults[..n]);
      StepRemembers(p, batch[n], clocks[n], faults[n]);
      var r := Steps(s, batch, clocks, faults);
      forall j | 0 <= j < |batch|
        ensures Key(batch[j]) in r.previous && r.previous[Key(batch[j])] == batch[j].value
      {
        if j < n {
          assert batch[..n][j] == batch[j];
          assert Key(batch[j]) != Key(batch[n]);
        }
      }
    }
  }

  /** A batch whose every value is already the remembered one changes nothing at all. */
  lemma {:induction false} StepsQuiet(s: CycleState, batch: seq<HealthData>, clocks: seq<int>, faults: seq<StoreFault>)
    requires |clocks| == |batch| && |faults| == |batch|
    requires forall j :: 0 <= j < |batch| ==> Key(batch[j]) in s.previous && s.previous[Key(batch[j])] == batch[j].value
    ensures Steps(s, batch, clocks, faults) == s
  {
    if batch != [] {
      var n := |batch| - 1;
      forall j | 0 <= j < n
        ensures Key(batch[..n][j]) in s.previous && s.previous[Key(batch[..n][j])] == batch[..n][j].value
      {
        assert batch[..n][j] == batch[j];
      }
      StepsQuiet(s, batch[..n], clocks[..n], faults[..n]);
      assert s.previous[Key(batch[n]) := batch[n].value] == s.previous;
    }
  }

  /** Processing the same batch, with no repeated key, twice in a row: the second pass emits nothing and changes nothing. */
  lemma SecondPassSilent(s: CycleState, batch: seq<HealthData>, c1: seq<int>, f1: seq<StoreFault>,
                         c2: seq<int>, f2: seq<StoreFault>)
    requires |c1| == |batch| && |f1| == |batch| && |c2| == |batch| && |f2| == |batch|
    requires DistinctKeys(batch, Key)
    ensures var once := Steps(s, batch, c1, f1);
      Steps(once, batch, c2, f2) == once
  {
    StepsRemember(s, batch, c1, f1);
    StepsQuiet(Steps(s, batch, c1, f1), batch, c2, f2);
  }

  /** An empty or failed fetch emits exactly one synthetic update and leaves the remembered values and the store alone. */
  lemma CycleFallback(s: CycleState, fetched: Option<seq<HealthData>>, clocks: seq<int>, faults: seq<StoreFault>,
                      draws: UpdateDraws, nowMs: int)
    requires fetched.Some? ==> |clocks| == |fetched.value| && |faults| == |fetched.value|
    requires ValidUpdateDraws(draws)
    requires fetched.None? || fetched.value == []
    ensures var r := Cycle(s, fetched, clocks, faults, draws, nowMs);
      r.previous == s.previous && r.store == s.store &&
      |r.emitted| == |s.emitted| + 1 && r.emitted[..|s.emitted|] == s.emitted &&
      r.emitted[|s.emitted|].country in COUNTRIES
  {
  }

  /**
   * The data source never yields an empty batch when no country filter is
   * given, as here: the synthetic fallback of the cycle is only reached when
   * the fetch throws.
   */
  lemma FetchNeverEmpty(responses: seq<Option<seq<Item>>>, nowMs: int, draws: seq<int>)
    requires ValidDraws(draws)
    ensures |Fetched(None, responses, nowMs, draws)| > 0
  {
  }

  // ---------------------------------------------------------------------------
  // The poller

  /** The module-level `previousValues` map together with the store and the emitter's output. */
  class StreamPoller {
    var previous: map<string, int>
    var store: HealthStore
    var emitted: seq<UpdateEvent>

    function State(): CycleState
      reads this
    {
      CycleState(previous, store, emitted)
    }

    constructor(store0: HealthStore)
      ensures State() == CycleState(map[], store0, [])
    {
      previous := map[];
      store := store0;
      emitted := [];
    }

    /** The store writes for one changed reading, as the lookup-then-update-or-create sequence. */
    method SaveReading(d: HealthData, change: int, timestamp: int, fault: StoreFault)
      modifies this
      ensures store == Upsert(old(store), d, change, timestamp, fault)
      ensures previous == old(previous) && emitted == old(emitted)
    {
      if fault == FailBeforeUpsert {
        return;
      }
      var pair := (d.country, d.indicator);
      var id: nat;
      if pair in store.indicators {
        id := store.indicators[pair].id;
      } else {
        id := store.nextId;
        store := store.(nextId := store.nextId + 1);
      }
      store := store.(indicators := store.indicators[pair := StoredIndicator(id, d.value, d.category, d.date, d.isAlert)]);
      if fault == NoFault {
        store := store.(records := store.records + [UpdateRecord(id, d.country, d.indicator, d.value, change, timestamp)]);
      }
    }

    /** The body of the `for` loop for one reading. */
    method ProcessReading(d: HealthData, nowMs: int, fault: StoreFault)
      modifies this
      ensures State() == Step(old(State()), d, nowMs, fault)
    {
      var key := Key(d);
      var previousValue := Lookup(previous, key);
      var change := if previousValue.Some? then d.value - previousValue.value else 0;
      if previousValue.None? || previousValue.value != d.value {
        var update := UpdateEvent(d.country, d.indicator, d.value, change, nowMs / 1000);
        SaveReading(d, change, update.timestamp, fault);
        emitted := emitted + [update];
      }
      previous := previous[key := d.value];
    }

    /** The `for` loop over one fetched batch. */
    method ProcessBatch(batch: seq<HealthData>, clocks: seq<int>, faults: seq<StoreFault>)
      requires |clocks| == |batch| && |faults| == |batch|
      modifies this
      ensures State() == Steps(old(State()), batch, clocks, faults)
    {
      var i := 0;
      while i < |batch|
        invariant 0 <= i <= |batch|
        invariant State() == Steps(old(State()), batch[..i], clocks[..i], faults[..i])
      {
        assert batch[..i + 1][..i] == batch[..i];
        assert clocks[..i + 1][..i] == clocks[..i];
        assert faults[..i + 1][..i] == faults[..i];
        assert Steps(old(State()), batch[..i + 1], clocks[..i + 1], faults[..i + 1])
            == Step(Steps(old(State()), batch[..i], clocks[..i], faults[..i]), batch[i], clocks[i], faults[i]);
        ProcessReading(batch[i], clocks[i], faults[i]);
        i := i + 1;
      }
      assert batch[..i] == batch && clocks[..i] == clocks && faults[..i] == faults;
    }

    /** One run of the interval callback. */
    method Tick(fetched: Option<seq<HealthData>>, clocks: seq<int>, faults: seq<StoreFault>,
                draws: UpdateDraws, nowMs: int)
      requires fetched.Some? ==> |clocks| == |fetched.value| && |faults| == |fetched.value|
      requires ValidUpdateDraws(draws)
      modifies this
      ensures State() == Cycle(old(State()), fetched, clocks, faults, draws, nowMs)
    {
      if fetched.Some? && |fetched.value| > 0 {
        ProcessBatch(fetched.value, clocks, faults);
      } else {
        emitted := emitted + [MockUpdate(draws, nowMs)];
      }
    }
  }

  // ---------------------------------------------------------------------------
  // Server-sent-events framing (section 9.2 of the WHATWG HTML Living Standard)

  /** One event on the wire: a single `data:` field line followed by the blank line that dispatches it. */
  function Frame(payload: string): (m: string)
    ensures |m| == |payload| + 8
  {
    "data: " + payload + "\n\n"
  }

  /** The payload of a frame, if `m` is one. */
  function Unframe(m: string): (p: Option<string>)
    ensures p.Some? ==> |p.value| + 8 == |m|
  {
    if |m| >= 8 && m[..6] == "data: " && m[|m| - 2..] == "\n\n" then Some(m[6..|m| - 2]) else None
  }

  /** A frame's payload is recovered from it. */
  lemma UnframeFrame(payload: string)
    ensures Unframe(Frame(payload)) == Some(payload)
  {
    var m := Frame(payload);
    assert m[..6] == "data: ";
    assert m[|m| - 2..] == "\n\n";
    assert m[6..|m| - 2] == payload;
  }

  /** Anything that unframes is exactly the frame of its payload. */
  lemma FrameUnframe(m: string)
    requires Unframe(m).Some?
    ensures Frame(Unframe(m).value) == m
  {
    assert m == m[..6] + m[6..|m| - 2] + m[|m| - 2..];
  }

  /**
   * A payload without line breaks (as JSON text is) makes a frame whose only
   * line breaks are its final two: one field line, then the dispatching blank line.
   */
  lemma FrameSingleLine(payload: string)
    requires forall i :: 0 <= i < |payload| ==> payload[i] != '\n'
    ensures var m := Frame(payload);
      m[|m| - 2] == '\n' && m[|m| - 1] == '\n' &&
      forall i :: 0 <= i < |m| - 2 ==> m[i] != '\n'
  {
    var m := Frame(payload);
    forall i | 0 <= i < |m| - 2
      ensures m[i] != '\n'
    {
      if i >= 6 {
        assert m[i] == payload[i - 6];
      }
    }
  }

  const CONNECTED_JSON: string := "{\"type\":\"connected\"}"

  /** The JSON text of a health-update message around the event's own JSON text. */
  function HealthUpdateJson(dataJson: string): string
  {
    "{\"type\":\"health-update\",\"data\":" + dataJson + "}"
  }

  /**
   * Everything one connection writes: the connected message first, then one
   * health-update message per emitted event; `json` stands for `JSON.stringify`.
   */
  function SessionOutput(events: seq<UpdateEvent>, json: UpdateEvent -> string): (out: seq<string>)
    ensures |out| == |events| + 1
    ensures Unframe(out[0]) == Some(CONNECTED_JSON)
    ensures forall i :: 0 <= i < |events| ==> Unframe(out[i + 1]) == Some(HealthUpdateJson(json(events[i])))
  {
    UnframeFrame(CONNECTED_JSON);
    [Frame(CONNECTED_JSON)] + seq(|events|, i requires 0 <= i < |events| => FrameUpdate(json(events[i])))
  }

  function FrameUpdate(dataJson: string): (m: string)
    ensures Unframe(m) == Some(HealthUpdateJson(dataJson))
  {
    UnframeFrame(HealthUpdateJson(dataJson));
    Frame(HealthUpdateJson(dataJson))
  }

  /** The connected message is told apart from every health-update message by its type. */
  lemma ConnectedIsNotUpdate(dataJson: string)
    ensures Frame(CONNECTED_JSON) != Frame(HealthUpdateJson(dataJson))
  {
    assert Frame(CONNECTED_JSON)[15] == 'c';
    assert Frame(HealthUpdateJson(dataJson))[15] == 'h';
  }
}

=== FILE: who_api.dfy ===
/**
 * The data-source adapter of the health dashboard (lib/who-api.ts): how the
 * items of an upstream indicator endpoint become readings, how readings are
 * grouped to the latest one per `country-indicator` key, and the synthetic
 * readings used when the upstream source yields nothing.
 *
 * Network access is not modelled: each endpoint's response is an input
 * (`None` for a failed or non-array response). Random draws and the clock are
 * parameters; dates are integer millisecond timestamps.
 */
module WhoApi {

  import opened Common

  /** One reading (`WHOHealthData`). */
  datatype HealthData = HealthData(
    country: string, indicator: string, value: int,
    category: string, date: int, isAlert: bool)

  /** One change event (`WHOUpdateEvent`). */
  datatype UpdateEvent = UpdateEvent(
    country: string, indicator: string, value: int, change: int, timestamp: int)

  /** The identity of a reading: the string `${country}-${indicator}`. */
  function Key(d: HealthData): string
  {
    d.country + "-" + d.indicator
  }

  /** Two readings of different (country, indicator) pairs can share a key. */
  lemma KeysMayCollide()
    ensures var a := HealthData("A-B", "C", 1, "health", 0, false);
      var b := HealthData("A", "B-C", 1, "health", 0, false);
      (a.country, a.indicator) != (b.country, b.indicator) && Key(a) == Key(b)
  {
    var a := HealthData("A-B", "C", 1, "health", 0, false);
    var b := HealthData("A", "B-C", 1, "health", 0, false);
    assert a.country != b.country by {
      assert |a.country| != |b.country|;
    }
    assert Key(a) == "A-B-C" == Key(b);
  }

  const COUNTRIES: seq<string> :=
    ["Indonesia", "Malaysia", "Singapore", "Thailand", "Philippines", "Vietnam"]

  /** Upper bound on the items examined per endpoint (`slice(0, 100)`). */
  const MAX_ITEMS := 100

  // ---------------------------------------------------------------------------
  // Transforming upstream items

  /**
   * One upstream item. `value` stands for what `parseFloat(item.NumericValue ||
   * item.VALUE || item.Value || 0)` yields, with NaN represented by 0 (both fail
   * the `value > 0` test). Dates are the timestamps `TimeDim || YEAR` denote.
   * `Unreadable` is an item on which the `forEach` body throws: a `null` item,
   * or one whose `SpatialDim || COUNTRY` is a truthy value that is not a
   * string, so that `.trim()` is not a function of it.
   */
  datatype Item =
    | Item(
        spatialDim: Option<string>, countryCode: Option<string>,
        value: int,
        indicator: Option<string>, indicatorCode: Option<string>, indicatorName: Option<string>,
        dim1: Option<string>, category: Option<string>,
        timeDim: Option<int>, year: Option<int>)
    | Unreadable

  /** The country filter is in force when it is given and non-empty (`country ? ... : ...`). */
  predicate FilterActive(country: Option<string>)
  {
    !IsFalsy(country)
  }

  function Targets(country: Option<string>): seq<string>
  {
    if FilterActive(country) then [country.value] else COUNTRIES
  }

  /** Case-insensitive containment in either direction. */
  predicate NamesMatch(clean: string, target: string)
  {
    Contains(Lower(clean), Lower(target)) || Contains(Lower(target), Lower(clean))
  }

  /** `targets.find(...)`: the first target that matches the cleaned name. */
  function MatchTarget(targets: seq<string>, clean: string): (m: Option<string>)
    ensures m.Some? ==> m.value in targets && NamesMatch(clean, m.value)
    ensures m.Some? ==> exists i :: 0 <= i < |targets| && targets[i] == m.value
                         && forall j :: 0 <= j < i ==> !NamesMatch(clean, targets[j])
    ensures m.None? <==> forall t :: t in targets ==> !NamesMatch(clean, t)
  {
    if targets == [] then None
    else if NamesMatch(clean, targets[0]) then Some(targets[0])
    else
      var m := MatchTarget(targets[1..], clean);
      assert forall t :: t in targets ==> t == targets[0] || t in targets[1..];
      if m.Some? then
        var i :| 0 <= i < |targets[1..]| && targets[1..][i] == m.value
                 && forall j :: 0 <= j < i ==> !NamesMatch(clean, targets[1..][j]);
        assert targets[i + 1] == m.value;
        m
      else m
  }

  /** `(item.SpatialDim || item.COUNTRY || 'Unknown').trim()`, for an item whose name is a string. */
  function CleanName(it: Item): (r: string)
    requires it.Item?
    ensures !IsFalsy(it.spatialDim) ==> r == Trim(it.spatialDim.value)
    ensures IsFalsy(it.spatialDim) && !IsFalsy(it.countryCode) ==> r == Trim(it.countryCode.value)
    ensures IsFalsy(it.spatialDim) && IsFalsy(it.countryCode) ==> r == "Unknown"
    ensures r != [] ==> !IsSpace(r[0]) && !IsSpace(r[|r| - 1])
  {
    var name := OrString(it.spatialDim, OrString(it.countryCode, "Unknown"));
    if !IsFalsy(it.spatialDim) then
      assert name == it.spatialDim.value;
      Trim(name)
    else if !IsFalsy(it.countryCode) then
      assert name == it.countryCode.value;
      Trim(name)
    else
      UnknownIsTrimmed();
      assert name == "Unknown";
      Trim(name)
  }

  /** The default name has no surrounding white space. */
  lemma UnknownIsTrimmed()
    ensures Trim("Unknown") == "Unknown"
  {
    var u := "Unknown";
    assert u[0] == 'U' && u[|u| - 1] == 'n';
    TrimKeepsTrimmed(u);
  }

  /** What the body of the `forEach` does with one item: push a reading, skip it, or throw. */
  datatype Outcome = Pushed(reading: HealthData) | Skipped | Threw

  /** The body of the `forEach` for one item. */
  function TransformItem(country: Option<string>, it: Item, nowMs: int): Outcome
  {
    if it.Unreadable? then Threw
    else
      var clean := CleanName(it);
      var matched := MatchTarget(Targets(country), clean);
      if (matched.Some? || !FilterActive(country)) && it.value > 0 then
        Pushed(HealthData(
          if matched.Some? then matched.value else clean,
          OrString(it.indicator, OrString(it.indicatorCode, OrString(it.indicatorName, "Health Indicator"))),
          it.value,
          OrString(it.dim1, OrString(it.category, "health")),
          OrInt(it.timeDim, OrInt(it.year, nowMs)),
          false))
      else Skipped
  }

  /**
   * An item throws exactly when it is unreadable. A readable item pushes a
   * reading exactly when its value is positive and, under a country filter,
   * its cleaned name matches the filter; the reading carries the item's
   * value, is never an alert, and is named after the filter when one is in
   * force, otherwise after the first matching roster country or, failing
   * that, the cleaned name itself (`matchedCountry || countryNameClean`).
   */
  lemma TransformItemReading(country: Option<string>, it: Item, nowMs: int)
    ensures TransformItem(country, it, nowMs).Threw? <==> it.Unreadable?
    ensures it.Item? ==>
      var t := TransformItem(country, it, nowMs);
      var m := MatchTarget(COUNTRIES, CleanName(it));
      (t.Pushed? <==> it.value > 0 && (!FilterActive(country) || NamesMatch(CleanName(it), country.value))) &&
      (t.Pushed? ==>
         t.reading.value == it.value && !t.reading.isAlert &&
         (FilterActive(country) ==> t.reading.country == country.value) &&
         (!FilterActive(country) ==> t.reading.country == (if m.Some? then m.value else CleanName(it))))
  {
    if it.Item? && FilterActive(country) {
      assert Targets(country) == [country.value];
      assert country.value in Targets(country);
    }
  }

  /** The readings one `forEach` pushed, and whether an item threw and ended it. */
  datatype Pass = Pass(pushed: seq<HealthData>, threw: bool)

  /** One item of a `forEach`: nothing more happens after a throw. */
  function Advance(p: Pass, o: Outcome): Pass
  {
    if p.threw then p
    else
      match o
      case Pushed(d) => Pass(p.pushed + [d], false)
      case Skipped => p
      case Threw => Pass(p.pushed, true)
  }

  /** A `forEach` over items with these outcomes: it stops at the first throw, keeping what it pushed. */
  function Run(os: seq<Outcome>): Pass
  {
    if os == [] then Pass([], false) else Advance(Run(os[..|os| - 1]), os[|os| - 1])
  }

  /** A run throws exactly when some outcome is a throw. */
  lemma {:induction false} RunThrows(os: seq<Outcome>)
    ensures Run(os).threw <==> exists i :: 0 <= i < |os| && os[i].Threw?
  {
    if os != [] {
      var n := |os| - 1;
      RunThrows(os[..n]);
      if exists i :: 0 <= i < n && os[..n][i].Threw? {
        var i :| 0 <= i < n && os[..n][i].Threw?;
        assert os[i].Threw?;
      }
      if exists i :: 0 <= i < |os| && os[i].Threw? {
        var i :| 0 <= i < |os| && os[i].Threw?;
        if i < n {
          assert os[..n][i].Threw?;
        }
      }
    }
  }

  /** Once a run has thrown, later outcomes change nothing. */
  lemma {:induction false} RunSticks(os: seq<Outcome>, j: nat)
    requires j <= |os| && Run(os[..j]).threw
    ensures Run(os) == Run(os[..j])
  {
    if j < |os| {
      var n := |os| - 1;
      assert os[..n][..j] == os[..j];
      RunSticks(os[..n], j);
    } else {
      assert os[..j] == os;
    }
  }

  /** Every reading a run pushed is the reading of one of its `Pushed` outcomes. */
  lemma {:induction false} RunPushed(os: seq<Outcome>)
    ensures forall d :: d in Run(os).pushed ==> exists i :: 0 <= i < |os| && os[i] == Pushed(d)
  {
    if os != [] {
      var n := |os| - 1;
      RunPushed(os[..n]);
      forall d | d in Run(os).pushed
        ensures exists i :: 0 <= i < |os| && os[i] == Pushed(d)
      {
        if d in Run(os[..n]).pushed {
          var i :| 0 <= i < n && os[..n][i] == Pushed(d);
          assert os[i] == Pushed(d);
        } else {
          assert os[n] == Pushed(d);
        }
      }
    }
  }

  /** The callback of the `forEach`, for a given filter and clock. */
  function Body(country: Option<string>, nowMs: int): Item -> Outcome
  {
    it => TransformItem(country, it, nowMs)
  }

  /** What the callback does with each item, item by item. */
  function Outcomes<T>(body: T -> Outcome, items: seq<T>): (os: seq<Outcome>)
    ensures |os| == |items| && forall i :: 0 <= i < |items| ==> os[i] == body(items[i])
  {
    seq(|items|, i requires 0 <= i < |items| => body(items[i]))
  }

  /** The `forEach` over a list of items. */
  function TransformAll(country: Option<string>, items: seq<Item>, nowMs: int): Pass
  {
    Run(Outcomes(Body(country, nowMs), items))
  }

  /** The pass throws exactly when some item is unreadable. */
  lemma TransformAllThrows(country: Option<string>, items: seq<Item>, nowMs: int)
    ensures TransformAll(country, items, nowMs).threw <==> exists i :: 0 <= i < |items| && items[i].Unreadable?
  {
    var os := Outcomes(Body(country, nowMs), items);
    RunThrows(os);
    forall i | 0 <= i < |items|
      ensures os[i].Threw? <==> items[i].Unreadable?
    {
      assert os[i] == TransformItem(country, items[i], nowMs);
      TransformItemReading(country, items[i], nowMs);
    }
  }

  /** A reading as the transform produces it: positive, no alert and, under a filter, of the filtered country. */
  predicate WellFormed(d: HealthData, country: Option<string>)
  {
    d.value > 0 && !d.isAlert && (FilterActive(country) ==> d.country == country.value)
  }

  /** Every reading a pass pushes is well formed. */
  lemma TransformAllReadings(country: Option<string>, items: seq<Item>, nowMs: int)
    ensures forall d :: d in TransformAll(country, items, nowMs).pushed ==> WellFormed(d, country)
  {
    var os := Outcomes(Body(country, nowMs), items);
    RunPushed(os);
    forall d | d in Run(os).pushed
      ensures WellFormed(d, country)
    {
      var i :| 0 <= i < |os| && os[i] == Pushed(d);
      assert os[i] == TransformItem(country, items[i], nowMs);
      TransformItemReading(country, items[i], nowMs);
    }
  }

  /** The response carries items to transform (`data && Array.isArray(data.value) && data.value.length > 0`). */
  predicate HasItems(response: Option<seq<Item>>)
  {
    response.Some? && |response.value| > 0
  }

  /** The pass over an endpoint's first 100 items; nothing for an endpoint without items. */
  function EndpointPass(country: Option<string>, response: Option<seq<Item>>, nowMs: int): Pass
  {
    if HasItems(response) then
      TransformAll(country, response.value[..Min(MAX_ITEMS, |response.value|)], nowMs)
    else Pass([], false)
  }

  /** `EndpointPass` for a fixed filter and clock, as the endpoint loop applies it. */
  function PassOf(country: Option<string>, nowMs: int): Option<seq<Item>> -> Pass
  {
    response => EndpointPass(country, response, nowMs)
  }

  /**
   * The endpoint loop from `responses[0]` on, with the readings `acc`
   * already pushed into the shared `transformed` array, for any `pass`
   * giving each endpoint's readings and whether it threw. A pass that throws
   * is caught and the loop goes on to the next endpoint, keeping what was
   * pushed; a pass that completes ends the loop when anything has been
   * pushed so far (`if (transformed.length > 0) break`).
   */
  function Endpoints(pass: Option<seq<Item>> -> Pass, responses: seq<Option<seq<Item>>>,
                     acc: seq<HealthData>): seq<HealthData>
  {
    if responses == [] then acc
    else
      var p := pass(responses[0]);
      var acc' := acc + p.pushed;
      if HasItems(responses[0]) && !p.threw && acc' != [] then acc'
      else Endpoints(pass, responses[1..], acc')
  }

  /** The readings the endpoint loop leaves in `transformed`. */
  function Transformed(country: Option<string>, responses: seq<Option<seq<Item>>>, nowMs: int): seq<HealthData>
  {
    Endpoints(PassOf(country, nowMs), responses, [])
  }

  /** What was pushed stays: the loop only ever appends to `transformed`. */
  lemma {:induction false} EndpointsExtends(pass: Option<seq<Item>> -> Pass, responses: seq<Option<seq<Item>>>,
                                            acc: seq<HealthData>)
    ensures acc <= Endpoints(pass, responses, acc)
  {
    if responses != [] {
      var acc' := acc + pass(responses[0]).pushed;
      EndpointsExtends(pass, responses[1..], acc');
    }
  }

  /** Every reading the endpoint loop collects is well formed. */
  lemma {:induction false} EndpointsReadings(country: Option<string>, responses: seq<Option<seq<Item>>>, nowMs: int,
                                             acc: seq<HealthData>)
    requires forall d :: d in acc ==> WellFormed(d, country)
    ensures forall d :: d in Endpoints(PassOf(country, nowMs), responses, acc) ==> WellFormed(d, country)
  {
    if responses != [] {
      var r := responses[0];
      if HasItems(r) {
        TransformAllReadings(country, r.value[..Min(MAX_ITEMS, |r.value|)], nowMs);
      }
      var acc' := acc + EndpointPass(country, r, nowMs).pushed;
      EndpointsReadings(country, responses[1..], nowMs, acc');
    }
  }

  /** Every reading of the endpoint loop's result is well formed. */
  lemma TransformedReadings(country: Option<string>, responses: seq<Option<seq<Item>>>, nowMs: int)
    ensures forall d :: d in Transformed(country, responses, nowMs) ==> WellFormed(d, country)
  {
    EndpointsReadings(country, responses, nowMs, []);
  }

  /**
   * An endpoint that throws part-way keeps its readings, and the next
   * endpoint's readings are added after them: with two endpoints, the first
   * of which throws and the second of which completes, the result is the
   * first's partial readings followed by all of the second's.
   */
  lemma PartialThenNext(country: Option<string>, r0: Option<seq<Item>>, r1: Option<seq<Item>>, nowMs: int)
    requires HasItems(r0) && EndpointPass(country, r0, nowMs).threw
    requires HasItems(r1) && !EndpointPass(country, r1, nowMs).threw
    ensures Transformed(country, [r0, r1], nowMs) ==
      EndpointPass(country, r0, nowMs).pushed + EndpointPass(country, r1, nowMs).pushed
  {
    var pass := PassOf(country, nowMs);
    var p0 := EndpointPass(country, r0, nowMs).pushed;
    var p1 := EndpointPass(country, r1, nowMs).pushed;
    assert pass(r0) == EndpointPass(country, r0, nowMs) && pass(r1) == EndpointPass(country, r1, nowMs);
    assert [r0, r1][0] == r0 && [r0, r1][1..] == [r1];
    assert [r1][0] == r1 && [r1][1..] == [];
    assert Transformed(country, [r0, r1], nowMs) == Endpoints(pass, [r1], [] + p0);
    assert [] + p0 == p0;
    assert Endpoints(pass, [], p0 + p1) == p0 + p1;
  }

  /** No item among the first 100 of the response throws. */
  predicate Readable(response: Option<seq<Item>>)
  {
    HasItems(response) ==> forall i :: 0 <= i < Min(MAX_ITEMS, |response.value|) ==> response.value[i].Item?
  }

  /** No item among the first 100 of any endpoint throws. */
  ghost predicate AllReadable(responses: seq<Option<seq<Item>>>)
  {
    forall e :: 0 <= e < |responses| ==> Readable(responses[e])
  }

  /** With readable items no pass throws. */
  lemma NoThrow(country: Option<string>, response: Option<seq<Item>>, nowMs: int)
    requires HasItems(response) && Readable(response)
    ensures !EndpointPass(country, response, nowMs).threw
  {
    var items := response.value[..Min(MAX_ITEMS, |response.value|)];
    TransformAllThrows(country, items, nowMs);
  }

  /** No endpoint's pass throws, and an endpoint without items pushes nothing. */
  ghost predicate Completes(pass: Option<seq<Item>> -> Pass, responses: seq<Option<seq<Item>>>)
  {
    forall e :: 0 <= e < |responses| ==> !pass(responses[e]).threw && (HasItems(responses[e]) || pass(responses[e]).pushed == [])
  }

  /** Every endpoint before `k` pushes nothing. */
  ghost predicate NoneYieldBefore(pass: Option<seq<Item>> -> Pass, responses: seq<Option<seq<Item>>>, k: int)
  {
    forall j :: 0 <= j < k && j < |responses| ==> pass(responses[j]).pushed == []
  }

  /**
   * When no pass throws, the loop keeps the first endpoint's readings when it
   * pushes any, and otherwise goes on as if that endpoint were not there.
   */
  lemma EndpointsHead(pass: Option<seq<Item>> -> Pass, responses: seq<Option<seq<Item>>>)
    requires responses != [] && Completes(pass, responses)
    ensures Completes(pass, responses[1..])
    ensures Endpoints(pass, responses, []) ==
      if pass(responses[0]).pushed != [] then pass(responses[0]).pushed else Endpoints(pass, responses[1..], [])
  {
    assert [] + pass(responses[0]).pushed == pass(responses[0]).pushed;
    forall e | 0 <= e < |responses[1..]|
      ensures !pass(responses[1..][e]).threw && (HasItems(responses[1..][e]) || pass(responses[1..][e]).pushed == [])
    {
      assert responses[1..][e] == responses[e + 1];
    }
  }

  /**
   * Behind a first endpoint that pushes nothing, the first yielding
   * endpoint of the rest, at `k`, is the first yielding one at `k + 1`.
   */
  lemma FirstShift(pass: Option<seq<Item>> -> Pass, responses: seq<Option<seq<Item>>>, k: nat)
    requires responses != [] && pass(responses[0]).pushed == []
    requires k <= |responses[1..]| && NoneYieldBefore(pass, responses[1..], k)
    ensures NoneYieldBefore(pass, responses, k + 1)
    ensures k + 1 < |responses| ==> responses[k + 1] == responses[1..][k]
  {
    forall j | 0 <= j < k + 1 && j < |responses|
      ensures pass(responses[j]).pushed == []
    {
      if j > 0 {
        assert responses[j] == responses[1..][j - 1];
      }
    }
  }

  /** The index of the first endpoint whose pass pushes anything; the count when none does. */
  function FirstYield(pass: Option<seq<Item>> -> Pass, responses: seq<Option<seq<Item>>>): (k: nat)
    ensures k <= |responses|
  {
    if responses == [] then 0
    else if pass(responses[0]).pushed != [] then 0
    else FirstYield(pass, responses[1..]) + 1
  }

  /** The endpoint at `FirstYield` pushes something, and every endpoint before it pushes nothing. */
  lemma {:induction false} FirstYieldIsFirst(pass: Option<seq<Item>> -> Pass, responses: seq<Option<seq<Item>>>)
    ensures NoneYieldBefore(pass, responses, FirstYield(pass, responses))
    ensures FirstYield(pass, responses) < |responses| ==> pass(responses[FirstYield(pass, responses)]).pushed != []
  {
    if responses != [] && pass(responses[0]).pushed == [] {
      FirstYieldIsFirst(pass, responses[1..]);
      FirstShift(pass, responses, FirstYield(pass, responses[1..]));
    }
  }

  /**
   * When no pass throws, the endpoint loop's result is the readings of the
   * first endpoint that pushes any, or nothing when none does.
   */
  lemma {:induction false} FirstYieldResult(pass: Option<seq<Item>> -> Pass, responses: seq<Option<seq<Item>>>)
    requires Completes(pass, responses)
    ensures var k := FirstYield(pass, responses);
      Endpoints(pass, responses, []) == if k < |responses| then pass(responses[k]).pushed else []
  {
    if responses != [] {
      EndpointsHead(pass, responses);
      if pass(responses[0]).pushed == [] {
        FirstYieldResult(pass, responses[1..]);
        var k' := FirstYield(pass, responses[1..]);
        if k' < |responses[1..]| {
          assert responses[k' + 1] == responses[1..][k'];
        }
      }
    }
  }

  /**
   * When no item throws, the endpoint loop keeps the readings of the first
   * endpoint that yields any, returned as `k`, after endpoints that all
   * yielded none; it yields nothing only when every endpoint yields nothing
   * (then `k` is the count).
   */
  lemma TransformedFirst(country: Option<string>, responses: seq<Option<seq<Item>>>, nowMs: int)
    returns (k: nat)
    requires AllReadable(responses)
    ensures k <= |responses| && forall j :: 0 <= j < k ==> EndpointPass(country, responses[j], nowMs).pushed == []
    ensures k == |responses| <==> Transformed(country, responses, nowMs) == []
    ensures k < |responses| ==> Transformed(country, responses, nowMs) == EndpointPass(country, responses[k], nowMs).pushed
  {
    var pass := PassOf(country, nowMs);
    forall e | 0 <= e < |responses|
      ensures !pass(responses[e]).threw && (HasItems(responses[e]) || pass(responses[e]).pushed == [])
    {
      assert Readable(responses[e]);
      if HasItems(responses[e]) {
        NoThrow(country, responses[e], nowMs);
      }
    }
    k := FirstYield(pass, responses);
    FirstYieldIsFirst(pass, responses);
    FirstYieldResult(pass, responses);
  }

  // ---------------------------------------------------------------------------
  // Grouping to the latest reading per key

  ghost predicate DistinctKeys<T>(s: seq<T>, key: T -> string)
  {
    forall i, j :: 0 <= i < j < |s| ==> key(s[i]) != key(s[j])
  }

  /**
   * One step of the grouping: an element with a new key goes to the end; one
   * whose key is present replaces the stored element, in its position, only
   * when its date is strictly later (`new Date(item.date) > new Date(...)`).
   */
  function Place<T>(acc: seq<T>, x: T, key: T -> string, date: T -> int): (r: seq<T>)
    ensures |r| == |acc| || |r| == |acc| + 1
  {
    if acc == [] then [x]
    else if key(acc[0]) == key(x) then (if date(x) > date(acc[0]) then [x] + acc[1..] else acc)
    else [acc[0]] + Place(acc[1..], x, key, date)
  }

  lemma {:induction false} PlaceNew<T>(acc: seq<T>, x: T, key: T -> string, date: T -> int)
    requires forall j :: 0 <= j < |acc| ==> key(acc[j]) != key(x)
    ensures Place(acc, x, key, date) == acc + [x]
  {
    if acc != [] {
      PlaceNew(acc[1..], x, key, date);
      assert [acc[0]] + (acc[1..] + [x]) == acc + [x];
    }
  }

  lemma {:induction false} PlaceExisting<T>(acc: seq<T>, x: T, key: T -> string, date: T -> int, j: nat)
    requires j < |acc| && key(acc[j]) == key(x)
    requires forall i :: 0 <= i < j ==> key(acc[i]) != key(x)
    ensures Place(acc, x, key, date) == if date(x) > date(acc[j]) then acc[j := x] else acc
  {
    if j == 0 {
      assert [x] + acc[1..] == acc[0 := x];
    } else {
      PlaceExisting(acc[1..], x, key, date, j - 1);
      assert [acc[0]] + acc[1..] == acc;
      assert [acc[0]] + acc[1..][j - 1 := x] == acc[j := x];
    }
  }

  /** The grouped elements, in first-insertion order of their keys (a `Map` keyed by `key`). */
  function GroupLatest<T>(items: seq<T>, key: T -> string, date: T -> int): seq<T>
  {
    if items == [] then []
    else Place(GroupLatest(items[..|items| - 1], key, date), items[|items| - 1], key, date)
  }

  /** Grouping a non-empty input yields a non-empty result of at most its length. */
  lemma {:induction false} GroupLatestNonEmpty<T>(items: seq<T>, key: T -> string, date: T -> int)
    requires items != []
    ensures 0 < |GroupLatest(items, key, date)| <= |items|
  {
    var pre := items[..|items| - 1];
    if pre != [] {
      GroupLatestNonEmpty(pre, key, date);
    }
  }

  /** The grouping step in index form, for a group with distinct keys. */
  lemma GroupLatestStep<T>(items: seq<T>, key: T -> string, date: T -> int)
    requires items != []
    ensures var p := GroupLatest(items[..|items| - 1], key, date);
      var x := items[|items| - 1];
      var g := GroupLatest(items, key, date);
      ((forall j :: 0 <= j < |p| ==> key(p[j]) != key(x)) ==> g == p + [x]) &&
      (forall j :: 0 <= j < |p| && key(p[j]) == key(x) && DistinctKeys(p, key) ==>
         g == if date(x) > date(p[j]) then p[j := x] else p)
  {
    var p := GroupLatest(items[..|items| - 1], key, date);
    var x := items[|items| - 1];
    if forall j :: 0 <= j < |p| ==> key(p[j]) != key(x) {
      PlaceNew(p, x, key, date);
    }
    forall j | 0 <= j < |p| && key(p[j]) == key(x) && DistinctKeys(p, key)
      ensures GroupLatest(items, key, date) == if date(x) > date(p[j]) then p[j := x] else p
    {
      PlaceExisting(p, x, key, date, j);
    }
  }

  /** The grouping keeps each key once. */
  lemma {:induction false} GroupLatestDistinct<T>(items: seq<T>, key: T -> string, date: T -> int)
    ensures DistinctKeys(GroupLatest(items, key, date), key)
  {
    if items != [] {
      var pre := items[..|items| - 1];
      var p := GroupLatest(pre, key, date);
      var x := items[|items| - 1];
      GroupLatestDistinct(pre, key, date);
      GroupLatestStep(items, key, date);
      if exists j :: 0 <= j < |p| && key(p[j]) == key(x) {
        var j :| 0 <= j < |p| && key(p[j]) == key(x);
        assert GroupLatest(items, key, date) == if date(x) > date(p[j]) then p[j := x] else p;
      }
    }
  }

  /** Every input key is the key of some group element. */
  lemma {:induction false} GroupLatestCovers<T>(items: seq<T>, key: T -> string, date: T -> int, y: T)
    requires y in items
    ensures exists j :: 0 <= j < |GroupLatest(items, key, date)| && key(GroupLatest(items, key, date)[j]) == key(y)
  {
    var pre := items[..|items| - 1];
    var p := GroupLatest(pre, key, date);
    var x := items[|items| - 1];
    var g := GroupLatest(items, key, date);
    GroupLatestDistinct(pre, key, date);
    GroupLatestStep(items, key, date);
    assert y in pre || y == x by {
      assert items == pre + [x];
    }
    if forall j :: 0 <= j < |p| ==> key(p[j]) != key(x) {
      assert g == p + [x];
      if y != x || y in pre {
        if y in pre {
          GroupLatestCovers(pre, key, date, y);
          var k :| 0 <= k < |p| && key(p[k]) == key(y);
          assert g[k] == p[k];
        }
      }
      if y == x {
        assert key(g[|p|]) == key(y);
      }
    } else {
      var j :| 0 <= j < |p| && key(p[j]) == key(x);
      assert g == if date(x) > date(p[j]) then p[j := x] else p;
      if y == x {
        assert key(g[j]) == key(y);
      } else {
        GroupLatestCovers(pre, key, date, y);
        var k :| 0 <= k < |p| && key(p[k]) == key(y);
        assert key(g[k]) == key(y);
      }
    }
  }

  /** The grouping keeps only input elements. */
  lemma {:induction false} GroupLatestSubset<T>(items: seq<T>, key: T -> string, date: T -> int)
    ensures forall y :: y in GroupLatest(items, key, date) ==> y in items
  {
    if items != [] {
      var pre := items[..|items| - 1];
      var p := GroupLatest(pre, key, date);
      var x := items[|items| - 1];
      GroupLatestSubset(pre, key, date);
      GroupLatestDistinct(pre, key, date);
      GroupLatestStep(items, key, date);
      var g := GroupLatest(items, key, date);
      forall y | y in g ensures y in items {
        assert items == pre + [x];
        if y != x {
          var i :| 0 <= i < |g| && g[i] == y;
          if forall j :: 0 <= j < |p| ==> key(p[j]) != key(x) {
            assert g == p + [x];
            assert y in p;
          } else {
            var j :| 0 <= j < |p| && key(p[j]) == key(x);
            assert g == if date(x) > date(p[j]) then p[j := x] else p;
            assert g[i] == p[i];
          }
        }
      }
    }
  }

  /** Each kept element carries the latest date of its key. */
  lemma {:induction false} GroupLatestIsLatest<T>(items: seq<T>, key: T -> string, date: T -> int, m: nat)
    requires m < |GroupLatest(items, key, date)|
    ensures var g := GroupLatest(items, key, date)[m];
      forall y :: y in items && key(y) == key(g) ==> date(y) <= date(g)
  {
    var n := |items| - 1;
    var pre := items[..n];
    var p := GroupLatest(pre, key, date);
    var x := items[n];
    var r := GroupLatest(items, key, date);
    GroupLatestDistinct(pre, key, date);
    GroupLatestStep(items, key, date);
    assert forall y :: y in items ==> y in pre || y == x;
    if forall j :: 0 <= j < |p| ==> key(p[j]) != key(x) {
      assert r == p + [x];
      if m < |p| {
        GroupLatestIsLatest(pre, key, date, m);
      } else {
        forall y | y in pre ensures key(y) != key(x) {
          GroupLatestCovers(pre, key, date, y);
          var j :| 0 <= j < |p| && key(p[j]) == key(y);
        }
      }
    } else {
      var j :| 0 <= j < |p| && key(p[j]) == key(x);
      assert r == if date(x) > date(p[j]) then p[j := x] else p;
      GroupLatestIsLatest(pre, key, date, j);
      if m != j {
        GroupLatestIsLatest(pre, key, date, m);
      }
    }
  }

  /** `items[i]` is `g`, and every earlier element with `g`'s key is strictly older. */
  ghost predicate FirstLatestAt<T>(items: seq<T>, key: T -> string, date: T -> int, i: int, g: T)
  {
    0 <= i < |items| && items[i] == g &&
    forall j :: 0 <= j < i && key(items[j]) == key(g) ==> date(items[j]) < date(g)
  }

  lemma FirstLatestAtExtend<T>(items: seq<T>, key: T -> string, date: T -> int, i: int, g: T)
    requires items != [] && FirstLatestAt(items[..|items| - 1], key, date, i, g)
    ensures FirstLatestAt(items, key, date, i, g)
  {
  }

  /** Among the elements of its key that carry the latest date, the kept one is the first seen. */
  lemma {:induction false} GroupLatestFirstSeen<T>(items: seq<T>, key: T -> string, date: T -> int, m: nat)
    requires m < |GroupLatest(items, key, date)|
    ensures exists i :: FirstLatestAt(items, key, date, i, GroupLatest(items, key, date)[m])
  {
    var n := |items| - 1;
    var pre := items[..n];
    var p := GroupLatest(pre, key, date);
    var x := items[n];
    var r := GroupLatest(items, key, date);
    var g := r[m];
    GroupLatestDistinct(pre, key, date);
    GroupLatestStep(items, key, date);
    if forall j :: 0 <= j < |p| ==> key(p[j]) != key(x) {
      assert r == p + [x];
      if m < |p| {
        assert g == p[m];
        GroupLatestFirstSeen(pre, key, date, m);
        var i :| FirstLatestAt(pre, key, date, i, g);
        FirstLatestAtExtend(items, key, date, i, g);
      } else {
        assert g == x;
        forall k | 0 <= k < n ensures key(items[k]) != key(g) {
          assert items[k] in pre;
          GroupLatestCovers(pre, key, date, items[k]);
          var j :| 0 <= j < |p| && key(p[j]) == key(items[k]);
        }
        assert FirstLatestAt(items, key, date, n, g);
      }
    } else {
      var j :| 0 <= j < |p| && key(p[j]) == key(x);
      assert r == if date(x) > date(p[j]) then p[j := x] else p;
      if m != j || date(x) <= date(p[j]) {
        assert g == p[m];
        GroupLatestFirstSeen(pre, key, date, m);
        var i :| FirstLatestAt(pre, key, date, i, g);
        FirstLatestAtExtend(items, key, date, i, g);
      } else {
        assert g == x;
        GroupLatestIsLatest(pre, key, date, j);
        forall k | 0 <= k < n && key(items[k]) == key(g) ensures date(items[k]) < date(g) {
          assert items[k] in pre;
        }
        assert FirstLatestAt(items, key, date, n, g);
      }
    }
  }

  function DateOf(d: HealthData): int
  {
    d.date
  }

  /** `!country || d.country === country` */
  function FilterCountry(rs: seq<HealthData>, country: Option<string>): (r: seq<HealthData>)
    ensures FilterActive(country) ==> forall d :: d in r ==> d.country == country.value
    ensures forall d :: d in r ==> d in rs
    ensures FilterActive(country) ==> forall d :: d in rs && d.country == country.value ==> d in r
    ensures !FilterActive(country) ==> r == rs
  {
    if !FilterActive(country) || rs == [] then (if FilterActive(country) then [] else rs)
    else (if rs[0].country == country.value then [rs[0]] else []) + FilterCountry(rs[1..], country)
  }

  /**
   * The filter keeps the order of the list: filtering a concatenation is
   * filtering each part, so a reading kept from the front stays in front.
   */
  lemma {:induction false} FilterCountryAppend(a: seq<HealthData>, b: seq<HealthData>, country: Option<string>)
    ensures FilterCountry(a + b, country) == FilterCountry(a, country) + FilterCountry(b, country)
  {
    if FilterActive(country) && a != [] {
      assert (a + b)[0] == a[0];
      assert (a + b)[1..] == a[1..] + b;
      FilterCountryAppend(a[1..], b, country);
    } else if a == [] {
      assert a + b == b;
    }
  }

  // ---------------------------------------------------------------------------
  // Synthetic readings

  datatype IndicatorSpec = IndicatorSpec(name: string, category: string, baseValue: int, variance: int)

  const INDICATORS: seq<IndicatorSpec> := [
    IndicatorSpec("Total Cases", "disease", 500000, 200000),
    IndicatorSpec("Deaths", "mortality", 15000, 5000),
    IndicatorSpec("Recovered", "disease", 450000, 150000),
    IndicatorSpec("Active Cases", "disease", 35000, 15000),
    IndicatorSpec("Vaccination Rate", "vaccination", 75, 20),
    IndicatorSpec("Life Expectancy", "health", 72, 5),
    IndicatorSpec("Infant Mortality", "mortality", 20, 10)
  ]

  const MOCK_SIZE := 42

  /**
   * The draws of one call of the fallback generator: for reading `i`, the offset
   * `floor((Math.random() - 0.5) * 2 * variance)`, an integer in
   * `[-variance, variance - 1]` of its indicator.
   */
  predicate ValidDraws(draws: seq<int>)
  {
    |draws| == MOCK_SIZE &&
    forall i :: 0 <= i < MOCK_SIZE ==>
      -INDICATORS[i % 7].variance <= draws[i] <= INDICATORS[i % 7].variance - 1
  }

  function MockReading(country: string, spec: IndicatorSpec, offset: int, nowMs: int): HealthData
  {
    var value := spec.baseValue + offset;
    HealthData(country, spec.name, Max(0, value), spec.category, nowMs,
               spec.category == "mortality" && value > spec.baseValue + spec.variance)
  }

  /** `generateEnhancedMockData`: every roster country crossed with every indicator, country-major. */
  function MockData(draws: seq<int>, nowMs: int): (r: seq<HealthData>)
    requires ValidDraws(draws)
    ensures |r| == MOCK_SIZE
    ensures forall i :: 0 <= i < MOCK_SIZE ==>
      r[i].country == COUNTRIES[i / 7] && r[i].indicator == INDICATORS[i % 7].name &&
      r[i].value == Max(0, INDICATORS[i % 7].baseValue + draws[i])
  {
    seq(MOCK_SIZE, i requires 0 <= i < MOCK_SIZE => MockReading(COUNTRIES[i / 7], INDICATORS[i % 7], draws[i], nowMs))
  }

  /** Every synthetic value lies in `[0, base + variance - 1]`, so none is ever flagged as an alert. */
  lemma MockDataBounds(draws: seq<int>, nowMs: int)
    requires ValidDraws(draws)
    ensures forall i :: 0 <= i < MOCK_SIZE ==>
      0 <= MockData(draws, nowMs)[i].value <= INDICATORS[i % 7].baseValue + INDICATORS[i % 7].variance - 1 &&
      !MockData(draws, nowMs)[i].isAlert
  {
    var r := MockData(draws, nowMs);
    forall i | 0 <= i < MOCK_SIZE
      ensures 0 <= r[i].value <= INDICATORS[i % 7].baseValue + INDICATORS[i % 7].variance - 1 && !r[i].isAlert
    {
      assert r[i] == MockReading(COUNTRIES[i / 7], INDICATORS[i % 7], draws[i], nowMs);
      assert 0 <= INDICATORS[i % 7].baseValue;
    }
  }

  /** The synthetic set holds one reading per (country, indicator) pair of the roster. */
  lemma MockDataPairsDistinct(draws: seq<int>, nowMs: int)
    requires ValidDraws(draws)
    ensures forall i, j :: 0 <= i < j < MOCK_SIZE ==>
      (MockData(draws, nowMs)[i].country, MockData(draws, nowMs)[i].indicator) !=
      (MockData(draws, nowMs)[j].country, MockData(draws, nowMs)[j].indicator)
  {
    var r := MockData(draws, nowMs);
    forall i, j | 0 <= i < j < MOCK_SIZE
      ensures (r[i].country, r[i].indicator) != (r[j].country, r[j].indicator)
    {
      if i / 7 == j / 7 {
        assert i % 7 != j % 7;
        assert INDICATORS[i % 7].name != INDICATORS[j % 7].name;
      } else {
        assert COUNTRIES[i / 7] != COUNTRIES[j / 7];
      }
    }
  }

  // ---------------------------------------------------------------------------
  // The synthetic single update

  const UPDATE_INDICATORS: seq<string> := ["Total Cases", "Deaths", "Recovered", "Active Cases", "Vaccination Rate"]

  /**
   * The draws of one `generateMockUpdate` call, already floored:
   * `floor(r * 6)`, `floor(r * 5)`, `floor(r * 50000)` and `floor(r * 1000)`.
   */
  datatype UpdateDraws = UpdateDraws(country: nat, indicator: nat, value: nat, change: nat)

  predicate ValidUpdateDraws(d: UpdateDraws)
  {
    d.country < 6 && d.indicator < 5 && d.value < 50000 && d.change < 1000
  }

  /** `generateMockUpdate`, at clock reading `nowMs` (milliseconds). */
  function MockUpdate(d: UpdateDraws, nowMs: int): (u: UpdateEvent)
    requires ValidUpdateDraws(d)
    ensures u.country in COUNTRIES && u.indicator in UPDATE_INDICATORS
    ensures 1000 <= u.value <= 50999 && -500 <= u.change <= 499
    ensures u.timestamp * 1000 <= nowMs < u.timestamp * 1000 + 1000
  {
    UpdateEvent(COUNTRIES[d.country], UPDATE_INDICATORS[d.indicator], d.value + 1000, d.change - 500, nowMs / 1000)
  }

  // ---------------------------------------------------------------------------
  // fetchWHOIndicators

  /** What `fetchWHOIndicators` returns, as a function of the endpoint responses. */
  function Fetched(country: Option<string>, responses: seq<Option<seq<Item>>>, nowMs: int, draws: seq<int>): (r: seq<HealthData>)
    requires ValidDraws(draws)
    ensures FilterActive(country) ==> forall d :: d in r ==> d.country == country.value
    ensures !FilterActive(country) ==> r != []
  {
    var t := Transformed(country, responses, nowMs);
    if t != [] then GroupLatestNonEmpty(t, Key, DateOf); FilterCountry(GroupLatest(t, Key, DateOf), country)
    else FilterCountry(MockData(draws, nowMs), country)
  }

  /** The country filter keeps a list whose readings all pass it, unchanged. */
  lemma {:induction false} FilterCountryKeeps(rs: seq<HealthData>, country: Option<string>)
    requires FilterActive(country) ==> forall d :: d in rs ==> d.country == country.value
    ensures FilterCountry(rs, country) == rs
  {
    if FilterActive(country) && rs != [] {
      assert rs[0] in rs;
      FilterCountryKeeps(rs[1..], country);
      assert rs == [rs[0]] + rs[1..];
    }
  }

  /**
   * When an endpoint yields readings, the result is exactly their grouping to
   * the latest per key: the final country filter removes nothing, because the
   * transform already names every reading after the filter.
   */
  lemma FetchedReal(country: Option<string>, responses: seq<Option<seq<Item>>>, nowMs: int, draws: seq<int>)
    requires ValidDraws(draws)
    requires Transformed(country, responses, nowMs) != []
    ensures Fetched(country, responses, nowMs, draws) == GroupLatest(Transformed(country, responses, nowMs), Key, DateOf)
  {
    var t := Transformed(country, responses, nowMs);
    TransformedReadings(country, responses, nowMs);
    GroupLatestSubset(t, Key, DateOf);
    FilterCountryKeeps(GroupLatest(t, Key, DateOf), country);
  }

  /**
   * `items.forEach(body)`, where the callback pushes onto a shared array,
   * skips the item or throws; `threw` says that a throw ended it.
   */
  method ForEach<T>(items: seq<T>, body: T -> Outcome, transformed0: seq<HealthData>)
    returns (transformed: seq<HealthData>, threw: bool)
    ensures transformed == transformed0 + Run(Outcomes(body, items)).pushed
    ensures threw == Run(Outcomes(body, items)).threw
  {
    ghost var os := Outcomes(body, items);
    transformed := transformed0;
    threw := false;
    var j := 0;
    while j < |items| && !threw
      invariant 0 <= j <= |items|
      invariant transformed == transformed0 + Run(os[..j]).pushed
      invariant threw == Run(os[..j]).threw
    {
      assert os[..j + 1][..j] == os[..j];
      assert Run(os[..j + 1]) == Advance(Run(os[..j]), os[j]);
      match body(items[j]) {
        case Pushed(d) =>
          transformed := transformed + [d];
        case Skipped =>
        case Threw =>
          threw := true;
      }
      j := j + 1;
    }
    if threw {
      RunSticks(os, j);
    } else {
      assert os[..j] == os;
    }
  }

  /** The `forEach` over the first 100 items of one endpoint's response, with the item transform as its callback. */
  method TransformItems(country: Option<string>, items: seq<Item>, nowMs: int, transformed0: seq<HealthData>)
    returns (transformed: seq<HealthData>, threw: bool)
    ensures transformed == transformed0 + TransformAll(country, items, nowMs).pushed
    ensures threw == TransformAll(country, items, nowMs).threw
  {
    transformed, threw := ForEach(items, Body(country, nowMs), transformed0);
  }

  /**
   * The endpoint loop of `fetchWHOIndicators`: each endpoint's pass pushes
   * onto one shared array; a pass that throws is caught and the loop
   * continues, and one that completes ends it once anything has been pushed.
   */
  method TransformEndpoints(country: Option<string>, responses: seq<Option<seq<Item>>>, nowMs: int)
    returns (transformed: seq<HealthData>)
    ensures transformed == Transformed(country, responses, nowMs)
  {
    transformed := [];
    var e := 0;
    while e < |responses|
      invariant 0 <= e <= |responses|
      invariant Transformed(country, responses, nowMs) == Endpoints(PassOf(country, nowMs), responses[e..], transformed)
    {
      var data := responses[e];
      ghost var acc := transformed;
      ghost var p := EndpointPass(country, data, nowMs);
      assert PassOf(country, nowMs)(data) == p;
      assert responses[e..][0] == data && responses[e..][1..] == responses[e + 1..];
      if data.Some? && |data.value| > 0 {
        var threw;
        transformed, threw := TransformItems(country, data.value[..Min(MAX_ITEMS, |data.value|)], nowMs, transformed);
        assert transformed == acc + p.pushed && threw == p.threw;
        if !threw && |transformed| > 0 {
          break;
        }
      } else {
        assert acc + p.pushed == acc;
      }
      assert Endpoints(PassOf(country, nowMs), responses[e..], acc) ==
        Endpoints(PassOf(country, nowMs), responses[e + 1..], transformed);
      e := e + 1;
    }
  }

  /** `position` maps each key of `values` to the index holding it. */
  ghost predicate Indexes<T>(position: map<string, nat>, values: seq<T>, key: T -> string)
  {
    (forall k :: k in position ==> position[k] < |values| && key(values[position[k]]) == k) &&
    (forall j :: 0 <= j < |values| ==> key(values[j]) in position)
  }

  /** One `forEach` step of the grouping: `grouped.has`, `grouped.get` and `grouped.set` on the position map. */
  method PlaceItem<T>(values: seq<T>, position: map<string, nat>, item: T, key: T -> string, date: T -> int)
    returns (values': seq<T>, position': map<string, nat>)
    requires DistinctKeys(values, key) && Indexes(position, values, key)
    ensures values' == Place(values, item, key, date)
    ensures Indexes(position', values', key)
  {
    var k := key(item);
    if k !in position {
      PlaceNew(values, item, key, date);
      position' := position[k := |values|];
      values' := values + [item];
    } else {
      var j := position[k];
      PlaceExisting(values, item, key, date, j);
      position' := position;
      values' := if date(item) > date(values[j]) then values[j := item] else values;
    }
  }

  /**
   * The grouping loop of `fetchWHOIndicators`. The source's `Map` from key to
   * element, read back in insertion order, is held as the sequence of its
   * values plus the position of each key in that sequence.
   */
  method GroupByKey<T>(items: seq<T>, key: T -> string, date: T -> int) returns (values: seq<T>)
    ensures values == GroupLatest(items, key, date)
  {
    values := [];
    var position: map<string, nat> := map[];
    var i := 0;
    while i < |items|
      invariant 0 <= i <= |items|
      invariant values == GroupLatest(items[..i], key, date)
      invariant DistinctKeys(values, key)
      invariant Indexes(position, values, key)
    {
      assert items[..i + 1][..i] == items[..i];
      assert GroupLatest(items[..i + 1], key, date) == Place(values, items[i], key, date);
      values, position := PlaceItem(values, position, items[i], key, date);
      GroupLatestDistinct(items[..i + 1], key, date);
      i := i + 1;
    }
    assert items[..i] == items;
  }

  /**
   * `fetchWHOIndicators`: tries the endpoints in order, keeps the readings of
   * the first one that yields any, groups them by key keeping the latest, and
   * otherwise falls back to the synthetic set; either way filtered by country.
   */
  method FetchIndicators(country: Option<string>, responses: seq<Option<seq<Item>>>, nowMs: int, draws: seq<int>)
    returns (result: seq<HealthData>)
    requires ValidDraws(draws)
    ensures result == Fetched(country, responses, nowMs, draws)
  {
    var transformed := TransformEndpoints(country, responses, nowMs);
    if |transformed| > 0 {
      var values := GroupByKey(transformed, Key, DateOf);
      result := FilterCountry(values, country);
    } else {
      result := FilterCountry(MockData(draws, nowMs), country);
    }
  }
}

=== FILE: world_map.dfy ===
/**
 * The world map (components/WorldMap.tsx): the per-country sums of Total
 * Cases, each drawn on the country's map key in a colour band chosen by its
 * share of the largest sum, with its deaths and recoveries in the tooltip.
 * Only the data preparation is modelled; the map drawing is not.
 */
module WorldMap {

  import opened Common
  import opened HealthRows

  // ---------------------------------------------------------------------------
  // getColorByValue

  /** The colour bands, from "no data" through the five neon shades. */
  datatype Band = NoData | High | MediumHigh | Medium | LowMedium | Low

  function Color(b: Band): string
  {
    match b
    case NoData => "#1a1a1a"
    case High => "hsl(326, 78%, 68%)"
    case MediumHigh => "hsl(182, 91%, 60%)"
    case Medium => "hsl(48, 96%, 63%)"
    case LowMedium => "hsl(142, 76%, 55%)"
    case Low => "hsl(25, 95%, 63%)"
  }

  /**
   * The band of `getColorByValue(value, maxValue)`: the ratio thresholds 0.8,
   * 0.6, 0.4 and 0.2 are compared by cross-multiplication, which is exact.
   */
  function BandOf(value: int, maxValue: int): (b: Band)
    requires maxValue >= 1
    ensures b == NoData <==> value == 0
    ensures value != 0 ==>
      var ratio := value as real / maxValue as real;
      (b == High <==> ratio >= 0.8) &&
      (b == MediumHigh <==> 0.6 <= ratio < 0.8) &&
      (b == Medium <==> 0.4 <= ratio < 0.6) &&
      (b == LowMedium <==> 0.2 <= ratio < 0.4) &&
      (b == Low <==> ratio < 0.2)
  {
    RatioAtLeast(value, maxValue, 4);
    RatioAtLeast(value, maxValue, 3);
    RatioAtLeast(value, maxValue, 2);
    RatioAtLeast(value, maxValue, 1);
    if value == 0 then NoData
    else if 5 * value >= 4 * maxValue then High
    else if 5 * value >= 3 * maxValue then MediumHigh
    else if 5 * value >= 2 * maxValue then Medium
    else if 5 * value >= maxValue then LowMedium
    else Low
  }

  /** Comparing the ratio with k/5 is comparing 5·value with k·maxValue. */
  lemma RatioAtLeast(value: int, maxValue: int, k: int)
    requires maxValue >= 1
    ensures value as real / maxValue as real >= k as real / 5.0 <==> 5 * value >= k * maxValue
  {
    var m := maxValue as real;
    var r := value as real / m;
    assert r * m == value as real;
    if r >= k as real / 5.0 {
      assert r * m >= (k as real / 5.0) * m;
    } else {
      assert r * m < (k as real / 5.0) * m;
    }
  }

  /** How high a band sits; "no data" is below every colour. */
  function Level(b: Band): nat
  {
    match b
    case NoData => 0
    case Low => 1
    case LowMedium => 2
    case Medium => 3
    case MediumHigh => 4
    case High => 5
  }

  /** For one maximum, a larger nonzero value never gets a lower band. */
  lemma BandMonotone(v1: int, v2: int, maxValue: int)
    requires maxValue >= 1 && v1 != 0 && v2 != 0 && v1 <= v2
    ensures Level(BandOf(v1, maxValue)) <= Level(BandOf(v2, maxValue))
  {
  }

  /** Zero is "no data" whatever the maximum, even when every value is zero. */
  lemma ZeroIsNoData(maxValue: int)
    requires maxValue >= 1
    ensures Color(BandOf(0, maxValue)) == "#1a1a1a"
  {
  }

  // ---------------------------------------------------------------------------
  // Map keys

  /** `COUNTRY_TO_HCKEY` */
  const HC_KEYS: map<string, string> := map[
    "Indonesia" := "id", "Malaysia" := "my", "Singapore" := "sg", "Thailand" := "th",
    "Philippines" := "ph", "Vietnam" := "vn", "India" := "in", "China" := "cn",
    "Japan" := "jp", "South Korea" := "kr", "Australia" := "au", "New Zealand" := "nz",
    "United States" := "us", "United Kingdom" := "gb", "France" := "fr", "Germany" := "de",
    "Brazil" := "br", "Mexico" := "mx", "Canada" := "ca", "Russia" := "ru"]

  /** `COUNTRY_TO_HCKEY[country] || country.toLowerCase().substring(0, 2)` */
  function HcKey(country: string): (k: string)
    ensures country in HC_KEYS ==> k == HC_KEYS[country]
    ensures country !in HC_KEYS ==> k == Lower(country)[..Min(2, |country|)]
  {
    if country in HC_KEYS && HC_KEYS[country] != "" then HC_KEYS[country]
    else Take(Lower(country), 2)
  }

  /** Every map key has at most two characters and no upper-case ASCII letter. */
  lemma HcKeyShape(country: string)
    ensures |HcKey(country)| <= 2
    ensures forall i :: 0 <= i < |HcKey(country)| ==> !('A' <= HcKey(country)[i] <= 'Z')
  {
  }

  // ---------------------------------------------------------------------------
  // processedData

  /** `Math.max(...Object.values(countryData), 1)` */
  function MaxValue(totals: seq<CountryTotal>): (m: int)
    ensures m >= 1
    ensures forall i :: 0 <= i < |totals| ==> totals[i].total <= m
    ensures m == 1 || exists i :: 0 <= i < |totals| && totals[i].total == m
  {
    if totals == [] then 1
    else
      var p := MaxValue(totals[..|totals| - 1]);
      assert forall i :: 0 <= i < |totals| - 1 ==> totals[..|totals| - 1][i] == totals[i];
      Max(p, totals[|totals| - 1].total)
  }

  /** One map point: key, value in thousands, colour, and the tooltip's deaths (hundreds) and recoveries (thousands). */
  datatype MapPoint = MapPoint(hcKey: string, value: int, color: string, deathsHundreds: int, recoveredThousands: int)

  function PointOf(rows: seq<Row>, e: CountryTotal, maxValue: int): MapPoint
    requires maxValue >= 1
  {
    MapPoint(HcKey(e.country), e.total / 1000, Color(BandOf(e.total, maxValue)),
             Scaled(rows, e.country, DEATHS, 100), Scaled(rows, e.country, RECOVERED, 1000))
  }

  /** `processedData`: the map points and the maximum. */
  datatype Processed = Processed(mapData: seq<MapPoint>, maxValue: int)

  function ProcessedData(rows: seq<Row>): (p: Processed)
    ensures p.maxValue >= 1
    ensures |p.mapData| == |FirstDistinct(IndicatorCountries(rows, TOTAL_CASES))|
  {
    var totals := GroupSum(rows, TOTAL_CASES);
    var m := MaxValue(totals);
    Processed(seq(|totals|, i requires 0 <= i < |totals| => PointOf(rows, totals[i], m)), m)
  }

  /**
   * One point per country with Total Cases rows, in first-appearance order;
   * its value is the country's summed Total Cases in thousands, and the
   * maximum is at least every sum.
   */
  lemma ProcessedPoints(rows: seq<Row>)
    ensures var p := ProcessedData(rows);
      var cs := FirstDistinct(IndicatorCountries(rows, TOTAL_CASES));
      p.maxValue >= 1 &&
      (forall c :: c in cs ==> SumFor(rows, TOTAL_CASES, c) <= p.maxValue) &&
      forall i :: 0 <= i < |p.mapData| ==>
        p.mapData[i].hcKey == HcKey(cs[i]) &&
        p.mapData[i].value * 1000 <= SumFor(rows, TOTAL_CASES, cs[i]) < (p.mapData[i].value + 1) * 1000 &&
        p.mapData[i].color == Color(BandOf(SumFor(rows, TOTAL_CASES, cs[i]), p.maxValue))
  {
    var totals := GroupSum(rows, TOTAL_CASES);
    GroupSumEntries(rows, TOTAL_CASES);
    var cs := FirstDistinct(IndicatorCountries(rows, TOTAL_CASES));
    forall c | c in cs
      ensures SumFor(rows, TOTAL_CASES, c) <= MaxValue(totals)
    {
      var k :| 0 <= k < |totals| && Names(totals)[k] == c;
    }
    forall i | 0 <= i < |totals|
      ensures Names(totals)[i] == cs[i]
    {
    }
  }

  /** The country with the largest positive sum is drawn in the top band. */
  lemma LargestIsHigh(rows: seq<Row>, i: nat)
    requires var p := ProcessedData(rows); i < |p.mapData|
    requires var cs := FirstDistinct(IndicatorCountries(rows, TOTAL_CASES));
      SumFor(rows, TOTAL_CASES, cs[i]) > 0 &&
      forall c :: c in cs ==> SumFor(rows, TOTAL_CASES, c) <= SumFor(rows, TOTAL_CASES, cs[i])
    ensures ProcessedData(rows).mapData[i].color == Color(High)
  {
    var totals := GroupSum(rows, TOTAL_CASES);
    var cs := FirstDistinct(IndicatorCountries(rows, TOTAL_CASES));
    GroupSumEntries(rows, TOTAL_CASES);
    var m := MaxValue(totals);
    assert Names(totals)[i] == cs[i];
    assert totals[i].total == SumFor(rows, TOTAL_CASES, cs[i]);
    if m != 1 {
      var j :| 0 <= j < |totals| && totals[j].total == m;
      assert Names(totals)[j] in cs;
    }
    assert m == totals[i].total;
  }
}
